=== FILE: README.md ===
# arXiv tracker core, modelled in Dafny

This project models the pipeline core of the arXiv tracker, a Python
application that does the following:

- crawls arXiv listing pages for a set of categories;
- downloads the papers' PDFs into one directory per day;
- extracts the title, the authors and the abstract from the first pages of each PDF;
- asks a language-model service to analyze each paper.

The model also covers the two JSON-file stores the pipeline keeps, a
run-state store and a key/value cache with a time to live, and the loading
of the configuration. Each stage is modelled as the source writes it:

| Module | File | Source | Form |
|---|---|---|---|
| `Values` | `values.dfy` | (shared) | Python dicts and JSON values (`Json`, `Paper`), truthiness, `dict.get`, and the outcome of a file save |
| `Text` | `text.dfy` | (shared) | `str.strip`, `str.split`, `str.replace(p, "")`, `str.startswith`, slices and `os.path.join`, with their laws |
| `Crawler` | `crawler.dfy` | `crawler.py` | Parsing of listing entries; the capped scan of a category (a method with a loop); the merge and cut of all categories (a method) |
| `Downloader` | `downloader.dfy` | `downloader.py` | One download task as a function over a file system; the batch as a loop in completion order |
| `Extractor` | `extractor.dfy` | `extractor.py` | First-match searches as functions; the page loop, the author parser and the extraction loop as methods |
| `Analyzer` | `analyzer.dfy` | `analyzer.py` | The prompt, reply parsing and per-paper analysis as functions; the batch loop as a method |
| `RunState` | `state_manager.dfy` | `utils/state_manager.py` | A `StateManager` class whose methods update the state and the file it is saved to |
| `Cache` | `cache_manager.dfy` | `utils/cache_manager.py` | A `CacheManager` class, likewise |
| `Config` | `config.dfy` | `utils/config.py` | `load_config` as a method with the path-rewriting loop, specified by functions |

The model stands in for the outside world as follows:

- **Network, PDF library, language-model service, regular-expression engine, JSON decoder.** Each is a function parameter (an oracle).
- **File systems.** Each is a map from path to contents.
- **Clock.** The current time is a parameter.
- **Thread pools.** Each becomes a sequential loop over an arbitrary completion order, given as a permutation of the submitted tasks.

## Model

| member | source | states |
|---|---|---|
| Values.Get | arXiv_app/src/arxiv_tracker/utils/state_manager.py:78 | `d.get(key, default)` is the stored value when the key is present and the default otherwise |
| Values.Str | arXiv_app/src/arxiv_tracker/downloader.py:88 | `str(x)` inside an f-string renders to empty text exactly for the empty string, so every other id gives a non-empty file stem |
| Text.LStrip | arXiv_app/src/arxiv_tracker/crawler.py:110 | The result is a suffix of the input, everything dropped is whitespace, and it does not start with whitespace |
| Text.RStrip | arXiv_app/src/arxiv_tracker/crawler.py:110 | The result is a prefix of the input, everything dropped is whitespace, and it does not end with whitespace |
| Text.Strip | arXiv_app/src/arxiv_tracker/crawler.py:110 | The result is no longer than the input and has no whitespace at either end |
| Text.StripTrimmed | arXiv_app/src/arxiv_tracker/crawler.py:110 | A string with no whitespace at either end strips to itself |
| Text.StripLeadingSpace | arXiv_app/src/arxiv_tracker/crawler.py:110 | A leading whitespace character does not change the strip |
| Text.StripKeepsOut | arXiv_app/src/arxiv_tracker/crawler.py:111 | Stripping never introduces a character that was absent |
| Text.StripIdempotent | arXiv_app/src/arxiv_tracker/crawler.py:110 | Stripping twice is stripping once |
| Text.Split | arXiv_app/src/arxiv_tracker/extractor.py:171 | A split always yields at least one piece |
| Text.JoinWith | arXiv_app/src/arxiv_tracker/analyzer.py:106 | `sep.join(parts)`; `JoinThenSplit` states that splitting the join gives the parts back |
| Text.JoinThenSplit | arXiv_app/src/arxiv_tracker/analyzer.py:106 | Splitting `sep.join(parts)` on `sep` gives `parts` back when no part holds the separator's first character |
| Text.SplitSingle | arXiv_app/src/arxiv_tracker/extractor.py:171-172 | A one-piece split is the whole string |
| Text.SplitMany | arXiv_app/src/arxiv_tracker/extractor.py:172 | A split yields more than one piece exactly when the separator occurs |
| Text.SplitPiecesFree | arXiv_app/src/arxiv_tracker/extractor.py:171 | No piece of a split contains the separator |
| Text.SplitPrefixFirst | arXiv_app/src/arxiv_tracker/extractor.py:171 | The first piece of a split is a prefix of the string |
| Text.AfterLast | arXiv_app/src/arxiv_tracker/crawler.py:111 | `s.split(c)[-1]` holds no `c`, is a suffix of `s`, is preceded by a `c` when shorter than `s`, and is all of `s` when `c` is absent |
| Text.SplitCharAbsent | arXiv_app/src/arxiv_tracker/crawler.py:111 | Splitting on an absent character gives the whole string |
| Text.SplitCharAt | arXiv_app/src/arxiv_tracker/crawler.py:111 | Splitting on `c` cuts right after the first `c` |
| Text.RemoveAll | arXiv_app/src/arxiv_tracker/crawler.py:116 | `replace(pat, "")` never lengthens the text; `RemoveAllAbsent`, `RemoveAllLeading` and `RemoveAllRemoves` state what it removes |
| Text.RemoveAllAbsent | arXiv_app/src/arxiv_tracker/crawler.py:116 | Removing a pattern that does not occur changes nothing |
| Text.RemoveAllLeading | arXiv_app/src/arxiv_tracker/crawler.py:116 | A leading occurrence is removed and the rest is processed as if it stood alone |
| Text.RemoveAllRemoves | arXiv_app/src/arxiv_tracker/crawler.py:116 | When the pattern occurs, the result is shorter by at least one whole occurrence |
| Text.Slice | arXiv_app/src/arxiv_tracker/crawler.py:64-66 | `s[i:j]` clamps to the string: it is exactly `s[i:j]` when `i <= j <= len(s)`, the rest of `s` from `i` when `j` runs past the end, and empty when `i` is past `j` |
| Text.Prefix | arXiv_app/src/arxiv_tracker/crawler.py:52-53 | `xs[:n]` is a prefix of `xs`, has length `n` when `0 <= n <= len(xs)` and is all of `xs` when `n >= len(xs)`; a negative `n` counts from the end |
| Text.PathJoin | arXiv_app/src/arxiv_tracker/downloader.py:89 | `os.path.join(a, b)` is `b` when `b` is absolute; otherwise it starts with `a` and ends with `b` |
| Text.PathJoinKeepsSuffix | arXiv_app/src/arxiv_tracker/downloader.py:89 | A joined path ends with the last characters of the joined name, so `<id>.pdf` keeps its `.pdf` |
| Text.PathJoinRelativeInjective | arXiv_app/src/arxiv_tracker/downloader.py:89 | Joining one directory with two relative names gives the same path exactly when the names are equal |
| Crawler.ListingUrl | arXiv_app/src/arxiv_tracker/crawler.py:62-70 | Every listing URL is `<base>/list/<category>/...`; without a date (missing or empty) it is exactly `<base>/list/<category>/new` |
| Crawler.ListingUrlIgnoresDay | arXiv_app/src/arxiv_tracker/crawler.py:64-67 | Two dates in the same month give the same URL: the day is computed but never used |
| Crawler.ListingUrlForDate | arXiv_app/src/arxiv_tracker/crawler.py:64-67 | A date gives the `<yyyy>-<mm>` month listing |
| Crawler.IdOf | arXiv_app/src/arxiv_tracker/crawler.py:110-111 | The id holds no colon and is stripped; without a colon, it is the stripped link text |
| Crawler.IdOfPrefixed | arXiv_app/src/arxiv_tracker/crawler.py:110-111 | For an `arXiv:<id>` link, the id is exactly the part after the colon |
| Crawler.AfterLastColon | arXiv_app/src/arxiv_tracker/crawler.py:111 | After the last colon of `prefix:id` comes `id` |
| Crawler.TitleOf | arXiv_app/src/arxiv_tracker/crawler.py:114-118 | The title is stripped and empty without the title div; a div without "Title:" gives its stripped text, and one with it loses at least the six label characters |
| Crawler.TitleOfLabelled | arXiv_app/src/arxiv_tracker/crawler.py:116 | A div reading "Title:" and then a title without another label gives that title, stripped |
| Crawler.AuthorsOfDd | arXiv_app/src/arxiv_tracker/crawler.py:121-125 | The `k`-th name is the `k`-th author link's text, stripped; none without the authors div |
| Crawler.PdfUrlOf | arXiv_app/src/arxiv_tracker/crawler.py:134-137 | `pdf_url` is empty exactly when there is no PDF link; otherwise it is the base URL followed by the link's `href`, or by "None" when the link has none |
| Crawler.Record | arXiv_app/src/arxiv_tracker/crawler.py:139-148 | The record has exactly the eight keys, each holding its value; `url` is `<base>/abs/<id>` |
| Crawler.ParsePaper | arXiv_app/src/arxiv_tracker/crawler.py:102-150 | No record exactly when the Abstract link is missing; otherwise a record with the eight keys, stamped with the category |
| Crawler.Parsed | arXiv_app/src/arxiv_tracker/crawler.py:88-89 | `zip` pairs entries by position, as many as the shorter list |
| Crawler.TakeIsPrefix | arXiv_app/src/arxiv_tracker/crawler.py:88-95 | Taking `n` keeps at most `n` elements and they open the list |
| Crawler.ScanIsPrefix | arXiv_app/src/arxiv_tracker/crawler.py:88-95 | The capped scan keeps the first parsed records, in listing order, as many as the cap leaves room for, and at least one |
| Crawler.SomesOfCategory | arXiv_app/src/arxiv_tracker/crawler.py:144 | Records kept from results that all carry a category carry it too |
| Crawler.CategoryPapers | arXiv_app/src/arxiv_tracker/crawler.py:57-100 | `_crawl_category` as a value: no records on a fetch error or a page without `<dl>`, otherwise the capped scan; its properties are `CategoryPapersArePrefix`, `CategoryPapersBound`, `CategoryPapersStamped`, and `CrawlCategory` computes it |
| Crawler.CategoryPapersArePrefix | arXiv_app/src/arxiv_tracker/crawler.py:72-100 | A category yields the first parsed entries of the first `<dl>`, capped |
| Crawler.CategoryPapersBound | arXiv_app/src/arxiv_tracker/crawler.py:93-95 | A category yields at most `cap` records, or one when `cap` is below one |
| Crawler.CategoryPapersStamped | arXiv_app/src/arxiv_tracker/crawler.py:144 | Every record a category yields carries that category |
| Crawler.CrawlCategory | arXiv_app/src/arxiv_tracker/crawler.py:57-100 | The method's loop returns exactly `CategoryPapers`: nothing on a fetch error or a page without `<dl>`, otherwise the capped scan |
| Crawler.ScanAt | arXiv_app/src/arxiv_tracker/crawler.py:88-95 | One more loop turn is one step of the scan |
| Crawler.StampedConcat | arXiv_app/src/arxiv_tracker/crawler.py:45 | Extending a stamped list with a stamped list keeps it stamped |
| Crawler.Merged | arXiv_app/src/arxiv_tracker/crawler.py:41-45 | The per-category results concatenated in completion order; its properties are `MergedBound` and `MergedStamped`, and `Crawl` returns it |
| Crawler.MergedBound | arXiv_app/src/arxiv_tracker/crawler.py:41-45 | The merged list has at most one cap's worth of records per category |
| Crawler.MergedStamped | arXiv_app/src/arxiv_tracker/crawler.py:41-45 | Every merged record carries one of the requested categories |
| Crawler.Crawl | arXiv_app/src/arxiv_tracker/crawler.py:23-55 | `crawl` returns the per-category results in completion order, cut to `max_count`; it holds at most `max_count` records and exactly that many when more were found |
| Downloader.TargetPath | arXiv_app/src/arxiv_tracker/downloader.py:88-89 | The path ends in `<id>.pdf`, with the id rendered as an f-string renders it, and lies under the directory unless the id itself is an absolute path |
| Downloader.TargetPathNamesById | arXiv_app/src/arxiv_tracker/downloader.py:88-89 | In one directory, two relative ids share a file exactly when they render to the same text |
| Downloader.DayDir | arXiv_app/src/arxiv_tracker/downloader.py:36-40 | The directory ends with the date when one is given and with today's date otherwise; a relative date lies under the storage directory |
| Downloader.Target | arXiv_app/src/arxiv_tracker/downloader.py:88-89 | The target of a paper is `TargetPath` of its `arxiv_id`; `TargetPath` and `TargetPathNamesById` state its shape |
| Downloader.Eligible | arXiv_app/src/arxiv_tracker/downloader.py:83-85 | A paper is fetched only with a truthy id and URL; `DownloadPaperQuiet` states that an ineligible paper causes no file activity and no request, and `RunAllOutChanged` that only eligible papers change |
| Downloader.GrowsTrans | arXiv_app/src/arxiv_tracker/downloader.py:78-134 | "Files are only added" composes |
| Downloader.GrowsKeeps | arXiv_app/src/arxiv_tracker/downloader.py:78-134 | A file present before is present after |
| Downloader.Written | arXiv_app/src/arxiv_tracker/downloader.py:112-123 | Only the target can appear, exactly when bytes were written, with that size; an empty file is removed |
| Downloader.DownloadPaper | arXiv_app/src/arxiv_tracker/downloader.py:78-134 | The paper comes back unchanged or linked to its target on disk; files only grow, and a new file is never empty; a request is made exactly for an eligible paper whose target is missing; an existing target, or a non-empty download, links the paper |
| Downloader.DownloadPaperQuiet | arXiv_app/src/arxiv_tracker/downloader.py:83-123 | A paper without id or URL comes back as it was, with no file activity and no request; a missing target is linked only after a non-empty download; a download that wrote no byte leaves no file |
| Downloader.DownloadPresent | arXiv_app/src/arxiv_tracker/downloader.py:92-95 | An existing target links the paper with no request and no file change |
| Downloader.PartialFileTrustedOnRerun | arXiv_app/src/arxiv_tracker/downloader.py:92-95 | A download that fails after writing some bytes leaves a partial file, which a later run links without a request |
| Downloader.Submitted | arXiv_app/src/arxiv_tracker/downloader.py:53-60 | Exactly the papers with a truthy `pdf_url` are submitted, in list order |
| Downloader.CompletionOrderBounds | arXiv_app/src/arxiv_tracker/downloader.py:62-67 | A completion order runs every submitted task once, and only those |
| Downloader.Picked | arXiv_app/src/arxiv_tracker/downloader.py:62-67 | The papers in completion order |
| Downloader.RunAll | arXiv_app/src/arxiv_tracker/downloader.py:62-74 | One returned paper per task |
| Downloader.RunAllGrows | arXiv_app/src/arxiv_tracker/downloader.py:62-74 | A batch only adds files |
| Downloader.RunAllRequestsMissing | arXiv_app/src/arxiv_tracker/downloader.py:92-105 | Every URL requested belongs to a paper whose target was missing |
| Downloader.MissingGrows | arXiv_app/src/arxiv_tracker/downloader.py:92-105 | The missing set of a prefix is contained in that of the whole |
| Downloader.RunAllSnoc | arXiv_app/src/arxiv_tracker/downloader.py:62-74 | A batch is the batch of all but the last task, followed by the last task |
| Downloader.RunAllStable | arXiv_app/src/arxiv_tracker/downloader.py:62-74 | Later tasks change no earlier result and only add files |
| Downloader.RunAllAt | arXiv_app/src/arxiv_tracker/downloader.py:62-74 | The `k`-th result is task `k` run on the files the earlier tasks left |
| Downloader.RunAllOut | arXiv_app/src/arxiv_tracker/downloader.py:62-74 | Each paper comes back in task order, unchanged or linked to its target on disk |
| Downloader.RunAllOutChanged | arXiv_app/src/arxiv_tracker/downloader.py:83-123 | A paper comes back changed only when it is eligible and its target was on disk when its task ran or its download succeeded |
| Downloader.RunAllStepAt | arXiv_app/src/arxiv_tracker/downloader.py:62-74 | A task whose file exists or whose download succeeds returns its paper linked |
| Downloader.RunAllAllPresent | arXiv_app/src/arxiv_tracker/downloader.py:92-95 | When every target exists, no request is made, no file changes and every paper is linked |
| Downloader.RerunIsIdempotent | arXiv_app/src/arxiv_tracker/downloader.py:30-76 | After a successful batch, running it again makes no request and returns the same records |
| Downloader.Download | arXiv_app/src/arxiv_tracker/downloader.py:30-76 | `download` runs one task per paper with a `pdf_url` in the day's directory, in completion order; its result, files and requests are those of `RunAll` |
| Downloader.RunTasks | arXiv_app/src/arxiv_tracker/downloader.py:62-74 | The loop over completed tasks collects, task by task, exactly the papers, files and requests `RunAll` describes for that order |
| Downloader.DownloadOutputs | arXiv_app/src/arxiv_tracker/downloader.py:53-74 | Every returned paper has a `pdf_url` and is a submitted paper, possibly linked |
| Extractor.FirstSomeIndex | arXiv_app/src/arxiv_tracker/extractor.py:114-119 | The first pattern that passes: every earlier one fails |
| Extractor.FirstSome | arXiv_app/src/arxiv_tracker/extractor.py:114-121 | First match wins: None exactly when no pattern passes, otherwise the first that does |
| Extractor.KeepPiece | arXiv_app/src/arxiv_tracker/extractor.py:173-176 | A kept piece is stripped and longer than two characters |
| Extractor.Kept | arXiv_app/src/arxiv_tracker/extractor.py:173-176 | Every kept piece is stripped and longer than two characters; there are no more than pieces |
| Extractor.KeptSnoc | arXiv_app/src/arxiv_tracker/extractor.py:173-176 | One more loop turn adds that piece's contribution |
| Extractor.ChosenFrom | arXiv_app/src/arxiv_tracker/extractor.py:170-177 | The chosen separator splits the text and no earlier one does |
| Extractor.AuthorsOf | arXiv_app/src/arxiv_tracker/extractor.py:162-183 | No author only for empty text; otherwise either the single stripped text or only stripped names longer than two characters |
| Extractor.Committed | arXiv_app/src/arxiv_tracker/extractor.py:170-177 | Every committed name is stripped and longer than two characters |
| Extractor.ParseAuthors | arXiv_app/src/arxiv_tracker/extractor.py:162-183 | The method's loops return exactly `AuthorsOf` |
| Extractor.AuthorsCommitToFirstSeparator | arXiv_app/src/arxiv_tracker/extractor.py:170-177 | The first separator that occurs decides the authors, even when it keeps nothing |
| Extractor.AuthorsWithoutSeparator | arXiv_app/src/arxiv_tracker/extractor.py:179-181 | Without any separator, the stripped text is the one author |
| Extractor.AuthorsOfCommitted | arXiv_app/src/arxiv_tracker/extractor.py:179-181 | When a piece is kept, there is no fallback |
| Extractor.KeptPair | arXiv_app/src/arxiv_tracker/extractor.py:173-176 | Two long pieces are both kept, stripped |
| Extractor.OnlyOneSeparatorApplied | arXiv_app/src/arxiv_tracker/extractor.py:170-177 | `"A, B"` gives exactly `[A, B]` even when `B` holds "and" or ";" |
| Extractor.TitleCandidate | arXiv_app/src/arxiv_tracker/extractor.py:115-119 | A capture passes exactly when it is found and its stripped text is strictly between 10 and 200 characters long; the value is that stripped text |
| Extractor.TitleCandidates | arXiv_app/src/arxiv_tracker/extractor.py:107-112 | One candidate per title pattern, in order |
| Extractor.ExtractTitle | arXiv_app/src/arxiv_tracker/extractor.py:104-121 | The first passing capture, in pattern order, with its length bounds; None exactly when none passes |
| Extractor.AuthorsCandidate | arXiv_app/src/arxiv_tracker/extractor.py:132-138 | A capture passes exactly when it matches and does not strip to empty; the value is the authors parsed from the stripped capture |
| Extractor.AuthorsCandidates | arXiv_app/src/arxiv_tracker/extractor.py:125-129 | One candidate per author pattern, in order |
| Extractor.ExtractAuthors | arXiv_app/src/arxiv_tracker/extractor.py:123-140 | The first capture that yields authors; empty exactly when none does |
| Extractor.AbstractCandidate | arXiv_app/src/arxiv_tracker/extractor.py:150-154 | A capture passes exactly when it is found and its stripped text is longer than 50 characters; the value is that stripped text |
| Extractor.AbstractCandidates | arXiv_app/src/arxiv_tracker/extractor.py:144-147 | One candidate per abstract pattern, in order |
| Extractor.ExtractAbstract | arXiv_app/src/arxiv_tracker/extractor.py:142-160 | The first passing capture; else the stripped first 1000 characters of a longer text; else None |
| Extractor.OptStr | arXiv_app/src/arxiv_tracker/extractor.py:75 | An optional string is truthy exactly when present and non-empty |
| Extractor.SetIfTruthy | arXiv_app/src/arxiv_tracker/extractor.py:75-88 | `if v: paper[key] = v` adds only `key`, only for a truthy value, and changes no other field |
| Extractor.SetIfTruthyNonDestructive | arXiv_app/src/arxiv_tracker/extractor.py:75-88 | One guarded write is non-destructive |
| Extractor.Enrich | arXiv_app/src/arxiv_tracker/extractor.py:73-88 | The three guarded writes of title, authors and abstract; `EnrichNonDestructive` and `EnrichSetsExtracted` state their effect |
| Extractor.NonDestructiveTrans | arXiv_app/src/arxiv_tracker/extractor.py:73-89 | Non-destructive steps compose |
| Extractor.EnrichNonDestructive | arXiv_app/src/arxiv_tracker/extractor.py:73-89 | Enrichment removes no field, changes only title/authors/abstract, and only to non-empty values |
| Extractor.EnrichSetsExtracted | arXiv_app/src/arxiv_tracker/extractor.py:73-89 | Each of the three fields holds its extracted value when non-empty, its old value otherwise |
| Extractor.Window | arXiv_app/src/arxiv_tracker/extractor.py:63 | At most the first five pages, all of a shorter document |
| Extractor.PagesText | arXiv_app/src/arxiv_tracker/extractor.py:63-67 | The pages' texts joined, skipping pages without text; `PagesTextEmpty` states when it is empty, and `ReadText` computes it |
| Extractor.PagesTextEmpty | arXiv_app/src/arxiv_tracker/extractor.py:63-71 | The text is empty exactly when no page in the window has text |
| Extractor.ReadText | arXiv_app/src/arxiv_tracker/extractor.py:61-67 | The page loop returns the concatenated text of the window |
| Extractor.PdfText | arXiv_app/src/arxiv_tracker/extractor.py:41-71 | Text is read only for a record with an id whose PDF exists, and it is non-empty |
| Extractor.Extracted | arXiv_app/src/arxiv_tracker/extractor.py:41-94 | One record after extraction: unchanged without an id, an existing PDF, a readable file or page text, otherwise enriched from the text; `ExtractedNonDestructive` states that it is non-destructive, and `ExtractRecord` computes it |
| Extractor.ExtractedNonDestructive | arXiv_app/src/arxiv_tracker/extractor.py:41-94 | Extracting any record is non-destructive |
| Extractor.ExtractRecord | arXiv_app/src/arxiv_tracker/extractor.py:42-94 | The loop body, with its `continue`s, computes `Extracted` |
| Extractor.ExtractFromPdfs | arXiv_app/src/arxiv_tracker/extractor.py:21-96 | Same length and order; each record is extracted from the day's directory and loses no data |
| Analyzer.AuthorsText | arXiv_app/src/arxiv_tracker/analyzer.py:106 | Falsy authors give "Unknown"; a non-empty list of strings gives them joined with ", "; a list holding a non-string raises |
| Analyzer.AuthorsTextSplits | arXiv_app/src/arxiv_tracker/analyzer.py:106 | Author names without a comma are read back by splitting the joined text on ", " |
| Analyzer.StrValues | arXiv_app/src/arxiv_tracker/analyzer.py:106 | The strings of a list of strings, position by position |
| Analyzer.Chars | arXiv_app/src/arxiv_tracker/analyzer.py:106 | A string iterates as its one-character strings |
| Analyzer.Prompt | arXiv_app/src/arxiv_tracker/analyzer.py:100-130 | The intended prompt is built exactly when the authors can be joined |
| Analyzer.PromptOpensWithTitle | arXiv_app/src/arxiv_tracker/analyzer.py:102-104 | The prompt opens with the intro followed by the title |
| Analyzer.PromptHasSummary | arXiv_app/src/arxiv_tracker/analyzer.py:108 | The prompt contains the abstract |
| Analyzer.SourceSpecSigned | arXiv_app/src/arxiv_tracker/analyzer.py:120-121 | The example reply, read as a format spec, opens with a sign option |
| Analyzer.FormatStr | arXiv_app/src/arxiv_tracker/analyzer.py:120-128 | Formatting a string succeeds exactly for the empty spec; a sign option raises |
| Analyzer.Render | arXiv_app/src/arxiv_tracker/analyzer.py:102-130 | The f-string's text, or a raise when one field raises; `RenderRaises` states when it raises |
| Analyzer.RenderRaises | arXiv_app/src/arxiv_tracker/analyzer.py:102-130 | An f-string with a raising field raises as a whole |
| Analyzer.TemplateAsWritten | arXiv_app/src/arxiv_tracker/analyzer.py:102-130 | As written, the template has a field whose value is `research_question` and whose spec is the example reply |
| Analyzer.PromptAsWrittenRaises | arXiv_app/src/arxiv_tracker/analyzer.py:100-130 | As written, building the prompt raises on every paper |
| Analyzer.FirstIndex | arXiv_app/src/arxiv_tracker/analyzer.py:137 | The first occurrence of a character, or none |
| Analyzer.LastIndex | arXiv_app/src/arxiv_tracker/analyzer.py:137 | The last occurrence of a character, or none |
| Analyzer.BraceSpan | arXiv_app/src/arxiv_tracker/analyzer.py:137-139 | `\{[\s\S]*\}` matches exactly when some `}` follows some `{`; the match runs from the first `{` to the last `}` |
| Analyzer.Candidate | arXiv_app/src/arxiv_tracker/analyzer.py:137-145 | The decoded text is the reply from the first `{` through the last `}` when such a span exists, else the whole reply |
| Analyzer.DefaultAnalysis | arXiv_app/src/arxiv_tracker/analyzer.py:149-157 | Six empty commentary fields and score 5.0 |
| Analyzer.ParseResult | arXiv_app/src/arxiv_tracker/analyzer.py:132-157 | The decoded candidate, or the default analysis when the text is missing or does not decode |
| Analyzer.PromptFor | arXiv_app/src/arxiv_tracker/analyzer.py:67-76 | No prompt for a paper without a title or an abstract; otherwise the prompt of its fields |
| Analyzer.AnalyzePaper | arXiv_app/src/arxiv_tracker/analyzer.py:65-98 | An incomplete paper gets `{}` without a call; a prompt that raises raises; otherwise the reply decides |
| Analyzer.Merged | arXiv_app/src/arxiv_tracker/analyzer.py:53-61 | A non-empty dict analysis is merged by `update`; an empty dict, a raised call or a value `update` rejects leaves the paper as it was; no field is lost |
| Analyzer.EachAt | arXiv_app/src/arxiv_tracker/analyzer.py:50-61 | The loop maps every position in place and keeps the length |
| Analyzer.Analyzed | arXiv_app/src/arxiv_tracker/analyzer.py:51-61 | One paper after analysis: the analysis merged in when it is a non-empty dict, the paper as it was otherwise; `AnalyzedAllAt`, `FailedCallUnchanged`, `IncompleteUnchanged` and `UnreadableReplyScoresFive` state its cases, and `AnalyzeOne` computes it |
| Analyzer.AnalyzedAllAt | arXiv_app/src/arxiv_tracker/analyzer.py:50-63 | `analyze` returns each paper analyzed, in place |
| Analyzer.Sent | arXiv_app/src/arxiv_tracker/analyzer.py:67-76 | The prompts sent, in paper order: one for each paper with a title and an abstract whose prompt renders; `SentBound` bounds them, and `Analyze` sends them |
| Analyzer.SentBound | arXiv_app/src/arxiv_tracker/analyzer.py:67-76 | At most one prompt per paper; none when no paper is complete |
| Analyzer.IncompleteUnchanged | arXiv_app/src/arxiv_tracker/analyzer.py:71-73 | A paper without a title or an abstract comes back unchanged |
| Analyzer.FailedCallUnchanged | arXiv_app/src/arxiv_tracker/analyzer.py:89-98 | A failed call or a non-200 status leaves the paper unchanged |
| Analyzer.UnreadableReplyScoresFive | arXiv_app/src/arxiv_tracker/analyzer.py:146-157 | An unreadable 200 reply gives the paper the default analysis and score 5.0 |
| Analyzer.AsWrittenChangesNothing | arXiv_app/src/arxiv_tracker/analyzer.py:59-61 | As written, `analyze` never changes a paper |
| Analyzer.AsWrittenLosesScore | arXiv_app/src/arxiv_tracker/analyzer.py:120-128 | For a complete paper and unreadable replies, the intended code scores 5.0 but the written code leaves no score |
| Analyzer.AnalyzeOne | arXiv_app/src/arxiv_tracker/analyzer.py:51-61 | The loop body returns `Analyzed` and sends `PromptFor` |
| Analyzer.Analyze | arXiv_app/src/arxiv_tracker/analyzer.py:39-63 | An empty list or a missing key returns the input with no call; otherwise each paper is analyzed in order and the prompts sent are `Sent` |
| RunState.DefaultState | arXiv_app/src/arxiv_tracker/utils/state_manager.py:50-57 | The five keys with null, empty-list and empty-dict values |
| RunState.Loaded | arXiv_app/src/arxiv_tracker/utils/state_manager.py:41-57 | The file's dict when it loads, the default state otherwise; `ReloadAfterSave` states the round trip through `save` |
| RunState.ReloadAfterSave | arXiv_app/src/arxiv_tracker/utils/state_manager.py:41-66 | A written state reloads as it was; a failed open keeps the old file; a failed dump reloads the default state |
| RunState.DefaultWellShaped | arXiv_app/src/arxiv_tracker/utils/state_manager.py:50-57 | The default state is well shaped |
| RunState.Marked | arXiv_app/src/arxiv_tracker/utils/state_manager.py:90-100 | `mark_step_completed` on a state value; `MarkedCompletes`, `MarkedNewStep`, `MarkedKeepsDistinct`, `MarkAgainIsNoOp` and `UnmarkUndoesMark` state its effect |
| RunState.MarkedCompletes | arXiv_app/src/arxiv_tracker/utils/state_manager.py:90-100 | After marking, the step is completed, the state stays well shaped, and other steps keep their status |
| RunState.MarkedNewStep | arXiv_app/src/arxiv_tracker/utils/state_manager.py:96-99 | A new step clears `current_step`, stamps `last_run`, and changes nothing else |
| RunState.MarkedKeepsDistinct | arXiv_app/src/arxiv_tracker/utils/state_manager.py:96-97 | Marking never lists a step twice |
| RunState.MarkAgainIsNoOp | arXiv_app/src/arxiv_tracker/utils/state_manager.py:96 | Marking a step again changes nothing, whatever the time |
| RunState.RemoveFirstCount | arXiv_app/src/arxiv_tracker/utils/state_manager.py:129 | `list.remove` takes away exactly one copy |
| RunState.RemoveFirstDistinct | arXiv_app/src/arxiv_tracker/utils/state_manager.py:129 | In a distinct list, removal leaves no copy and keeps the others |
| RunState.RemoveFirstAppended | arXiv_app/src/arxiv_tracker/utils/state_manager.py:129 | Removing a just-appended step restores the list |
| RunState.RemoveFirst | arXiv_app/src/arxiv_tracker/utils/state_manager.py:129 | `list.remove` on a list value; `RemoveFirstCount`, `RemoveFirstDistinct` and `RemoveFirstAppended` state its effect |
| RunState.Unmarked | arXiv_app/src/arxiv_tracker/utils/state_manager.py:122-130 | `reset_step` on a state value; `UnmarkedRemoves` and `UnmarkUndoesMark` state its effect |
| RunState.UnmarkedRemoves | arXiv_app/src/arxiv_tracker/utils/state_manager.py:122-130 | A reset step is no longer completed; other steps keep their status |
| RunState.UnmarkUndoesMark | arXiv_app/src/arxiv_tracker/utils/state_manager.py:90-130 | `reset_step` undoes `mark_step_completed` of a new step |
| RunState.StatisticsUpdated | arXiv_app/src/arxiv_tracker/utils/state_manager.py:151-158 | `update` overwrites the given entries, keeps the rest, and touches no other key |
| RunState.StateManager.constructor | arXiv_app/src/arxiv_tracker/utils/state_manager.py:15-57 | The state is the file's dict, or the default state |
| RunState.StateManager.Save | arXiv_app/src/arxiv_tracker/utils/state_manager.py:59-66 | The state in memory is kept; the file follows the outcome |
| RunState.StateManager.Lookup | arXiv_app/src/arxiv_tracker/utils/state_manager.py:68-78 | `get` is the stored value or the default |
| RunState.StateManager.Set | arXiv_app/src/arxiv_tracker/utils/state_manager.py:80-88 | Only `key` changes; `get` then returns the value |
| RunState.StateManager.MarkStepCompleted | arXiv_app/src/arxiv_tracker/utils/state_manager.py:90-100 | The state becomes `Marked`, the step is completed, no repeat appears, and only a new step is saved |
| RunState.StateManager.SetCurrentStep | arXiv_app/src/arxiv_tracker/utils/state_manager.py:102-109 | Only `current_step` changes |
| RunState.StateManager.Reset | arXiv_app/src/arxiv_tracker/utils/state_manager.py:111-120 | The state is the default state, then saved |
| RunState.StateManager.ResetStep | arXiv_app/src/arxiv_tracker/utils/state_manager.py:122-130 | The state becomes `Unmarked`; the step is no longer completed; a step that was not listed is not saved |
| RunState.StateManager.IsStepCompleted | arXiv_app/src/arxiv_tracker/utils/state_manager.py:132-141 | In a well-shaped state, true exactly when the step is listed under `completed_steps`; never true when that key is absent |
| RunState.StateManager.GetStatistics | arXiv_app/src/arxiv_tracker/utils/state_manager.py:143-149 | The statistics dict, or an empty one |
| RunState.StateManager.UpdateStatistics | arXiv_app/src/arxiv_tracker/utils/state_manager.py:151-158 | The state becomes `StatisticsUpdated` and is saved |
| Cache.LoadedCache | arXiv_app/src/arxiv_tracker/utils/cache_manager.py:44-60 | The stored data while the timestamp is younger than the time to live; empty when there is no timestamp, it is stale, or it is not a number |
| Cache.Fresh | arXiv_app/src/arxiv_tracker/utils/cache_manager.py:52 | The time-to-live test on a numeric timestamp; `ReloadAfterSave` and `ReloadWithDefaultTtl` state where it flips |
| Cache.Envelope | arXiv_app/src/arxiv_tracker/utils/cache_manager.py:65-68 | A save writes exactly `timestamp` and `data` |
| Cache.Persisted | arXiv_app/src/arxiv_tracker/utils/cache_manager.py:62-73 | The file after a save: the envelope when written, the old file when opening failed, unreadable when dumping failed; `ReloadAfterSave` and `ReloadAfterFailedSave` state what reloads |
| Cache.ReloadAfterSave | arXiv_app/src/arxiv_tracker/utils/cache_manager.py:44-73 | A saved store reloads whole while younger than the time to live, and empty afterwards |
| Cache.ReloadAfterFailedSave | arXiv_app/src/arxiv_tracker/utils/cache_manager.py:62-73 | A failed open keeps the last store; a failed dump loses it |
| Cache.ReloadWithDefaultTtl | arXiv_app/src/arxiv_tracker/utils/cache_manager.py:16-60 | With the default time to live of 86400 seconds, a store saved at `t` reloads whole at `t + 86399` and empty at `t + 86400` |
| Cache.CacheManager.constructor | arXiv_app/src/arxiv_tracker/utils/cache_manager.py:16-42 | The store is `LoadedCache` of the file |
| Cache.CacheManager.Save | arXiv_app/src/arxiv_tracker/utils/cache_manager.py:62-73 | The store is kept; the file follows the outcome |
| Cache.CacheManager.Lookup | arXiv_app/src/arxiv_tracker/utils/cache_manager.py:75-85 | `get` is the stored value or the default |
| Cache.CacheManager.Exists | arXiv_app/src/arxiv_tracker/utils/cache_manager.py:112-121 | A key exists exactly when `get` ignores its default for it: an existing key gives its stored value, a missing key gives the default |
| Cache.CacheManager.Size | arXiv_app/src/arxiv_tracker/utils/cache_manager.py:123-129 | The number of keys; zero exactly for an empty store |
| Cache.CacheManager.Info | arXiv_app/src/arxiv_tracker/utils/cache_manager.py:131-141 | Exactly `size`, `file` and `ttl` |
| Cache.CacheManager.Set | arXiv_app/src/arxiv_tracker/utils/cache_manager.py:87-95 | The key then exists with the value, and no other key changes |
| Cache.CacheManager.Delete | arXiv_app/src/arxiv_tracker/utils/cache_manager.py:97-105 | The key is gone; an absent key triggers no save |
| Cache.CacheManager.Clear | arXiv_app/src/arxiv_tracker/utils/cache_manager.py:107-110 | No key exists afterwards |
| Config.Update | arXiv_app/src/arxiv_tracker/utils/config.py:39-41 | A dict overlays the configuration; invalid JSON or a non-dict raises |
| Config.PathValue | arXiv_app/src/arxiv_tracker/utils/config.py:60-62 | A path value raises exactly when truthy and not a string; it changes only when it is a non-empty string not under `src/`, and then to its `relpath` |
| Config.RewriteKeysSpec | arXiv_app/src/arxiv_tracker/utils/config.py:59-62 | The loop raises exactly when a listed key holds a truthy non-string; otherwise it keeps every key, rewrites only listed keys, and leaves the rest alone |
| Config.RewriteStopsAt | arXiv_app/src/arxiv_tracker/utils/config.py:59-62 | A key that raises ends the loop with that error |
| Config.DefaultsAreKept | arXiv_app/src/arxiv_tracker/utils/config.py:11-16 | Every default storage path lies under `src/`, so the rewrite keeps it |
| Config.RewriteKeepsAll | arXiv_app/src/arxiv_tracker/utils/config.py:59-62 | A loop with nothing to change returns its input |
| Config.NoFileGivesDefaults | arXiv_app/src/arxiv_tracker/utils/config.py:35-64 | With no file to read, the result is exactly the defaults |
| Config.PathKeysDistinct | arXiv_app/src/arxiv_tracker/utils/config.py:59 | The five path keys are distinct |
| Config.FileOverridesDefaults | arXiv_app/src/arxiv_tracker/utils/config.py:35-62 | Keys in the file override the defaults; default keys the file lacks keep their values; the keys are the union; only path keys are rewritten; a truthy non-string path raises |
| Config.OverlayThenRewrite | arXiv_app/src/arxiv_tracker/utils/config.py:41-62 | The same, for any base whose path values the rewrite keeps |
| Config.MissingPathFallsBack | arXiv_app/src/arxiv_tracker/utils/config.py:38-56 | An empty or missing explicit path loads as if none were given |
| Config.ExplicitPathWins | arXiv_app/src/arxiv_tracker/utils/config.py:38-41 | An existing explicit path is read whatever the system file holds |
| Config.ConfigSource | arXiv_app/src/arxiv_tracker/utils/config.py:38-56 | The file read is on disk; an explicit, non-empty path on disk is read; any other file read is the system configuration; nothing is read only when the system configuration is absent |
| Config.SystemConfigPath | arXiv_app/src/arxiv_tracker/utils/config.py:76-89 | `get_config_path`: three levels up from the package, then `config/system_config.json`; `ConfigSource` and `MissingPathFallsBack` state when it is read |
| Config.LoadedConfig | arXiv_app/src/arxiv_tracker/utils/config.py:25-64 | `load_config` as a value: the defaults overlaid with the file read, then the path keys rewritten; `NoFileGivesDefaults`, `FileOverridesDefaults`, `MissingPathFallsBack`, `ExplicitPathWins` and `SaveThenLoad` state its properties |
| Config.LoadConfig | arXiv_app/src/arxiv_tracker/utils/config.py:25-64 | The method returns exactly `LoadedConfig` |
| Config.RewritePaths | arXiv_app/src/arxiv_tracker/utils/config.py:59-62 | The method's loop returns exactly `RewriteKeys` over the five path keys |
| Config.RewriteUnfold | arXiv_app/src/arxiv_tracker/utils/config.py:59-62 | One loop turn is one step of `RewriteKeys` |
| Config.SameUpdate | arXiv_app/src/arxiv_tracker/utils/config.py:62 | Writing back a key's own value changes nothing |
| Config.SavedConfig | arXiv_app/src/arxiv_tracker/utils/config.py:66-74 | `save_config` sets the file at `path` and no other |
| Config.SaveThenLoad | arXiv_app/src/arxiv_tracker/utils/config.py:25-74 | Saving a full configuration with `src/` paths and loading it back returns it unchanged |
| Config.CoveredOverlay | arXiv_app/src/arxiv_tracker/utils/config.py:41 | Overlaying a dict with every base key replaces the base |

## Left out

- I/O is left out: logging, progress bars, `os.makedirs`, and the default file paths built from `__file__`. `get_config_path` is `Config.SystemConfigPath` over the module directory, which is a parameter. The default state and cache file paths are not modelled.
- Time: wall-clock time is a parameter. Cache timestamps are whole seconds; Python writes a float from `time.time()`.
- HTML parsing is left out. BeautifulSoup is replaced by the already-extracted `<dt>`/`<dd>` contents.
- Regular expressions are left out; `re.search(...).group(1)` is an oracle. `_parse_authors` splits on the literal separator and strips each piece. The regex `\s*sep\s*` gives the same pieces after stripping.
- PDF reading is left out; PyPDF2 is an oracle that yields per-page text or a failure.
- Network and service calls are left out; they are oracles. Timeouts and retries are not modelled.
- Exceptions inside `_parse_paper` are not modelled. The modelled inputs cannot raise there.
- `crawl` treats a failing category task as contributing nothing. The fetch oracle already returns an error rather than raising.
- Thread pools become sequential loops over an arbitrary completion order. Concurrency is left out; the tasks share no state except the file system, which each sees in turn.
- Aliasing is left out. The source mutates each paper dict in place and returns the same list. The model returns new values, so the aliasing of paper dicts between the input and output lists is not captured.
- `Values.Str` renders floats, lists and dicts as fixed placeholders instead of Python's text for them. This affects the prompt text, and also every file name and URL built from a paper's fields: the PDF path (`Downloader.TargetPath`, `Downloader.Target`, `Extractor.PdfText`) and the URL requested for a download. With a float id such as 1.5, the model names the file `<float>.pdf` where Python names it `1.5.pdf`, so two float ids would share one file in the model. The crawler produces only string ids and URLs (`Crawler.Record`), so this arises only for records built elsewhere.
- Whitespace is limited to the ASCII and Latin-1 characters; Unicode whitespace beyond those is not modelled.
- `Text.JoinWith` and `Text.Split` are not proved to be inverses. `Split` is only used by the author parser, and `JoinWith` only by the prompt.
- The run-state file is assumed to hold a dict when it parses. A file holding a list or a scalar is not modelled.
- RunState.StateManager.MarkStepCompleted requires `Valid()`, that is, a list under `completed_steps` and a dict under `statistics` when present. A loaded file or `Set("completed_steps", ...)` can break that shape. The source then raises a TypeError or an AttributeError, or, for a string, performs a substring test. The model does not cover those states.
- RunState.StateManager.ResetStep requires `Valid()` for the same reason. On a state of another shape, the source's `in` test and `list.remove` raise or act on the wrong type.
- RunState.StateManager.UpdateStatistics requires `Valid()` for the same reason. A non-dict `statistics` makes the source's `update` raise or misbehave.
- `Cache.CacheManager.constructor` requires a fresh file's `data` to be a dict. Another value there would make every later lookup raise.
- `Analyzer.AuthorsText` treats a dict-valued `authors` as a join failure. Python would join its keys.
- `Analyzer.Merged` treats every truthy non-dict analysis as rejected by `update`. Python's `update` accepts a list of key/value pairs.
- `Config.Update` treats every JSON value other than an object as refused by `update`. Python's `update` also accepts any iterable of pairs: an empty list, an empty string, a list of pairs or a list of two-character strings. A file holding `""` or `[]` therefore loads the defaults in Python, but gives `NotADict` here.
- Reading the language-model API key from its own file is left out. The key is a parameter of `Analyzer.Analyze`.
- The factories `get_state_manager` and `get_cache_manager` only call the constructors and are not modelled.
- `extract_from_web` returns its input and is not modelled.
- The prompt's fixed text is held in `Analyzer.Source`. The members take the template as a parameter, so that the proofs do not depend on the long text; `Analyzer.SourceSpecSigned` connects them.
- `Crawler.Crawl` uses one cap for both `default_paper_count` reads (per category and overall). The source reads the same configuration key for both.

The model follows the code's actual behaviour, including these points where it is easy to expect otherwise:

- Re-marking a completed step leaves the state and the file untouched. It does not refresh `last_run` or clear `current_step`.
- Failed saves are logged and swallowed, not reported to the caller.
- `download` returns only the papers that have a `pdf_url`. It does not return one record per input.
- A per-category cap at or below zero still keeps one record. The cap is tested only after an append.
- Only the first author separator that occurs is applied. `"A. Smith, B. Jones and C. Lee"` gives the two authors `A. Smith` and `B. Jones and C. Lee` (`Extractor.OnlyOneSeparatorApplied`).

## Findings

| source | as written | input that shows it | evidently intended | confidence | as-written member | corrected member |
|---|---|---|---|---|---|---|
| arXiv_app/src/arxiv_tracker/analyzer.py:120-128 | The example JSON in the prompt's f-string uses single braces. The block becomes a replacement field whose expression is the string `"research_question"` and whose format spec starts with a space, a sign option, which string formatting rejects. Building the prompt raises, `analyze` catches it, and every paper is returned unanalyzed. | Any paper with a non-empty `title` and `abstract`, e.g. `{"title": "T", "abstract": "A"}` with an API key set | Double braces, so the prompt shows the example JSON and the paper is sent for analysis | not executed | Analyzer.AsWrittenLosesScore | Analyzer.Prompt |

=== FILE: analyzer.dfy ===
/**
 * Paper analysis (analyzer.py).
 *
 * Each paper with a title and an abstract is described to a language-model
 * service in a fixed prompt; the reply's JSON object is merged into the
 * paper. The service and the JSON decoder are oracles; the API key is a
 * parameter.
 */
module Analyzer {
  import opened Values
  import opened Text

  /**
   * The fixed text of the analysis prompt around the paper's title, authors
   * and abstract. `exampleHead` and `exampleTail` are the example reply
   * between its braces, split at its first colon.
   */
  datatype PromptTemplate = PromptTemplate(
    intro: string, authorsLabel: string, abstractLabel: string, instructions: string,
    exampleHead: string, exampleTail: string, closing: string)

  /** The template's text in analyzer.py. */
  const Source: PromptTemplate := PromptTemplate(
    IntroText, AuthorsLabelText, AbstractLabelText, InstructionsText,
    ExampleHeadText, ExampleTailText, ClosingText)

  /** The prompt text before the title. */
  const IntroText: string := "请分析以下arXiv论文并提供详细评估：\n\n标题："
  /** Between the title and the authors. */
  const AuthorsLabelText: string := "\n\n作者："
  /** Between the authors and the abstract. */
  const AbstractLabelText: string := "\n\n摘要："
  /** The questions asked, up to the example reply. */
  const InstructionsText: string :=
    "\n\n"
    + "请从以下几个方面进行分析：\n"
    + "1. 研究问题：论文解决了什么问题？为什么这个问题重要？\n"
    + "2. 方法创新：论文提出了什么新方法或技术？与现有方法相比有什么优势？\n"
    + "3. 实验结果：论文报告了哪些关键实验结果？结果是否令人信服？\n"
    + "4. 应用价值：论文的研究成果有什么实际应用价值？\n"
    + "5. 局限性：论文存在哪些局限性或未来工作方向？\n"
    + "6. 总体评价：对论文的整体质量和贡献进行评价。\n"
    + "7. 评分：请对论文进行1-10分的评分，10分为最高。\n"
    + "\n"
    + "请按照以下JSON格式返回分析结果：\n"
  /** The example reply between its braces, up to its first colon. */
  const ExampleHeadText: string := "\n  \"research_question\""
  /** The example reply after its first colon. */
  const ExampleTailText: string :=
    " \"研究问题分析\",\n"
    + "  \"method_innovation\": \"方法创新分析\",\n"
    + "  \"experimental_results\": \"实验结果分析\",\n"
    + "  \"application_value\": \"应用价值分析\",\n"
    + "  \"limitations\": \"局限性分析\",\n"
    + "  \"overall_evaluation\": \"总体评价\",\n"
    + "  \"score\": 8.5\n"
  /** The closing request. */
  const ClosingText: string := "\n\n请确保返回的是有效的JSON格式，不要包含任何额外的文本。"

  /** The example reply as the prompt is meant to show it: one JSON object, braces included. */
  function ExampleReply(t: PromptTemplate): string
  {
    "{" + t.exampleHead + ":" + t.exampleTail + "}"
  }

  /**
   * `', '.join(authors) if authors else 'Unknown'`. A list of strings is
   * joined; a string is joined character by character, as Python iterates
   * it; any other truthy value makes `join` raise (`None`).
   */
  function AuthorsText(authors: Json): (r: Option<string>)
    ensures !Truthy(authors) ==> r == Some("Unknown")
    ensures authors.JArr? && authors.items != [] && !AllStrings(authors.items) ==> r.None?
    ensures authors.JArr? && AllStrings(authors.items) ==> r.Some?
    ensures authors.JArr? && authors.items != [] && AllStrings(authors.items) ==> r == Some(JoinWith(StrValues(authors.items), ", "))
  {
    if !Truthy(authors) then Some("Unknown")
    else match authors
      case JArr(items) =>
        if AllStrings(items) then Some(JoinWith(StrValues(items), ", ")) else None
      case JStr(s) => Some(JoinWith(Chars(s), ", "))
      case _ => None
  }

  /** The strings of a list of strings. */
  function StrValues(items: seq<Json>): (r: seq<string>)
    requires AllStrings(items)
    ensures |r| == |items| && forall k | 0 <= k < |items| :: items[k] == JStr(r[k])
  {
    seq(|items|, k requires 0 <= k < |items| => items[k].s)
  }

  /** Author names without a comma can be read back by splitting the text on `", "`. */
  lemma AuthorsTextSplits(authors: Json)
    requires authors.JArr? && authors.items != [] && AllStrings(authors.items)
    requires forall k | 0 <= k < |authors.items| :: ',' !in authors.items[k].s
    ensures Split(AuthorsText(authors).value, ", ") == StrValues(authors.items)
  {
    var names := StrValues(authors.items);
    assert forall k | 0 <= k < |names| :: names[k] == authors.items[k].s;
    JoinThenSplit(names, ", ");
  }

  /** A string as the one-character strings Python iterates it as. */
  function Chars(s: string): (r: seq<string>)
    ensures |r| == |s| && forall k | 0 <= k < |s| :: r[k] == [s[k]]
  {
    seq(|s|, k requires 0 <= k < |s| => [s[k]])
  }

  /**
   * `_build_analysis_prompt` as intended, with the example reply's braces
   * taken literally: the title, the authors and the abstract framed by the
   * template. Only the authors can make it raise.
   */
  function Prompt(t: PromptTemplate, title: Json, summary: Json, authors: Json): (p: Option<string>)
    ensures p.Some? <==> AuthorsText(authors).Some?
  {
    match AuthorsText(authors)
    case None => None
    case Some(a) => Some(t.intro + Str(title) + t.authorsLabel + a + t.abstractLabel + Str(summary) + (t.instructions + ExampleReply(t) + t.closing))
  }

  /** The prompt opens with the template's intro followed by the title. */
  lemma PromptOpensWithTitle(t: PromptTemplate, title: Json, summary: Json, authors: Json)
    requires AuthorsText(authors).Some?
    ensures var p := Prompt(t, title, summary, authors).value;
      && |t.intro| + |Str(title)| <= |p|
      && p[..|t.intro|] == t.intro && p[|t.intro|..|t.intro| + |Str(title)|] == Str(title)
  {
    PromptOpening(t.intro, Str(title), t.authorsLabel, AuthorsText(authors).value, t.abstractLabel, Str(summary),
      t.instructions + ExampleReply(t) + t.closing);
  }

  /** Text built as `a + b + c + d + e + f + g` opens with `a` followed by `b`. */
  lemma PromptOpening(a: string, b: string, c: string, d: string, e: string, f: string, g: string)
    ensures var p := a + b + c + d + e + f + g;
      && |a| + |b| <= |p| && p[..|a|] == a && p[|a|..|a| + |b|] == b
  {
    var opening := a + b;
    OpensWith(a, b, []);
    assert opening + [] == opening;
    PrefixOf(opening, opening, c);
    PrefixOf(opening, opening + c, d);
    PrefixOf(opening, opening + c + d, e);
    PrefixOf(opening, opening + c + d + e, f);
    PrefixOf(opening, opening + c + d + e + f, g);
  }

  /** The prompt contains the abstract. */
  lemma PromptHasSummary(t: PromptTemplate, title: Json, summary: Json, authors: Json)
    requires AuthorsText(authors).Some?
    ensures Occurs(Str(summary), Prompt(t, title, summary, authors).value)
  {
    var p := Prompt(t, title, summary, authors).value;
    var head := t.intro + Str(title) + t.authorsLabel + AuthorsText(authors).value + t.abstractLabel;
    var tail := Str(summary) + (t.instructions + ExampleReply(t) + t.closing);
    assert p == head + tail;
    assert OccursAt(p, Str(summary), |head|) by {
      assert p[|head|..] == tail;
      assert tail[..|Str(summary)|] == Str(summary);
    }
  }

  /** `a + b + rest` opens with `a`, followed by `b`. */
  lemma OpensWith(a: string, b: string, rest: string)
    ensures |a| + |b| <= |a + b + rest|
    ensures (a + b + rest)[..|a|] == a && (a + b + rest)[|a|..|a| + |b|] == b
  {
    var s := a + b + rest;
    assert s[..|a| + |b|] == a + b;
    assert (a + b)[..|a|] == a && (a + b)[|a|..] == b;
  }

  /** A prefix of `front` is also a prefix of `front + back`. */
  lemma PrefixOf(w: string, front: string, back: string)
    requires |w| <= |front|
    requires front[..|w|] == w
    ensures (front + back)[..|w|] == w
  {
    assert (front + back)[..|w|] == front[..|w|];
  }

  /** One piece of an f-string: literal text, or a value formatted with a format spec. */
  datatype Piece = Lit(text: string) | Field(value: string, spec: string)

  /** A format spec that opens with a sign option (no fill and alignment before it). */
  predicate SignedSpec(spec: string)
  {
    |spec| >= 2 && spec[0] in " +-" && spec[1] !in "<>=^"
  }

  /** The template in analyzer.py: its example reply, read as a format spec, opens with a sign. */
  lemma SourceSpecSigned()
    ensures SignedSpec(Source.exampleTail)
  {
    assert ExampleTailText[0] == ' ' && ExampleTailText[1] == '"';
  }

  /**
   * `format(value, spec)` for a string value, for the two kinds of spec the
   * prompt template holds: the empty spec renders the value, and a sign
   * option makes string formatting raise.
   */
  function FormatStr(value: string, spec: string): (r: Option<string>)
    requires spec == "" || SignedSpec(spec)
    ensures r.Some? <==> spec == ""
  {
    if spec == "" then Some(value) else None
  }

  predicate Formattable(pieces: seq<Piece>)
  {
    forall k | 0 <= k < |pieces| :: pieces[k].Field? ==> pieces[k].spec == "" || SignedSpec(pieces[k].spec)
  }

  /** Evaluating an f-string: the pieces left to right, stopping at the first that raises. */
  function Render(pieces: seq<Piece>): Option<string>
    requires Formattable(pieces)
  {
    if pieces == [] then Some("")
    else
      var last := pieces[|pieces| - 1];
      match Render(pieces[..|pieces| - 1])
      case None => None
      case Some(front) =>
        match last
        case Lit(text) => Some(front + text)
        case Field(value, spec) =>
          match FormatStr(value, spec)
          case None => None
          case Some(v) => Some(front + v)
  }

  /** An f-string with a field that raises raises as a whole. */
  lemma {:induction false} RenderRaises(pieces: seq<Piece>, k: nat)
    requires Formattable(pieces)
    requires k < |pieces| && pieces[k].Field? && SignedSpec(pieces[k].spec)
    ensures Render(pieces).None?
  {
    var n := |pieces| - 1;
    if k < n {
      assert Formattable(pieces[..n]) by {
        assert forall i | 0 <= i < n :: pieces[..n][i] == pieces[i];
      }
      assert pieces[..n][k] == pieces[k];
      RenderRaises(pieces[..n], k);
    }
  }

  /**
   * The template as written: its braces are single, so the example reply
   * is a replacement field whose expression is the string
   * `research_question` and whose format spec is the rest of the example.
   */
  function TemplateAsWritten(t: PromptTemplate, title: string, authors: string, summary: string): (pieces: seq<Piece>)
    requires SignedSpec(t.exampleTail)
    ensures Formattable(pieces) && |pieces| == 9
    ensures pieces[7] == Field("research_question", t.exampleTail)
  {
    [Lit(t.intro), Field(title, ""), Lit(t.authorsLabel), Field(authors, ""), Lit(t.abstractLabel), Field(summary, ""),
     Lit(t.instructions), Field("research_question", t.exampleTail), Lit(t.closing)]
  }

  /** `_build_analysis_prompt` as written. */
  function PromptAsWritten(t: PromptTemplate, title: Json, summary: Json, authors: Json): Option<string>
    requires SignedSpec(t.exampleTail)
  {
    match AuthorsText(authors)
    case None => None
    case Some(a) => Render(TemplateAsWritten(t, Str(title), a, Str(summary)))
  }

  /** The template as written raises on every paper. */
  lemma PromptAsWrittenRaises(t: PromptTemplate, title: Json, summary: Json, authors: Json)
    requires SignedSpec(t.exampleTail)
    ensures PromptAsWritten(t, title, summary, authors).None?
  {
    var a := AuthorsText(authors);
    if a.Some? {
      RenderRaises(TemplateAsWritten(t, Str(title), a.value, Str(summary)), 7);
    }
  }

  /** Index of the first `c` in `s`. */
  function FirstIndex(s: string, c: char): (r: Option<nat>)
    ensures r.None? ==> forall k | 0 <= k < |s| :: s[k] != c
    ensures r.Some? ==> r.value < |s| && s[r.value] == c && forall k | 0 <= k < r.value :: s[k] != c
  {
    if s == [] then None
    else if s[0] == c then Some(0)
    else
      var r := FirstIndex(s[1..], c);
      if r.None? then None else Some(r.value + 1)
  }

  /** Index of the last `c` in `s`. */
  function LastIndex(s: string, c: char): (r: Option<nat>)
    ensures r.None? ==> forall k | 0 <= k < |s| :: s[k] != c
    ensures r.Some? ==> r.value < |s| && s[r.value] == c && forall k | r.value < k < |s| :: s[k] != c
  {
    if s == [] then None
    else if s[|s| - 1] == c then Some(|s| - 1)
    else
      var r := LastIndex(s[..|s| - 1], c);
      if r.None? then None else Some(r.value)
  }

  /**
   * The match of `\{[\s\S]*\}`: the span from the first `{` to the last
   * `}`, when some `}` follows some `{`.
   */
  function BraceSpan(s: string): (r: Option<(nat, nat)>)
    ensures r.Some? <==> exists a, b | 0 <= a < b < |s| :: s[a] == '{' && s[b] == '}'
    ensures r.Some? ==> var (i, j) := r.value;
      && i < j < |s| && s[i] == '{' && s[j] == '}'
      && (forall k | 0 <= k < i :: s[k] != '{')
      && (forall k | j < k < |s| :: s[k] != '}')
  {
    var first, last := FirstIndex(s, '{'), LastIndex(s, '}');
    if first.Some? && last.Some? && first.value < last.value then Some((first.value, last.value)) else None
  }

  /** The text handed to the decoder: the brace span if there is one, else the whole reply. */
  function Candidate(reply: string): (c: string)
    ensures BraceSpan(reply).None? ==> c == reply
    ensures BraceSpan(reply).Some? ==> |c| >= 2 && c[0] == '{' && c[|c| - 1] == '}'
    ensures BraceSpan(reply).Some? ==> c == reply[BraceSpan(reply).value.0..BraceSpan(reply).value.1 + 1]
  {
    match BraceSpan(reply)
    case None => reply
    case Some((i, j)) => reply[i..j + 1]
  }

  /** The six commentary fields of an analysis. */
  const CommentaryKeys: set<string> := {"research_question", "method_innovation", "experimental_results", "application_value", "limitations", "overall_evaluation"}

  /** The analysis used when the reply cannot be read: empty commentary, score 5.0. */
  function DefaultAnalysis(): (d: map<string, Json>)
    ensures d.Keys == CommentaryKeys + {"score"}
    ensures d["score"] == JReal(5.0)
    ensures forall k | k in CommentaryKeys :: d[k] == JStr("")
  {
    map["research_question" := JStr(""), "method_innovation" := JStr(""), "experimental_results" := JStr(""),
        "application_value" := JStr(""), "limitations" := JStr(""), "overall_evaluation" := JStr(""),
        "score" := JReal(5.0)]
  }

  /** `json.loads`: the decoded value, or `None` when the text is not JSON. */
  type Decoder = string -> Option<Json>

  /**
   * `_parse_analysis_result`: decode the candidate text; a missing reply
   * text or a decoding error gives the default analysis.
   */
  function ParseResult(reply: Option<string>, decode: Decoder): (a: Json)
    ensures reply.None? ==> a == JObj(DefaultAnalysis())
    ensures reply.Some? && decode(Candidate(reply.value)).Some? ==> a == decode(Candidate(reply.value)).value
    ensures reply.Some? && decode(Candidate(reply.value)).None? ==> a == JObj(DefaultAnalysis())
  {
    if reply.None? then JObj(DefaultAnalysis())
    else match decode(Candidate(reply.value))
      case None => JObj(DefaultAnalysis())
      case Some(v) => v
  }

  /** What the service call does: raise, or answer with a status and an optional text. */
  datatype Reply = CallFailed | Response(status: int, text: Option<string>)

  /** The language-model service, for a prompt. */
  type Service = string -> Reply

  /** How `_analyze_paper` ends: it raises (out of the prompt), or returns an analysis. */
  datatype Analysis = Raised | Returned(value: Json)

  /** `paper.get('title', '')`. */
  function Title(paper: Paper): Json
  {
    Get(paper, "title", JStr(""))
  }

  /** `paper.get('abstract', '')`. */
  function Summary(paper: Paper): Json
  {
    Get(paper, "abstract", JStr(""))
  }

  /** `paper.get('authors', [])`. */
  function Authors(paper: Paper): Json
  {
    Get(paper, "authors", JArr([]))
  }

  /** A paper with a title and an abstract, the only kind sent to the service. */
  predicate Complete(paper: Paper)
  {
    Truthy(Title(paper)) && Truthy(Summary(paper))
  }

  /** The prompt sent for `paper`, if any. */
  function PromptFor(t: PromptTemplate, paper: Paper): (p: Option<string>)
    ensures !Complete(paper) ==> p.None?
    ensures Complete(paper) ==> p == Prompt(t, Title(paper), Summary(paper), Authors(paper))
  {
    if !Complete(paper) then None else Prompt(t, Title(paper), Summary(paper), Authors(paper))
  }

  /** What the service's reply makes of the analysis. */
  function Answered(r: Reply, decode: Decoder): Analysis
  {
    match r
    case CallFailed => Returned(JObj(map[]))
    case Response(status, text) => if status == 200 then Returned(ParseResult(text, decode)) else Returned(JObj(map[]))
  }

  /**
   * `_analyze_paper`: an incomplete paper gets an empty analysis without a
   * call; a failing call or a status other than 200 gives an empty
   * analysis; a 200 reply is parsed.
   */
  function AnalyzePaper(t: PromptTemplate, paper: Paper, service: Service, decode: Decoder): (a: Analysis)
    ensures !Complete(paper) ==> a == Returned(JObj(map[]))
    ensures Complete(paper) && PromptFor(t, paper).None? ==> a == Raised
    ensures PromptFor(t, paper).Some? ==> a == Answered(service(PromptFor(t, paper).value), decode)
  {
    if !Complete(paper) then Returned(JObj(map[]))
    else match Prompt(t, Title(paper), Summary(paper), Authors(paper))
      case None => Raised
      case Some(p) => Answered(service(p), decode)
  }

  /**
   * The paper `analyze` appends: a non-empty dict analysis merged in by
   * `dict.update`; the paper as it was when the analysis is empty, raised,
   * or is a value `update` rejects.
   */
  function Merged(paper: Paper, a: Analysis): (r: Paper)
    ensures a.Returned? && Truthy(a.value) && a.value.JObj? ==> r == paper + a.value.fields
    ensures !(a.Returned? && Truthy(a.value) && a.value.JObj?) ==> r == paper
    ensures r.Keys >= paper.Keys
    ensures forall k | k in paper :: r[k] == paper[k] || (a.Returned? && a.value.JObj? && k in a.value.fields && r[k] == a.value.fields[k])
  {
    if a.Returned? && Truthy(a.value) && a.value.JObj? then paper + a.value.fields else paper
  }

  /** One paper through `analyze`. */
  function Analyzed(t: PromptTemplate, paper: Paper, service: Service, decode: Decoder): Paper
  {
    Merged(paper, AnalyzePaper(t, paper, service, decode))
  }

  /** `Analyzed` with its settings fixed, as one step applied to each paper. */
  function AnalyzeStep(t: PromptTemplate, service: Service, decode: Decoder): Paper -> Paper
  {
    paper => Analyzed(t, paper, service, decode)
  }

  /** `f` applied to each element of `xs`, one after the other. */
  function Each<A, B>(f: A -> B, xs: seq<A>): seq<B>
  {
    if xs == [] then [] else Each(f, xs[..|xs| - 1]) + [f(xs[|xs| - 1])]
  }

  /** `Each` keeps the length and maps every position in place. */
  lemma {:induction false} EachAt<A, B>(f: A -> B, xs: seq<A>)
    ensures |Each(f, xs)| == |xs|
    ensures forall k | 0 <= k < |xs| :: Each(f, xs)[k] == f(xs[k])
  {
    if xs != [] {
      var n := |xs| - 1;
      EachAt(f, xs[..n]);
      forall k | 0 <= k < |xs|
        ensures Each(f, xs)[k] == f(xs[k])
      {
        if k < n {
          assert xs[..n][k] == xs[k];
        }
      }
    }
  }

  /** `analyze`'s result for `papers`: every paper analyzed exactly once, in place. */
  lemma AnalyzedAllAt(t: PromptTemplate, papers: seq<Paper>, service: Service, decode: Decoder)
    ensures |Each(AnalyzeStep(t, service, decode), papers)| == |papers|
    ensures forall k | 0 <= k < |papers| :: Each(AnalyzeStep(t, service, decode), papers)[k] == Analyzed(t, papers[k], service, decode)
  {
    EachAt(AnalyzeStep(t, service, decode), papers);
  }

  /** The prompts sent for `papers`, in order. */
  function Sent(t: PromptTemplate, papers: seq<Paper>): seq<string>
  {
    if papers == [] then []
    else
      var p := PromptFor(t, papers[|papers| - 1]);
      Sent(t, papers[..|papers| - 1]) + (if p.Some? then [p.value] else [])
  }

  /** One prompt at most per paper, and none for papers without a title or an abstract. */
  lemma {:induction false} SentBound(t: PromptTemplate, papers: seq<Paper>)
    ensures |Sent(t, papers)| <= |papers|
    ensures (forall k | 0 <= k < |papers| :: !Complete(papers[k])) ==> Sent(t, papers) == []
  {
    if papers != [] {
      var n := |papers| - 1;
      assert forall k | 0 <= k < n :: papers[..n][k] == papers[k];
      SentBound(t, papers[..n]);
    }
  }

  /** A paper without a title or an abstract comes back exactly as it was. */
  lemma IncompleteUnchanged(t: PromptTemplate, paper: Paper, service: Service, decode: Decoder)
    requires !Complete(paper)
    ensures Analyzed(t, paper, service, decode) == paper
  {
  }

  /** A call that fails, or answers with another status, leaves the paper as it was. */
  lemma FailedCallUnchanged(t: PromptTemplate, paper: Paper, service: Service, decode: Decoder)
    requires PromptFor(t, paper).Some?
    requires service(PromptFor(t, paper).value).CallFailed? || service(PromptFor(t, paper).value).status != 200
    ensures Analyzed(t, paper, service, decode) == paper
  {
  }

  /** A 200 reply that cannot be read. */
  predicate Unreadable(r: Reply, decode: Decoder)
  {
    r.Response? && r.status == 200 && (r.text.None? || decode(Candidate(r.text.value)).None?)
  }

  /**
   * A 200 reply that cannot be read still scores the paper: it gets the
   * default analysis, score 5.0 and empty commentary, over its own fields.
   */
  lemma UnreadableReplyScoresFive(t: PromptTemplate, paper: Paper, service: Service, decode: Decoder)
    requires PromptFor(t, paper).Some? && Unreadable(service(PromptFor(t, paper).value), decode)
    ensures Analyzed(t, paper, service, decode) == paper + DefaultAnalysis()
    ensures Analyzed(t, paper, service, decode)["score"] == JReal(5.0)
  {
    var d := DefaultAnalysis();
    assert "score" in d;
  }

  /** `analyze` on one paper as written: the prompt raises before any call, so the paper is appended as it was. */
  function AnalyzedAsWritten(t: PromptTemplate, paper: Paper, service: Service, decode: Decoder): Paper
    requires SignedSpec(t.exampleTail)
  {
    var a :=
      if !Complete(paper) then Returned(JObj(map[]))
      else match PromptAsWritten(t, Title(paper), Summary(paper), Authors(paper))
        case None => Raised
        case Some(p) => Answered(service(p), decode);
    Merged(paper, a)
  }

  /** As written, the analysis never changes a paper. */
  lemma AsWrittenChangesNothing(t: PromptTemplate, paper: Paper, service: Service, decode: Decoder)
    requires SignedSpec(t.exampleTail)
    ensures AnalyzedAsWritten(t, paper, service, decode) == paper
  {
    PromptAsWrittenRaises(t, Title(paper), Summary(paper), Authors(paper));
  }

  /**
   * A paper with a title and an abstract, under a service whose replies
   * cannot be read: the intended prompt scores it 5.0, while a template
   * whose example reply reads as a signed format spec, as `Source`'s does,
   * leaves it unscored.
   */
  lemma AsWrittenLosesScore(t: PromptTemplate, title: string, summary: string, service: Service, decode: Decoder)
    requires SignedSpec(t.exampleTail)
    requires title != "" && summary != ""
    requires forall p :: service(p) == Response(200, None)
    ensures var paper := map["title" := JStr(title), "abstract" := JStr(summary)];
      && "score" !in AnalyzedAsWritten(t, paper, service, decode)
      && "score" in Analyzed(t, paper, service, decode)
      && Analyzed(t, paper, service, decode)["score"] == JReal(5.0)
  {
    var paper: Paper := map["title" := JStr(title), "abstract" := JStr(summary)];
    AsWrittenChangesNothing(t, paper, service, decode);
    assert Complete(paper);
    assert PromptFor(t, paper).Some?;
    UnreadableReplyScoresFive(t, paper, service, decode);
  }

  /**
   * The body of `analyze`'s loop for one paper: analyze it and merge a
   * non-empty dict analysis into it. `prompt` is what the service received.
   */
  method AnalyzeOne(t: PromptTemplate, paper: Paper, service: Service, decode: Decoder)
    returns (out: Paper, prompt: Option<string>)
    ensures out == Analyzed(t, paper, service, decode)
    ensures prompt == PromptFor(t, paper)
  {
    prompt := PromptFor(t, paper);
    var a := AnalyzePaper(t, paper, service, decode);
    if a.Returned? && Truthy(a.value) && a.value.JObj? {
      out := paper + a.value.fields;
    } else {
      out := paper;
    }
  }

  /**
   * `analyze`: an empty list, or a missing API key, returns the input;
   * otherwise every paper goes through `AnalyzeStep` and is
   * appended exactly once, in order. `sent` lists the prompts the service
   * received.
   */
  method Analyze(t: PromptTemplate, papers: seq<Paper>, apiKey: Json, service: Service, decode: Decoder)
    returns (analyzed: seq<Paper>, sent: seq<string>)
    ensures papers == [] || !Truthy(apiKey) ==> analyzed == papers && sent == []
    ensures papers != [] && Truthy(apiKey) ==> analyzed == Each(AnalyzeStep(t, service, decode), papers) && sent == Sent(t, papers)
  {
    if papers == [] || !Truthy(apiKey) {
      return papers, [];
    }
    analyzed, sent := [], [];
    var i := 0;
    while i < |papers|
      invariant 0 <= i <= |papers|
      invariant analyzed == Each(AnalyzeStep(t, service, decode), papers[..i])
      invariant sent == Sent(t, papers[..i])
    {
      assert papers[..i + 1][..i] == papers[..i];
      var paper, p := AnalyzeOne(t, papers[i], service, decode);
      analyzed := analyzed + [paper];
      sent := sent + (if p.Some? then [p.value] else []);
      i := i + 1;
    }
    assert papers[..i] == papers;
  }
}

=== FILE: cache_manager.dfy ===
/**
 * The key/value cache (utils/cache_manager.py).
 *
 * The whole store lives in one JSON file together with a single timestamp:
 * `{"timestamp": <seconds>, "data": {...}}`. The file is modelled as the
 * JSON value it parses to, or `None` when it is missing or does not parse.
 * Wall-clock time is a parameter in whole seconds.
 */
module Cache {
  import opened Values

  /** The default time to live of a cache, in seconds: one day. */
  const DefaultTtl: int := 86400

  /** A JSON number read as seconds, as Python's arithmetic reads it (a bool counts as 0 or 1). */
  function Seconds(j: Json): Option<real>
  {
    match j
    case JInt(i) => Some(i as real)
    case JReal(r) => Some(r)
    case JBool(b) => Some(if b then 1.0 else 0.0)
    case _ => None
  }

  /** `time.time() - timestamp < ttl`; a timestamp that is not a number makes the subtraction raise. */
  predicate Fresh(stamp: Json, now: int, ttl: int)
  {
    Seconds(stamp).Some? && (now as real) - Seconds(stamp).value < ttl as real
  }

  /** The file is a dict holding a `timestamp`. */
  predicate Stamped(file: Option<Json>)
  {
    file.Some? && file.value.JObj? && "timestamp" in file.value.fields
  }

  /**
   * `_load_cache`: the stored `data` (an empty dict when that key is
   * missing) if the file carries a timestamp younger than `ttl`; an empty
   * cache in every other case, the errors included.
   */
  function LoadedCache(file: Option<Json>, now: int, ttl: int): (r: Json)
    ensures !Stamped(file) ==> r == JObj(map[])
    ensures Stamped(file) && !Fresh(file.value.fields["timestamp"], now, ttl) ==> r == JObj(map[])
    ensures Stamped(file) && Fresh(file.value.fields["timestamp"], now, ttl) ==> r == Get(file.value.fields, "data", JObj(map[]))
  {
    if Stamped(file) && Fresh(file.value.fields["timestamp"], now, ttl) then Get(file.value.fields, "data", JObj(map[]))
    else JObj(map[])
  }

  /** What `save` writes at time `now`: the whole store under one timestamp. */
  function Envelope(cache: map<string, Json>, now: int): (j: Json)
    ensures j.JObj? && j.fields.Keys == {"timestamp", "data"}
    ensures j.fields["timestamp"] == JInt(now) && j.fields["data"] == JObj(cache)
  {
    JObj(map["timestamp" := JInt(now), "data" := JObj(cache)])
  }

  /** The file after a save at time `now` that ends with `outcome`. */
  function Persisted(outcome: SaveOutcome, cache: map<string, Json>, now: int, file: Option<Json>): Option<Json>
  {
    match outcome
    case Written => Some(Envelope(cache, now))
    case OpenFailed => file
    case DumpFailed => None
  }

  /**
   * Reloading a store saved at `saved`: every entry comes back while less
   * than `ttl` seconds have passed, and none once `ttl` seconds have passed,
   * however recently the entry itself was set.
   */
  lemma ReloadAfterSave(cache: map<string, Json>, saved: int, later: int, ttl: int)
    ensures later - saved < ttl ==> LoadedCache(Some(Envelope(cache, saved)), later, ttl) == JObj(cache)
    ensures later - saved >= ttl ==> LoadedCache(Some(Envelope(cache, saved)), later, ttl) == JObj(map[])
  {
    var j := Envelope(cache, saved);
    assert Stamped(Some(j));
    assert Seconds(j.fields["timestamp"]) == Some(saved as real);
  }

  /**
   * With the default time to live, a saved store is whole for a day less a
   * second and empty from one day after the save on.
   */
  lemma ReloadWithDefaultTtl(cache: map<string, Json>, saved: int)
    ensures LoadedCache(Some(Envelope(cache, saved)), saved + 86399, DefaultTtl) == JObj(cache)
    ensures LoadedCache(Some(Envelope(cache, saved)), saved + 86400, DefaultTtl) == JObj(map[])
  {
    ReloadAfterSave(cache, saved, saved + 86399, DefaultTtl);
    ReloadAfterSave(cache, saved, saved + 86400, DefaultTtl);
  }

  /** A save that fails to open leaves the last good store in force; one that fails mid-write loses it. */
  lemma ReloadAfterFailedSave(cache: map<string, Json>, now: int, file: Option<Json>, later: int, ttl: int)
    ensures LoadedCache(Persisted(OpenFailed, cache, now, file), later, ttl) == LoadedCache(file, later, ttl)
    ensures LoadedCache(Persisted(DumpFailed, cache, now, file), later, ttl) == JObj(map[])
  {
  }

  /** The cache manager: the store in memory and the file it is saved to. */
  class CacheManager {
    var cache: map<string, Json>
    var file: Option<Json>
    const path: string
    const ttl: int

    /**
     * Load the store at time `now`. A fresh file must hold a dict under
     * `data`: any other value there makes every later lookup raise.
     */
    constructor(path: string, ttl: int, file: Option<Json>, now: int)
      requires LoadedCache(file, now, ttl).JObj?
      ensures this.path == path && this.ttl == ttl && this.file == file
      ensures JObj(cache) == LoadedCache(file, now, ttl)
    {
      this.path := path;
      this.ttl := ttl;
      this.file := file;
      this.cache := LoadedCache(file, now, ttl).fields;
    }

    /** `save`: stamp the whole store with `now` and write it; a failure is swallowed. */
    method Save(now: int, outcome: SaveOutcome)
      modifies this
      ensures cache == old(cache)
      ensures file == Persisted(outcome, cache, now, old(file))
    {
      file := Persisted(outcome, cache, now, file);
    }

    /** `get`: the value under `key`, or `default`. */
    function Lookup(key: string, default: Json): (v: Json)
      reads this
      ensures key in cache ==> v == cache[key]
      ensures key !in cache ==> v == default
    {
      Get(cache, key, default)
    }

    /** `exists`: `get` ignores its default exactly for the keys that exist. */
    predicate Exists(key: string)
      reads this
      ensures Exists(key) ==> forall default :: Lookup(key, default) == Lookup(key, JNull)
      ensures !Exists(key) ==> forall default :: Lookup(key, default) == default
    {
      key in cache
    }

    /** `get_cache_size`: the number of keys. */
    function Size(): (n: nat)
      reads this
      ensures n == 0 <==> cache == map[]
      ensures n == |cache.Keys|
    {
      |cache|
    }

    /** `get_cache_info`. */
    function Info(): (info: map<string, Json>)
      reads this
      ensures info.Keys == {"size", "file", "ttl"}
      ensures info["size"] == JInt(|cache.Keys|) && info["file"] == JStr(path) && info["ttl"] == JInt(ttl)
    {
      map["size" := JInt(Size()), "file" := JStr(path), "ttl" := JInt(ttl)]
    }

    /** `set`: store `value` under `key`, then save, which renews every entry's expiry. */
    method Set(key: string, value: Json, now: int, outcome: SaveOutcome)
      modifies this
      ensures cache == old(cache)[key := value]
      ensures Exists(key) && forall default :: Lookup(key, default) == value
      ensures forall k | k != key :: (k in cache <==> k in old(cache)) && (k in cache ==> cache[k] == old(cache)[k])
      ensures file == Persisted(outcome, cache, now, old(file))
    {
      cache := cache[key := value];
      Save(now, outcome);
    }

    /** `delete`: remove `key` and save; an absent key changes nothing and is not saved. */
    method Delete(key: string, now: int, outcome: SaveOutcome)
      modifies this
      ensures cache == old(cache) - {key} && !Exists(key)
      ensures file == if key in old(cache) then Persisted(outcome, cache, now, old(file)) else old(file)
    {
      if key in cache {
        cache := cache - {key};
        Save(now, outcome);
      }
    }

    /** `clear`: empty the store and save. */
    method Clear(now: int, outcome: SaveOutcome)
      modifies this
      ensures cache == map[] && Size() == 0
      ensures forall k :: !Exists(k)
      ensures file == Persisted(outcome, cache, now, old(file))
    {
      cache := map[];
      Save(now, outcome);
    }
  }
}

=== FILE: config.dfy ===
/**
 * Configuration loading (utils/config.py).
 *
 * The filesystem is a map from path to the file's parsed contents: a path
 * that is not a key does not exist, and `None` stands for a file whose text
 * is not valid JSON. `os.path.relpath` is a parameter, and so is the
 * directory of the configuration module, which the source takes from
 * `__file__`.
 */
module Config {
  import opened Values
  import opened Text

  /** Why `load_config` raises. */
  datatype ConfigError =
    | MalformedJson          // `json.load` rejects the file
    | NotADict               // the file holds JSON that `dict.update` refuses
    | NotAPath(key: string)  // a path key holds a truthy value that has no `startswith`

  /** The files a load sees: each existing path with its parsed contents. */
  type Disk = map<string, Option<Json>>

  /** `os.path.relpath(path, start)`. */
  type RelPath = (string, string) -> string

  /** The keys whose values are storage directories. */
  const PathKeys: seq<string> := ["data_dir", "pdf_storage", "report_storage", "cache_storage", "log_dir"]

  /** The prefix that marks a storage path as already relative to the project. */
  const SrcDir: string := "src/"

  /** `DEFAULT_CONFIG`; every storage path in it lies under `src/`. */
  const DefaultConfig: map<string, Json> := map[
    "data_dir" := JStr(SrcDir + "arxiv_tracker/data"),
    "pdf_storage" := JStr(SrcDir + "arxiv_tracker/data/papers"),
    "report_storage" := JStr(SrcDir + "arxiv_tracker/data/reports"),
    "cache_storage" := JStr(SrcDir + "arxiv_tracker/data/cache"),
    "log_dir" := JStr(SrcDir + "arxiv_tracker/data/logs"),
    "categories" := JArr([JStr("cs.AI"), JStr("cs.LG")]),
    "max_workers" := JInt(4),
    "timeout" := JInt(30),
    "max_retries" := JInt(3),
    "cache_ttl" := JInt(86400),
    "default_paper_count" := JInt(10)
  ]

  /** `get_config_path`: `<moduleDir>/../../../config/system_config.json`. */
  function SystemConfigPath(moduleDir: string): string
  {
    PathJoin(PathJoin(PathJoin(PathJoin(PathJoin(moduleDir, ".."), ".."), ".."), "config"), "system_config.json")
  }

  /**
   * The file `load_config` reads: the explicit path when it is non-empty
   * and exists, otherwise the system file when that exists, otherwise none.
   */
  function ConfigSource(configPath: Option<string>, moduleDir: string, disk: Disk): (r: Option<string>)
    ensures r.Some? ==> r.value in disk
    ensures configPath.Some? && configPath.value != "" && configPath.value in disk ==> r == configPath
    ensures r.Some? && r != configPath ==> r.value == SystemConfigPath(moduleDir)
    ensures r.None? ==> SystemConfigPath(moduleDir) !in disk
  {
    if configPath.Some? && configPath.value != "" && configPath.value in disk then Some(configPath.value)
    else if SystemConfigPath(moduleDir) in disk then Some(SystemConfigPath(moduleDir))
    else None
  }

  /** `config.update(json.load(f))` on a file with these contents. */
  function Update(config: map<string, Json>, contents: Option<Json>): (r: Result<map<string, Json>, ConfigError>)
    ensures contents.Some? && contents.value.JObj? ==> r == Ok(config + contents.value.fields)
    ensures contents == None ==> r == Err(MalformedJson)
    ensures contents.Some? && !contents.value.JObj? ==> r == Err(NotADict)
  {
    match contents
    case None => Err(MalformedJson)
    case Some(JObj(fields)) => Ok(config + fields)
    case Some(_) => Err(NotADict)
  }

  /** The defaults overlaid with the file `ConfigSource` picks, if any. */
  function Overlaid(configPath: Option<string>, moduleDir: string, disk: Disk): Result<map<string, Json>, ConfigError>
  {
    match ConfigSource(configPath, moduleDir, disk)
    case None => Ok(DefaultConfig)
    case Some(path) => Update(DefaultConfig, disk[path])
  }

  /**
   * One path value after the rewrite: a falsy value or one starting with
   * `src/` is kept, any other string goes through `relpath`, and any other
   * truthy value makes `startswith` raise (`None`).
   */
  function PathValue(v: Json, moduleDir: string, relpath: RelPath): (r: Option<Json>)
    ensures r.None? <==> Truthy(v) && !v.JStr?
    ensures r.Some? && r.value != v ==> v.JStr? && v.s != "" && !StartsWith(v.s, SrcDir) && r.value == JStr(relpath(v.s, moduleDir))
  {
    if !Truthy(v) then Some(v)
    else if !v.JStr? then None
    else if StartsWith(v.s, SrcDir) then Some(v)
    else Some(JStr(relpath(v.s, moduleDir)))
  }

  /** One turn of the rewrite loop, for `key`. */
  function RewriteOne(config: map<string, Json>, key: string, moduleDir: string, relpath: RelPath): Result<map<string, Json>, ConfigError>
  {
    if key !in config then Ok(config)
    else match PathValue(config[key], moduleDir, relpath)
      case None => Err(NotAPath(key))
      case Some(v) => Ok(config[key := v])
  }

  /** The rewrite loop over `keys`, in order; the first key that raises ends it. */
  function RewriteKeys(config: map<string, Json>, keys: seq<string>, moduleDir: string, relpath: RelPath): Result<map<string, Json>, ConfigError>
    decreases |keys|
  {
    if keys == [] then Ok(config)
    else match RewriteOne(config, keys[0], moduleDir, relpath)
      case Err(e) => Err(e)
      case Ok(next) => RewriteKeys(next, keys[1..], moduleDir, relpath)
  }

  /** `load_config`. */
  function LoadedConfig(configPath: Option<string>, moduleDir: string, disk: Disk, relpath: RelPath): Result<map<string, Json>, ConfigError>
  {
    match Overlaid(configPath, moduleDir, disk)
    case Err(e) => Err(e)
    case Ok(config) => RewriteKeys(config, PathKeys, moduleDir, relpath)
  }

  /** No key occurs twice. */
  predicate Distinct(keys: seq<string>)
  {
    forall i, j | 0 <= i < j < |keys| :: keys[i] != keys[j]
  }

  /**
   * The rewrite over distinct keys raises exactly when one of them holds a
   * truthy non-string; otherwise it keeps every key, rewrites each listed
   * key's value by `PathValue` and leaves every other value alone.
   */
  lemma {:induction false} RewriteKeysSpec(config: map<string, Json>, keys: seq<string>, moduleDir: string, relpath: RelPath)
    requires Distinct(keys)
    ensures RewriteKeys(config, keys, moduleDir, relpath).Ok? <==>
      forall k | k in keys && k in config :: PathValue(config[k], moduleDir, relpath).Some?
    ensures RewriteKeys(config, keys, moduleDir, relpath).Ok? ==>
      var out := RewriteKeys(config, keys, moduleDir, relpath).value;
      && out.Keys == config.Keys
      && (forall k | k in config && k in keys :: PathValue(config[k], moduleDir, relpath) == Some(out[k]))
      && (forall k | k in config && k !in keys :: out[k] == config[k])
    decreases |keys|
  {
    if keys != [] {
      var k0 := keys[0];
      var rest := keys[1..];
      assert Distinct(rest) by {
        forall i, j | 0 <= i < j < |rest| ensures rest[i] != rest[j] {
          assert rest[i] == keys[i + 1] && rest[j] == keys[j + 1];
        }
      }
      assert k0 !in rest by {
        forall i | 0 <= i < |rest| ensures rest[i] != k0 {
          assert rest[i] == keys[i + 1];
        }
      }
      assert forall k :: k in keys <==> k == k0 || k in rest by {
        assert keys == [k0] + rest;
      }
      var one := RewriteOne(config, k0, moduleDir, relpath);
      if one.Ok? {
        var next := one.value;
        RewriteKeysSpec(next, rest, moduleDir, relpath);
        assert next.Keys == config.Keys;
        assert forall k | k in config && k != k0 :: next[k] == config[k];
        assert k0 in config ==> PathValue(config[k0], moduleDir, relpath) == Some(next[k0]);
      }
    }
  }

  /** After an error the loop is over: `RewriteKeys` from any point where one key raises is that error. */
  lemma RewriteStopsAt(config: map<string, Json>, keys: seq<string>, moduleDir: string, relpath: RelPath)
    requires keys != [] && RewriteOne(config, keys[0], moduleDir, relpath).Err?
    ensures RewriteKeys(config, keys, moduleDir, relpath) == Err(NotAPath(keys[0]))
  {
  }

  /** The default storage paths all lie under `src/`, so the rewrite keeps them as they are. */
  lemma DefaultsAreKept(moduleDir: string, relpath: RelPath)
    ensures forall k | k in PathKeys :: k in DefaultConfig && PathValue(DefaultConfig[k], moduleDir, relpath) == Some(DefaultConfig[k])
  {
    forall k | k in PathKeys
      ensures k in DefaultConfig && PathValue(DefaultConfig[k], moduleDir, relpath) == Some(DefaultConfig[k])
    {
      var v := DefaultConfig[k];
      assert v.JStr? && |SrcDir| <= |v.s| && v.s[..|SrcDir|] == SrcDir;
    }
  }

  /** A rewrite that finds nothing to change returns its input. */
  lemma RewriteKeepsAll(config: map<string, Json>, keys: seq<string>, moduleDir: string, relpath: RelPath)
    requires Distinct(keys)
    requires forall k | k in keys && k in config :: PathValue(config[k], moduleDir, relpath) == Some(config[k])
    ensures RewriteKeys(config, keys, moduleDir, relpath) == Ok(config)
  {
    RewriteKeysSpec(config, keys, moduleDir, relpath);
    var out := RewriteKeys(config, keys, moduleDir, relpath).value;
    assert out == config;
  }

  /** With no configuration file to read, `load_config` returns the defaults unchanged. */
  lemma NoFileGivesDefaults(configPath: Option<string>, moduleDir: string, disk: Disk, relpath: RelPath)
    requires ConfigSource(configPath, moduleDir, disk) == None
    ensures LoadedConfig(configPath, moduleDir, disk, relpath) == Ok(DefaultConfig)
  {
    PathKeysDistinct();
    DefaultsAreKept(moduleDir, relpath);
    RewriteKeepsAll(DefaultConfig, PathKeys, moduleDir, relpath);
  }

  lemma PathKeysDistinct()
    ensures Distinct(PathKeys)
  {
  }

  /**
   * Overlaying a file that holds the dict `fields`: the load raises exactly
   * when a path key ends up holding a truthy non-string; otherwise the
   * result has the defaults' keys and the file's, every non-path key the
   * file sets has the file's value, and every key the file does not set
   * keeps its default.
   */
  lemma FileOverridesDefaults(configPath: Option<string>, moduleDir: string, disk: Disk, relpath: RelPath, fields: map<string, Json>)
    requires ConfigSource(configPath, moduleDir, disk).Some?
    requires disk[ConfigSource(configPath, moduleDir, disk).value] == Some(JObj(fields))
    ensures LoadedConfig(configPath, moduleDir, disk, relpath).Ok? <==>
      forall k | k in PathKeys && k in fields :: !Truthy(fields[k]) || fields[k].JStr?
    ensures LoadedConfig(configPath, moduleDir, disk, relpath).Ok? ==>
      var config := LoadedConfig(configPath, moduleDir, disk, relpath).value;
      && config.Keys == DefaultConfig.Keys + fields.Keys
      && (forall k | k in fields && k !in PathKeys :: config[k] == fields[k])
      && (forall k | k in DefaultConfig && k !in fields :: config[k] == DefaultConfig[k])
      && (forall k | k in fields && k in PathKeys :: PathValue(fields[k], moduleDir, relpath) == Some(config[k]))
  {
    assert Overlaid(configPath, moduleDir, disk) == Ok(DefaultConfig + fields);
    DefaultsAreKept(moduleDir, relpath);
    PathKeysDistinct();
    OverlayThenRewrite(DefaultConfig, fields, PathKeys, moduleDir, relpath);
  }

  /** `FileOverridesDefaults` for any distinct keys and any base whose values under them the rewrite keeps. */
  lemma OverlayThenRewrite(base: map<string, Json>, fields: map<string, Json>, keys: seq<string>, moduleDir: string, relpath: RelPath)
    requires Distinct(keys)
    requires forall k | k in keys :: k in base && PathValue(base[k], moduleDir, relpath) == Some(base[k])
    ensures RewriteKeys(base + fields, keys, moduleDir, relpath).Ok? <==>
      forall k | k in keys && k in fields :: !Truthy(fields[k]) || fields[k].JStr?
    ensures RewriteKeys(base + fields, keys, moduleDir, relpath).Ok? ==>
      var config := RewriteKeys(base + fields, keys, moduleDir, relpath).value;
      && config.Keys == base.Keys + fields.Keys
      && (forall k | k in fields && k !in keys :: config[k] == fields[k])
      && (forall k | k in base && k !in fields :: config[k] == base[k])
      && (forall k | k in fields && k in keys :: PathValue(fields[k], moduleDir, relpath) == Some(config[k]))
  {
    var merged := base + fields;
    RewriteKeysSpec(merged, keys, moduleDir, relpath);
    assert (forall k | k in keys && k in merged :: PathValue(merged[k], moduleDir, relpath).Some?) <==>
      (forall k | k in keys && k in fields :: !Truthy(fields[k]) || fields[k].JStr?);
    if RewriteKeys(merged, keys, moduleDir, relpath).Ok? {
      var config := RewriteKeys(merged, keys, moduleDir, relpath).value;
      forall k | k in base && k !in fields
        ensures config[k] == base[k]
      {
        assert merged[k] == base[k];
      }
    }
  }

  /** A non-empty explicit path that does not exist is ignored: the load falls back on the system file. */
  lemma MissingPathFallsBack(path: string, moduleDir: string, disk: Disk, relpath: RelPath)
    requires path == "" || path !in disk
    ensures LoadedConfig(Some(path), moduleDir, disk, relpath) == LoadedConfig(None, moduleDir, disk, relpath)
  {
  }

  /** An explicit path that exists is read instead of the system file, whatever that holds. */
  lemma ExplicitPathWins(path: string, moduleDir: string, disk: Disk, system: Option<Json>, relpath: RelPath)
    requires path != "" && path in disk && path != SystemConfigPath(moduleDir)
    ensures LoadedConfig(Some(path), moduleDir, disk, relpath)
         == LoadedConfig(Some(path), moduleDir, disk[SystemConfigPath(moduleDir) := system], relpath)
  {
  }

  /**
   * `load_config` as the source writes it: copy the defaults, overlay the
   * chosen file, then rewrite the storage paths.
   */
  method LoadConfig(configPath: Option<string>, moduleDir: string, disk: Disk, relpath: RelPath)
    returns (r: Result<map<string, Json>, ConfigError>)
    ensures r == LoadedConfig(configPath, moduleDir, disk, relpath)
  {
    var config := DefaultConfig;
    var source := None;
    if configPath.Some? && configPath.value != "" && configPath.value in disk {
      source := Some(configPath.value);
    } else if SystemConfigPath(moduleDir) in disk {
      source := Some(SystemConfigPath(moduleDir));
    }
    if source.Some? {
      var contents := disk[source.value];
      if contents.None? {
        return Err(MalformedJson);
      }
      if !contents.value.JObj? {
        return Err(NotADict);
      }
      config := config + contents.value.fields;
    }
    r := RewritePaths(config, moduleDir, relpath);
  }

  /** The `for key in [...]` loop of `load_config`, which rewrites `config` key by key. */
  method RewritePaths(config: map<string, Json>, moduleDir: string, relpath: RelPath)
    returns (r: Result<map<string, Json>, ConfigError>)
    ensures r == RewriteKeys(config, PathKeys, moduleDir, relpath)
  {
    var current := config;
    for i := 0 to |PathKeys|
      invariant RewriteKeys(config, PathKeys, moduleDir, relpath) == RewriteKeys(current, PathKeys[i..], moduleDir, relpath)
    {
      var key := PathKeys[i];
      RewriteUnfold(current, PathKeys, i, moduleDir, relpath);
      var v := Get(current, key, JNull);
      if Truthy(v) {
        if !v.JStr? {
          return Err(NotAPath(key));
        }
        if !StartsWith(v.s, SrcDir) {
          current := current[key := JStr(relpath(v.s, moduleDir))];
        } else {
          SameUpdate(current, key);
        }
      } else if key in current {
        SameUpdate(current, key);
      }
    }
    assert PathKeys[|PathKeys|..] == [];
    r := Ok(current);
  }

  /** Writing back the value a key already holds changes nothing. */
  lemma SameUpdate(m: map<string, Json>, key: string)
    requires key in m
    ensures m[key := m[key]] == m
  {
  }

  /** The rewrite over `keys[i..]` is the turn for `keys[i]` followed by the rewrite over `keys[i + 1..]`. */
  lemma RewriteUnfold(config: map<string, Json>, keys: seq<string>, i: nat, moduleDir: string, relpath: RelPath)
    requires i < |keys|
    ensures RewriteKeys(config, keys[i..], moduleDir, relpath) ==
      match RewriteOne(config, keys[i], moduleDir, relpath)
      case Err(e) => Err(e)
      case Ok(next) => RewriteKeys(next, keys[i + 1..], moduleDir, relpath)
  {
    assert keys[i..][1..] == keys[i + 1..];
  }

  /** `save_config`: the file at `path` now holds `config`. */
  function SavedConfig(disk: Disk, config: map<string, Json>, path: string): (after: Disk)
    ensures path in after && after[path] == Some(JObj(config))
    ensures forall p | p != path :: (p in after <==> p in disk) && (p in disk ==> after[p] == disk[p])
  {
    disk[path := Some(JObj(config))]
  }

  /**
   * Saving a configuration that has every default key and keeps its
   * storage paths under `src/` (or empty), then loading it from the same
   * path, gives the same configuration back.
   */
  lemma SaveThenLoad(config: map<string, Json>, path: string, moduleDir: string, disk: Disk, relpath: RelPath)
    requires path != ""
    requires DefaultConfig.Keys <= config.Keys
    requires forall k | k in PathKeys && k in config :: !Truthy(config[k]) || (config[k].JStr? && StartsWith(config[k].s, SrcDir))
    ensures LoadedConfig(Some(path), moduleDir, SavedConfig(disk, config, path), relpath) == Ok(config)
  {
    var after := SavedConfig(disk, config, path);
    assert ConfigSource(Some(path), moduleDir, after) == Some(path);
    CoveredOverlay(DefaultConfig, config);
    assert Overlaid(Some(path), moduleDir, after) == Ok(config);
    PathKeysDistinct();
    RewriteKeepsAll(config, PathKeys, moduleDir, relpath);
  }

  /** Overlaying a dict that has every key of the base replaces the base entirely. */
  lemma CoveredOverlay(base: map<string, Json>, over: map<string, Json>)
    requires base.Keys <= over.Keys
    ensures base + over == over
  {
  }
}

=== FILE: crawler.dfy ===
/**
 * Listing crawl (crawler.py).
 *
 * A fetched listing page is given as the sequence of its `<dl>` elements,
 * each holding its `<dt>` and `<dd>` children with the pieces `_parse_paper`
 * looks up; the network is an oracle from URL to such a page or a failure.
 * The per-category tasks of the thread pool run one after the other in an
 * arbitrary completion order.
 */
module Crawler {
  import opened Values
  import opened Text

  const Base := "https://arxiv.org"

  /**
   * `_crawl_category`'s URL: the month listing `<base>/list/<category>/<yyyy>-<mm>`
   * for a date (its day is ignored), and `<base>/list/<category>/new` without one.
   */
  function ListingUrl(category: string, date: Option<string>): (url: string)
    ensures StartsWith(url, Base + "/list/" + category + "/")
    ensures date.None? || date.value == "" ==> url == Base + "/list/" + category + "/new"
  {
    var head := Base + "/list/" + category + "/";
    var url := if date.Some? && date.value != "" then head + Slice(date.value, 0, 4) + "-" + Slice(date.value, 4, 6) else head + "new";
    assert url[..|head|] == head;
    url
  }

  /** Two dates in the same month give the same listing URL: the day plays no part. */
  lemma ListingUrlIgnoresDay(category: string, d1: string, d2: string)
    requires |d1| >= 6 && |d2| >= 6 && d1[..6] == d2[..6]
    ensures ListingUrl(category, Some(d1)) == ListingUrl(category, Some(d2))
  {
    assert d1[..4] == d1[..6][..4] && d2[..4] == d2[..6][..4];
    assert d1[4..6] == d1[..6][4..6] && d2[4..6] == d2[..6][4..6];
  }

  /** A full date gives `<base>/list/<category>/<yyyy>-<mm>`. */
  lemma ListingUrlForDate(category: string, date: string)
    requires |date| >= 6
    ensures ListingUrl(category, Some(date)) == Base + "/list/" + category + "/" + date[..4] + "-" + date[4..6]
  {
  }

  /** An `<a>` element: its text and its `href` attribute, when it has one. */
  datatype Anchor = Anchor(text: string, href: Option<string>)

  /** A `<dt>`: its first link titled "Abstract" and its first link titled "Download PDF". */
  datatype Dt = Dt(abstractLink: Option<Anchor>, pdfLink: Option<Anchor>)

  /**
   * A `<dd>`: the text of its `list-title` div, the texts of the links in
   * its `list-authors` div, and the text of its `mathjax` paragraph.
   */
  datatype Dd = Dd(titleDiv: Option<string>, authorsDiv: Option<seq<string>>, abstractPara: Option<string>)

  /** A `<dl>` element: all its `<dt>` and all its `<dd>` descendants, each in document order. */
  datatype Dl = Dl(dts: seq<Dt>, dds: seq<Dd>)

  /** Fetching a listing: a request or HTTP error, or the page's `<dl>` elements. */
  datatype Response = FetchFailed | Listing(dls: seq<Dl>)

  type Fetch = string -> Response

  /** `id_text.split(':')[-1].strip()`: the stripped text after the last colon. */
  function IdOf(linkText: string): (id: string)
    ensures ':' !in id && Trimmed(id)
    ensures ':' !in linkText ==> id == Strip(linkText)
  {
    var stripped := Strip(linkText);
    var last := AfterLast(stripped, ':');
    StripKeepsOut(last, ':');
    StripKeepsOut(linkText, ':');
    StripIdempotent(linkText);
    Strip(last)
  }

  /** The id of an "arXiv:2401.00001"-style link: exactly the part after the colon. */
  lemma IdOfPrefixed(prefix: string, id: string)
    requires Trimmed(prefix + ":" + id) && Trimmed(id) && ':' !in id
    ensures IdOf(prefix + ":" + id) == id
  {
    StripTrimmed(prefix + ":" + id);
    AfterLastColon(prefix, id);
    StripTrimmed(id);
  }

  /** After the last colon of `prefix + ":" + id` comes `id`, when `id` has no colon. */
  lemma {:induction false} AfterLastColon(prefix: string, id: string)
    requires ':' !in id
    ensures AfterLast(prefix + ":" + id, ':') == id
    decreases |id|
  {
    var s := prefix + ":" + id;
    if id != [] {
      var n := |id| - 1;
      assert s[|s| - 1] == id[n];
      assert s[..|s| - 1] == prefix + ":" + id[..n];
      AfterLastColon(prefix, id[..n]);
      assert id[..n] + [id[n]] == id;
    }
  }

  /** The keys of a crawled record. */
  const RecordKeys: set<string> := {"arxiv_id", "title", "authors", "abstract", "category", "pdf_url", "url", "crawl_date"}

  /** The `title` of a record: the title div's text with every "Title:" removed, stripped; empty without the div. */
  function TitleOf(dd: Dd): (t: string)
    ensures Trimmed(t)
    ensures dd.titleDiv.None? ==> t == ""
    ensures dd.titleDiv.Some? ==> |t| <= |dd.titleDiv.value|
    ensures dd.titleDiv.Some? && !Occurs("Title:", dd.titleDiv.value) ==> t == Strip(dd.titleDiv.value)
    ensures dd.titleDiv.Some? && Occurs("Title:", dd.titleDiv.value) ==> |t| + 6 <= |dd.titleDiv.value|
  {
    if dd.titleDiv.None? then ""
    else if Occurs("Title:", dd.titleDiv.value) then
      RemoveAllRemoves(dd.titleDiv.value, "Title:");
      Strip(RemoveAll(dd.titleDiv.value, "Title:"))
    else
      RemoveAllAbsent(dd.titleDiv.value, "Title:");
      Strip(RemoveAll(dd.titleDiv.value, "Title:"))
  }

  /** A div reading `Title:` and then a title without another label gives that title, stripped. */
  lemma TitleOfLabelled(dd: Dd, x: string)
    requires dd.titleDiv == Some("Title:" + x) && !Occurs("Title:", x)
    ensures TitleOf(dd) == Strip(x)
  {
    RemoveAllLeading("Title:", x);
    RemoveAllAbsent(x, "Title:");
  }

  /** The stripped author link texts, in order; none without the authors div. */
  function AuthorsOfDd(dd: Dd): (names: seq<string>)
    ensures dd.authorsDiv.None? ==> names == []
    ensures dd.authorsDiv.Some? ==> |names| == |dd.authorsDiv.value|
    ensures forall k | 0 <= k < |names| :: Trimmed(names[k])
    ensures dd.authorsDiv.Some? ==> forall k | 0 <= k < |names| :: names[k] == Strip(dd.authorsDiv.value[k])
  {
    if dd.authorsDiv.None? then []
    else seq(|dd.authorsDiv.value|, k requires 0 <= k < |dd.authorsDiv.value| => Strip(dd.authorsDiv.value[k]))
  }

  /** `pdf_url`: the base URL followed by the PDF link's `href` (Python renders a missing one as "None"), or empty. */
  function PdfUrlOf(dt: Dt): (u: string)
    ensures u == "" <==> dt.pdfLink.None?
    ensures dt.pdfLink.Some? ==> StartsWith(u, Base)
    ensures dt.pdfLink.Some? ==> u == Base + (if dt.pdfLink.value.href.Some? then dt.pdfLink.value.href.value else "None")
  {
    if dt.pdfLink.None? then ""
    else
      var href := if dt.pdfLink.value.href.Some? then dt.pdfLink.value.href.value else "None";
      assert (Base + href)[..|Base|] == Base;
      Base + href
  }

  /** The dict `_parse_paper` builds. */
  function Record(id: string, title: string, authors: seq<string>, summary: string, category: string,
                  pdfUrl: string, today: string): (p: Paper)
    ensures p.Keys == RecordKeys
    ensures p["arxiv_id"] == JStr(id) && p["url"] == JStr(Base + "/abs/" + id)
    ensures p["title"] == JStr(title) && p["authors"] == StrList(authors) && p["abstract"] == JStr(summary)
    ensures p["category"] == JStr(category) && p["pdf_url"] == JStr(pdfUrl) && p["crawl_date"] == JStr(today)
  {
    map[
      "arxiv_id" := JStr(id),
      "title" := JStr(title),
      "authors" := StrList(authors),
      "abstract" := JStr(summary),
      "category" := JStr(category),
      "pdf_url" := JStr(pdfUrl),
      "url" := JStr(Base + "/abs/" + id),
      "crawl_date" := JStr(today)]
  }

  /**
   * `_parse_paper`: nothing without an "Abstract" link; otherwise the
   * record of the entry, stamped with the category and the crawl date.
   */
  function ParsePaper(dt: Dt, dd: Dd, category: string, today: string): (r: Option<Paper>)
    ensures r.None? <==> dt.abstractLink.None?
    ensures r.Some? ==> r.value.Keys == RecordKeys
    ensures r.Some? ==> r.value["category"] == JStr(category)
  {
    if dt.abstractLink.None? then None
    else
      var summary := if dd.abstractPara.Some? then Strip(dd.abstractPara.value) else "";
      Some(Record(IdOf(dt.abstractLink.value.text), TitleOf(dd), AuthorsOfDd(dd), summary, category, PdfUrlOf(dt), today))
  }

  /**
   * `_parse_paper` over `zip(dt_elements, dd_elements)`: the entries of a
   * `<dl>` paired by position, extras of the longer list dropped.
   */
  function Parsed(dl: Dl, category: string, today: string): (opts: seq<Option<Paper>>)
    ensures |opts| == if |dl.dts| <= |dl.dds| then |dl.dts| else |dl.dds|
    ensures forall k | 0 <= k < |opts| :: opts[k] == ParsePaper(dl.dts[k], dl.dds[k], category, today)
  {
    var n := if |dl.dts| <= |dl.dds| then |dl.dts| else |dl.dds|;
    seq(n, k requires 0 <= k < n => ParsePaper(dl.dts[k], dl.dds[k], category, today))
  }

  /** The records of the entries that parse, in listing order: the scan without a cap. */
  function Somes<T>(opts: seq<Option<T>>): seq<T>
  {
    if opts == [] then []
    else
      var rest := Somes(opts[1..]);
      match opts[0]
      case None => rest
      case Some(p) => [p] + rest
  }

  /**
   * The capped scan from `_crawl_category`, with `acc` the records collected
   * so far: each parsed record is appended, and the scan stops as soon as
   * `cap` records are held.
   */
  function Scan<T>(opts: seq<Option<T>>, cap: int, acc: seq<T>): seq<T>
    decreases |opts|
  {
    if opts == [] then acc
    else match opts[0]
      case None => Scan(opts[1..], cap, acc)
      case Some(p) => if |acc + [p]| >= cap then acc + [p] else Scan(opts[1..], cap, acc + [p])
  }

  /** The most a scan can still take: at least one record, as the cap is only tested after an append. */
  function Room(cap: int, held: nat): nat
  {
    if cap > held + 1 then cap - held else 1
  }

  /** The first `n` elements of `xs`, or all of them when there are fewer. */
  function Take<T>(xs: seq<T>, n: nat): seq<T>
  {
    if n == 0 || xs == [] then [] else [xs[0]] + Take(xs[1..], n - 1)
  }

  /** `Take` keeps at most `n` elements, and they open `xs`. */
  lemma {:induction false} TakeIsPrefix<T>(xs: seq<T>, n: nat)
    ensures |Take(xs, n)| <= n && |Take(xs, n)| <= |xs|
    ensures Take(xs, n) == xs[..|Take(xs, n)|]
    ensures n <= |xs| ==> |Take(xs, n)| == n
  {
    if n != 0 && xs != [] {
      TakeIsPrefix(xs[1..], n - 1);
    }
  }

  /**
   * The capped scan keeps the first records of the uncapped one, in
   * listing order: as many as the cap leaves room for, and at least one.
   */
  lemma {:induction false} ScanIsPrefix<T>(opts: seq<Option<T>>, cap: int, acc: seq<T>)
    ensures Scan(opts, cap, acc) == acc + Take(Somes(opts), Room(cap, |acc|))
    decreases |opts|
  {
    if opts != [] {
      match opts[0]
      case None =>
        ScanIsPrefix(opts[1..], cap, acc);
      case Some(p) =>
        var rest := Somes(opts[1..]);
        assert ([p] + rest)[1..] == rest;
        if |acc + [p]| < cap {
          ScanIsPrefix(opts[1..], cap, acc + [p]);
          assert acc + [p] + Take(rest, Room(cap, |acc| + 1)) == acc + ([p] + Take(rest, Room(cap, |acc| + 1)));
        }
    }
  }

  /** Every record is stamped with `category`. */
  predicate AllOfCategory(ps: seq<Paper>, category: string)
  {
    forall k | 0 <= k < |ps| :: "category" in ps[k] && ps[k]["category"] == JStr(category)
  }

  /** The records kept from parse results that all carry `category` carry it too. */
  lemma {:induction false} SomesOfCategory(opts: seq<Option<Paper>>, category: string)
    requires forall k | 0 <= k < |opts| && opts[k].Some? :: "category" in opts[k].value && opts[k].value["category"] == JStr(category)
    ensures AllOfCategory(Somes(opts), category)
  {
    if opts != [] {
      SomesOfCategory(opts[1..], category);
    }
  }

  /** What `_crawl_category` returns: nothing when the fetch fails or the page has no `<dl>`; else the capped scan of the first one. */
  function CategoryPapers(category: string, date: Option<string>, cap: int, fetch: Fetch, today: string): seq<Paper>
  {
    match fetch(ListingUrl(category, date))
    case FetchFailed => []
    case Listing(dls) =>
      if dls == [] then []
      else Scan(Parsed(dls[0], category, today), cap, [])
  }

  /**
   * A category yields the first parsed entries of its first `<dl>`, in
   * listing order, as many as the cap leaves room for.
   */
  lemma CategoryPapersArePrefix(category: string, date: Option<string>, cap: int, fetch: Fetch, today: string)
    ensures var r := fetch(ListingUrl(category, date));
      r.Listing? && r.dls != [] ==> CategoryPapers(category, date, cap, fetch, today) == Take(Somes(Parsed(r.dls[0], category, today)), Room(cap, 0))
  {
    var r := fetch(ListingUrl(category, date));
    if r.Listing? && r.dls != [] {
      ScanIsPrefix(Parsed(r.dls[0], category, today), cap, []);
    }
  }

  /** A category yields at most `cap` records, and one when `cap` is below one. */
  lemma CategoryPapersBound(category: string, date: Option<string>, cap: int, fetch: Fetch, today: string)
    ensures |CategoryPapers(category, date, cap, fetch, today)| <= Room(cap, 0)
  {
    var r := fetch(ListingUrl(category, date));
    if r.Listing? && r.dls != [] {
      CategoryPapersArePrefix(category, date, cap, fetch, today);
      TakeIsPrefix(Somes(Parsed(r.dls[0], category, today)), Room(cap, 0));
    }
  }

  /** Every record a category yields is stamped with that category. */
  lemma CategoryPapersStamped(category: string, date: Option<string>, cap: int, fetch: Fetch, today: string)
    ensures AllOfCategory(CategoryPapers(category, date, cap, fetch, today), category)
  {
    var r := fetch(ListingUrl(category, date));
    if r.Listing? && r.dls != [] {
      var opts := Parsed(r.dls[0], category, today);
      CategoryPapersArePrefix(category, date, cap, fetch, today);
      SomesOfCategory(opts, category);
      TakeIsPrefix(Somes(opts), Room(cap, 0));
    }
  }

  /** `_crawl_category`: fetch the listing and scan the first `<dl>`'s entries until `cap` records are held. */
  method CrawlCategory(category: string, date: Option<string>, cap: int, fetch: Fetch, today: string)
    returns (papers: seq<Paper>)
    ensures papers == CategoryPapers(category, date, cap, fetch, today)
  {
    papers := [];
    var url := ListingUrl(category, date);
    var response := fetch(url);
    if response.FetchFailed? || response.dls == [] {
      return;
    }
    var dl := response.dls[0];
    var n := if |dl.dts| <= |dl.dds| then |dl.dts| else |dl.dds|;
    ghost var opts := Parsed(dl, category, today);
    var i := 0;
    while i < n
      invariant 0 <= i <= n
      invariant Scan(opts[i..], cap, papers) == Scan(opts, cap, [])
    {
      var paper := ParsePaper(dl.dts[i], dl.dds[i], category, today);
      assert paper == opts[i];
      ScanAt(opts, i, cap, papers);
      if paper.Some? {
        papers := papers + [paper.value];
        if |papers| >= cap {
          break;
        }
      }
      i := i + 1;
    }
    if i == n {
      assert opts[i..] == [];
    }
  }

  /** The scan from position `i` on, unfolded once. */
  lemma ScanAt<T>(opts: seq<Option<T>>, i: nat, cap: int, acc: seq<T>)
    requires i < |opts|
    ensures Scan(opts[i..], cap, acc) == match opts[i]
      case None => Scan(opts[i + 1..], cap, acc)
      case Some(p) => if |acc + [p]| >= cap then acc + [p] else Scan(opts[i + 1..], cap, acc + [p])
  {
    assert opts[i..][0] == opts[i] && opts[i..][1..] == opts[i + 1..];
  }

  /** `order` lists every category index exactly once: the order in which the tasks completed. */
  predicate IsCompletionOrder(order: seq<nat>, n: nat)
  {
    && |order| == n
    && (forall k | 0 <= k < |order| :: order[k] < n)
    && (forall a, b | 0 <= a < b < |order| :: order[a] != order[b])
  }

  /** The per-category results concatenated in completion order. */
  function Merged(categories: seq<string>, order: seq<nat>, date: Option<string>, cap: int, fetch: Fetch, today: string): seq<Paper>
    requires forall k | 0 <= k < |order| :: order[k] < |categories|
  {
    if order == [] then []
    else
      var n := |order| - 1;
      Merged(categories, order[..n], date, cap, fetch, today) + CategoryPapers(categories[order[n]], date, cap, fetch, today)
  }

  /** Every record is stamped with one of `categories`. */
  predicate Stamped(ps: seq<Paper>, categories: seq<string>)
  {
    forall k | 0 <= k < |ps| :: "category" in ps[k] && ps[k]["category"].JStr? && ps[k]["category"].s in categories
  }

  lemma StampedConcat(a: seq<Paper>, b: seq<Paper>, categories: seq<string>)
    requires Stamped(a, categories) && Stamped(b, categories)
    ensures Stamped(a + b, categories)
  {
    forall k | 0 <= k < |a + b|
      ensures "category" in (a + b)[k] && (a + b)[k]["category"].JStr? && (a + b)[k]["category"].s in categories
    {
      if k >= |a| {
        assert (a + b)[k] == b[k - |a|];
      } else {
        assert (a + b)[k] == a[k];
      }
    }
  }

  /** Each category adds at most `Room(cap, 0)` records to the merged list. */
  lemma {:induction false} MergedBound(categories: seq<string>, order: seq<nat>, date: Option<string>, cap: int, fetch: Fetch, today: string)
    requires forall k | 0 <= k < |order| :: order[k] < |categories|
    ensures |Merged(categories, order, date, cap, fetch, today)| <= |order| * Room(cap, 0)
  {
    if order != [] {
      var n, m := |order| - 1, Room(cap, 0);
      var front := Merged(categories, order[..n], date, cap, fetch, today);
      var last := CategoryPapers(categories[order[n]], date, cap, fetch, today);
      assert Merged(categories, order, date, cap, fetch, today) == front + last;
      MergedBound(categories, order[..n], date, cap, fetch, today);
      CategoryPapersBound(categories[order[n]], date, cap, fetch, today);
      MulSucc(n, m);
      assert |front + last| <= (n + 1) * m;
    }
  }

  lemma MulSucc(n: nat, m: nat)
    ensures n * m + m == (n + 1) * m
  {
  }

  /** Every merged record carries one of the requested categories. */
  lemma {:induction false} MergedStamped(categories: seq<string>, order: seq<nat>, date: Option<string>, cap: int, fetch: Fetch, today: string)
    requires forall k | 0 <= k < |order| :: order[k] < |categories|
    ensures Stamped(Merged(categories, order, date, cap, fetch, today), categories)
  {
    if order != [] {
      var n := |order| - 1;
      MergedStamped(categories, order[..n], date, cap, fetch, today);
      var c := categories[order[n]];
      CategoryPapersStamped(c, date, cap, fetch, today);
      var front := Merged(categories, order[..n], date, cap, fetch, today);
      var last := CategoryPapers(c, date, cap, fetch, today);
      assert Stamped(last, categories) by {
        assert c in categories;
      }
      StampedConcat(front, last, categories);
    }
  }

  /**
   * `crawl`: run one task per category, extend the list with each task's
   * records as it completes, and cut the list to `max_count` (Python's
   * `papers[:max_count]`) when it is longer.
   */
  method Crawl(categories: seq<string>, date: Option<string>, maxCount: int, order: seq<nat>, fetch: Fetch, today: string)
    returns (papers: seq<Paper>)
    requires IsCompletionOrder(order, |categories|)
    ensures papers == Prefix(Merged(categories, order, date, maxCount, fetch, today), maxCount)
    ensures maxCount >= 0 ==> |papers| <= maxCount
    ensures 0 <= maxCount < |Merged(categories, order, date, maxCount, fetch, today)| ==>
      papers == Merged(categories, order, date, maxCount, fetch, today)[..maxCount]
  {
    papers := [];
    var k := 0;
    while k < |order|
      invariant 0 <= k <= |order|
      invariant papers == Merged(categories, order[..k], date, maxCount, fetch, today)
    {
      assert order[..k + 1][..k] == order[..k];
      var found := CrawlCategory(categories[order[k]], date, maxCount, fetch, today);
      papers := papers + found;
      k := k + 1;
    }
    assert order[..k] == order;
    if |papers| > maxCount {
      papers := Prefix(papers, maxCount);
    }
  }
}

=== FILE: downloader.dfy ===
/**
 * PDF download (downloader.py).
 *
 * The file system is a map from path to file size; the network is an
 * oracle that, for a URL, either completes after writing `size` bytes or
 * fails after writing `written` bytes (zero when it failed before any byte
 * reached the file). The thread pool is a sequential loop over the
 * submitted papers in an arbitrary completion order.
 */
module Downloader {
  import opened Values
  import opened Text

  /** `<storage>/<date or today>`: the directory for one day's PDFs. */
  function DayDir(storage: string, date: Option<string>, today: string): (d: string)
    ensures date.Some? && date.value != "" && !StartsWith(date.value, "/") ==> StartsWith(d, storage)
    ensures var day := if date.Some? && date.value != "" then date.value else today;
      |day| <= |d| && d[|d| - |day|..] == day
  {
    var day := if date.Some? && date.value != "" then date.value else today;
    PathJoinKeepsSuffix(storage, day, |day|);
    PathJoin(storage, day)
  }

  /** `f"{arxiv_id}.pdf"`: the name of a paper's file. */
  function FileName(id: Json): string
  {
    Str(id) + ".pdf"
  }

  /** `<dir>/<arxiv_id>.pdf`: files are named by paper id. */
  function TargetPath(dir: string, id: Json): (path: string)
    ensures |path| >= 4 && path[|path| - 4..] == ".pdf"
    ensures !StartsWith(Str(id), "/") ==> StartsWith(path, dir)
    ensures EndsWith(path, FileName(id))
  {
    var name := Str(id) + ".pdf";
    PdfNameShape(Str(id));
    PathJoinKeepsSuffix(dir, name, 4);
    PathJoinKeepsSuffix(dir, name, |name|);
    assert name == FileName(id);
    PathJoin(dir, name)
  }

  /** In one directory, two relative ids share a file exactly when they render alike. */
  lemma TargetPathNamesById(dir: string, a: Json, b: Json)
    requires !StartsWith(Str(a), "/") && !StartsWith(Str(b), "/")
    ensures TargetPath(dir, a) == TargetPath(dir, b) <==> Str(a) == Str(b)
  {
    PdfNameShape(Str(a));
    PdfNameShape(Str(b));
    PathJoinRelativeInjective(dir, Str(a) + ".pdf", Str(b) + ".pdf");
    SameSuffixSameStem(Str(a), Str(b), ".pdf");
  }

  /** A file name `<stem>.pdf` ends in `.pdf` and is absolute only when its stem is. */
  lemma PdfNameShape(stem: string)
    ensures (stem + ".pdf")[|stem + ".pdf"| - 4..] == ".pdf"
    ensures StartsWith(stem + ".pdf", "/") ==> StartsWith(stem, "/")
  {
    var name := stem + ".pdf";
    assert name[|name| - 4..] == ".pdf";
    if stem == [] {
      assert name[..1] == ".";
    } else {
      assert name[..1] == stem[..1];
    }
  }

  /** The paper's `arxiv_id`, or null. */
  function Id(paper: Paper): Json
  {
    Get(paper, "arxiv_id", JNull)
  }

  /** The paper's `pdf_url`, or null. */
  function Url(paper: Paper): Json
  {
    Get(paper, "pdf_url", JNull)
  }

  /** The file a paper is downloaded to. */
  function Target(dir: string, paper: Paper): string
  {
    TargetPath(dir, Id(paper))
  }

  /** A paper with both an id and a URL: the only kind `_download_paper` fetches. */
  predicate Eligible(paper: Paper)
  {
    Truthy(Id(paper)) && Truthy(Url(paper))
  }

  /** The paper with `pdf_path` pointing at `path`. */
  function Linked(paper: Paper, path: string): Paper
  {
    paper["pdf_path" := JStr(path)]
  }

  /** What streaming one URL to its file does. */
  datatype Outcome =
    | Failed(written: nat)      // a request or write error after `written` bytes reached the file
    | Completed(size: nat)      // the whole body, `size` bytes, was written

  type Network = string -> Outcome

  /** Streaming the paper's URL completes with a non-empty body. */
  predicate Succeeds(net: Network, paper: Paper)
  {
    net(Str(Url(paper))).Completed? && net(Str(Url(paper))).size > 0
  }

  /** `fs` is kept in `fs'`: files are only ever added, never changed or removed. */
  predicate Grows(fs: map<string, nat>, fs': map<string, nat>)
  {
    fs.Keys <= fs'.Keys && forall p | p in fs :: fs'[p] == fs[p]
  }

  lemma GrowsTrans(a: map<string, nat>, b: map<string, nat>, c: map<string, nat>)
    requires Grows(a, b) && Grows(b, c)
    ensures Grows(a, c)
  {
  }

  lemma GrowsKeeps(fs: map<string, nat>, fs': map<string, nat>, p: string)
    requires Grows(fs, fs') && p in fs
    ensures p in fs'
  {
  }

  /**
   * `n` bytes written to the new file `path`, which is removed again when
   * it is empty: only `path` can appear, and only with a non-zero size.
   */
  function Written(fs: map<string, nat>, path: string, n: nat): (r: map<string, nat>)
    requires path !in fs
    ensures Grows(fs, r) && r.Keys <= fs.Keys + {path}
    ensures path in r <==> n > 0
    ensures path in r ==> r[path] == n
  {
    var f := fs[path := n];
    if f[path] == 0 then f - {path} else f
  }

  /** One task: the paper afterwards, the file system afterwards, and the URL requested, if any. */
  datatype Step = Step(paper: Paper, fs: map<string, nat>, request: Option<string>)

  /**
   * `_download_paper`. A paper without id or URL comes back as it was; an
   * existing target is trusted whatever its size; otherwise the URL is
   * requested and `pdf_path` is set only when a non-empty body arrived.
   */
  function DownloadPaper(paper: Paper, dir: string, fs: map<string, nat>, net: Network): (st: Step)
    // the paper comes back unchanged, or pointing at its target, which is then on disk
    ensures st.paper == paper || (Target(dir, paper) in st.fs && st.paper == Linked(paper, Target(dir, paper)))
    // files are only added, and only the paper's own target
    ensures Grows(fs, st.fs) && st.fs.Keys <= fs.Keys + {Target(dir, paper)}
    ensures Target(dir, paper) in fs ==> st.fs == fs
    // a file that was not there before is never left empty
    ensures Target(dir, paper) !in fs && Target(dir, paper) in st.fs ==> st.fs[Target(dir, paper)] > 0
    // a request is made exactly for an eligible paper whose target is missing, and it is for its URL
    ensures st.request.Some? <==> Eligible(paper) && Target(dir, paper) !in fs
    ensures st.request.Some? ==> st.request.value == Str(Url(paper))
    // an existing target, or a successful download, links the paper to its file
    ensures Eligible(paper) && (Target(dir, paper) in fs || Succeeds(net, paper)) ==>
      Target(dir, paper) in st.fs && st.paper == Linked(paper, Target(dir, paper))
  {
    if !Eligible(paper) then Step(paper, fs, None)
    else
      var path := Target(dir, paper);
      if path in fs then Step(Linked(paper, path), fs, None)
      else
        var url := Str(Url(paper));
        match net(url)
        case Completed(size) =>
          if size == 0 then Step(paper, Written(fs, path, size), Some(url))
          else Step(Linked(paper, path), Written(fs, path, size), Some(url))
        case Failed(k) => Step(paper, Written(fs, path, k), Some(url))
  }

  /**
   * What `_download_paper` leaves alone: a paper without id or URL comes back
   * as it was, with no file activity and no request; a missing target is
   * linked only after a non-empty download; and a download that wrote no
   * byte leaves no file behind.
   */
  lemma DownloadPaperQuiet(paper: Paper, dir: string, fs: map<string, nat>, net: Network)
    ensures !Eligible(paper) ==> DownloadPaper(paper, dir, fs, net) == Step(paper, fs, None)
    ensures Eligible(paper) && Target(dir, paper) !in fs && !Succeeds(net, paper) ==>
      DownloadPaper(paper, dir, fs, net).paper == paper
    ensures Eligible(paper) && Target(dir, paper) !in fs && (net(Str(Url(paper))) == Completed(0) || net(Str(Url(paper))) == Failed(0)) ==>
      DownloadPaper(paper, dir, fs, net).fs == fs
  {
    if Eligible(paper) && Target(dir, paper) !in fs {
      var path, url := Target(dir, paper), Str(Url(paper));
      if net(url) == Completed(0) || net(url) == Failed(0) {
        assert Written(fs, path, 0) == fs;
      }
    }
  }

  /**
   * A failure after some bytes were written leaves the partial file on disk
   * and `pdf_path` unset; a later run then treats the partial file as
   * downloaded: it makes no request and points `pdf_path` at it.
   */
  lemma PartialFileTrustedOnRerun(paper: Paper, dir: string, fs: map<string, nat>, net: Network, net2: Network)
    requires Eligible(paper) && Target(dir, paper) !in fs
    requires net(Str(Url(paper))).Failed? && net(Str(Url(paper))).written > 0
    ensures var first := DownloadPaper(paper, dir, fs, net);
      var second := DownloadPaper(first.paper, dir, first.fs, net2);
      && first.paper == paper
      && Target(dir, paper) in first.fs
      && second.request.None?
      && second.paper == Linked(paper, Target(dir, paper))
  {
  }

  /** The indices of the papers that have a `pdf_url`, in list order: the tasks that are submitted. */
  function Submitted(papers: seq<Paper>): (ix: seq<nat>)
    ensures forall k | 0 <= k < |ix| :: ix[k] < |papers| && Truthy(Url(papers[ix[k]]))
    ensures forall i | 0 <= i < |papers| && Truthy(Url(papers[i])) :: i in ix
    ensures forall a, b | 0 <= a < b < |ix| :: ix[a] < ix[b]
  {
    if papers == [] then []
    else
      var n := |papers| - 1;
      var init := Submitted(papers[..n]);
      assert forall i | 0 <= i < n :: papers[..n][i] == papers[i];
      if Truthy(Url(papers[n])) then init + [n] else init
  }

  /** `order` is a completion order of the submitted tasks: a permutation of their indices. */
  predicate IsCompletionOrder(order: seq<nat>, papers: seq<Paper>)
  {
    && multiset(order) == multiset(Submitted(papers))
    && forall k | 0 <= k < |order| :: order[k] < |papers|
  }

  /** A completion order runs every submitted task exactly once, and only those. */
  lemma CompletionOrderBounds(order: seq<nat>, papers: seq<Paper>)
    requires IsCompletionOrder(order, papers)
    ensures |order| == |Submitted(papers)|
    ensures forall k | 0 <= k < |order| :: order[k] < |papers| && Truthy(Url(papers[order[k]]))
  {
    assert |multiset(order)| == |multiset(Submitted(papers))|;
    forall k | 0 <= k < |order|
      ensures order[k] < |papers| && Truthy(Url(papers[order[k]]))
    {
      assert order[k] in multiset(order);
      assert order[k] in multiset(Submitted(papers));
    }
  }

  /** The papers in completion order. */
  function Picked(papers: seq<Paper>, order: seq<nat>): (ps: seq<Paper>)
    requires forall k | 0 <= k < |order| :: order[k] < |papers|
    ensures |ps| == |order| && forall k | 0 <= k < |order| :: ps[k] == papers[order[k]]
  {
    seq(|order|, k requires 0 <= k < |order| => papers[order[k]])
  }

  /** The returned papers, the file system and the URLs requested, after running tasks one after the other. */
  datatype Run = Run(out: seq<Paper>, fs: map<string, nat>, requests: seq<string>)

  /** One more task, run on the files the earlier tasks left. */
  function Next(prev: Run, paper: Paper, dir: string, net: Network): (r: Run)
  {
    var st := DownloadPaper(paper, dir, prev.fs, net);
    Run(prev.out + [st.paper], st.fs, prev.requests + (if st.request.Some? then [st.request.value] else []))
  }

  /** The tasks for `ps` run in that order, each seeing the files the earlier ones left. */
  function RunAll(ps: seq<Paper>, dir: string, fs: map<string, nat>, net: Network): (r: Run)
    ensures |r.out| == |ps|
  {
    if ps == [] then Run([], fs, [])
    else Next(RunAll(ps[..|ps| - 1], dir, fs, net), ps[|ps| - 1], dir, net)
  }

  /** A run only adds files. */
  lemma {:induction false} RunAllGrows(ps: seq<Paper>, dir: string, fs: map<string, nat>, net: Network)
    ensures Grows(fs, RunAll(ps, dir, fs, net).fs)
  {
    if ps != [] {
      var prev := RunAll(ps[..|ps| - 1], dir, fs, net);
      RunAllGrows(ps[..|ps| - 1], dir, fs, net);
      GrowsTrans(fs, prev.fs, RunAll(ps, dir, fs, net).fs);
    }
  }

  /** The URLs of the papers whose target is missing from `fs`: the only ones worth requesting. */
  ghost function Missing(ps: seq<Paper>, dir: string, fs: map<string, nat>): set<string>
  {
    set k | 0 <= k < |ps| && Target(dir, ps[k]) !in fs :: Str(Url(ps[k]))
  }

  /** Every request of a run is for a paper whose target was missing when the run started. */
  lemma {:induction false} RunAllRequestsMissing(ps: seq<Paper>, dir: string, fs: map<string, nat>, net: Network)
    ensures forall u | u in RunAll(ps, dir, fs, net).requests :: u in Missing(ps, dir, fs)
  {
    if ps != [] {
      var n := |ps| - 1;
      var prev := RunAll(ps[..n], dir, fs, net);
      RunAllRequestsMissing(ps[..n], dir, fs, net);
      RunAllGrows(ps[..n], dir, fs, net);
      MissingGrows(ps, dir, fs);
      var st := DownloadPaper(ps[n], dir, prev.fs, net);
      if st.request.Some? {
        assert Target(dir, ps[n]) !in fs;
        assert st.request.value in Missing(ps, dir, fs);
      }
    }
  }

  lemma MissingGrows(ps: seq<Paper>, dir: string, fs: map<string, nat>)
    requires ps != []
    ensures Missing(ps[..|ps| - 1], dir, fs) <= Missing(ps, dir, fs)
  {
    forall u | u in Missing(ps[..|ps| - 1], dir, fs)
      ensures u in Missing(ps, dir, fs)
    {
      var k :| 0 <= k < |ps| - 1 && Target(dir, ps[..|ps| - 1][k]) !in fs && u == Str(Url(ps[..|ps| - 1][k]));
      assert ps[..|ps| - 1][k] == ps[k];
    }
  }

  /** A run of `ps` is the run of all but the last paper, followed by the last task. */
  lemma RunAllSnoc(ps: seq<Paper>, dir: string, fs: map<string, nat>, net: Network)
    requires ps != []
    ensures var prev := RunAll(ps[..|ps| - 1], dir, fs, net);
      var st := DownloadPaper(ps[|ps| - 1], dir, prev.fs, net);
      RunAll(ps, dir, fs, net).out == prev.out + [st.paper] && RunAll(ps, dir, fs, net).fs == st.fs
  {
  }

  /** The first `j` outputs of a run are those of the first `j` tasks, and later tasks only add files. */
  lemma {:induction false} RunAllStable(ps: seq<Paper>, dir: string, fs: map<string, nat>, net: Network, j: nat)
    requires j <= |ps|
    ensures RunAll(ps, dir, fs, net).out[..j] == RunAll(ps[..j], dir, fs, net).out
    ensures Grows(RunAll(ps[..j], dir, fs, net).fs, RunAll(ps, dir, fs, net).fs)
    decreases |ps|
  {
    if j < |ps| {
      var n := |ps| - 1;
      RunAllStable(ps[..n], dir, fs, net, j);
      assert ps[..n][..j] == ps[..j];
      RunAllSnoc(ps, dir, fs, net);
      assert RunAll(ps, dir, fs, net).out[..j] == RunAll(ps[..n], dir, fs, net).out[..j];
      GrowsTrans(RunAll(ps[..j], dir, fs, net).fs, RunAll(ps[..n], dir, fs, net).fs, RunAll(ps, dir, fs, net).fs);
    } else {
      assert ps[..j] == ps;
    }
  }

  /** The `k`-th output of a run is the `k`-th task run on the files the earlier tasks left. */
  lemma {:induction false} RunAllAt(ps: seq<Paper>, dir: string, fs: map<string, nat>, net: Network, k: nat)
    requires k < |ps|
    ensures var st := DownloadPaper(ps[k], dir, RunAll(ps[..k], dir, fs, net).fs, net);
      RunAll(ps, dir, fs, net).out[k] == st.paper && Grows(st.fs, RunAll(ps, dir, fs, net).fs)
  {
    RunAllStable(ps, dir, fs, net, k + 1);
    var q := ps[..k + 1];
    assert q[..k] == ps[..k] && q[k] == ps[k];
    RunAllSnoc(q, dir, fs, net);
    assert RunAll(ps, dir, fs, net).out[k] == RunAll(ps, dir, fs, net).out[..k + 1][k];
  }

  /** Each paper comes back in task order, unchanged or pointing at its target, which is on disk at the end. */
  lemma {:induction false} RunAllOut(ps: seq<Paper>, dir: string, fs: map<string, nat>, net: Network, k: nat)
    requires k < |ps|
    ensures var r := RunAll(ps, dir, fs, net);
      r.out[k] == ps[k] || (Target(dir, ps[k]) in r.fs && r.out[k] == Linked(ps[k], Target(dir, ps[k])))
  {
    RunAllAt(ps, dir, fs, net, k);
    var st := DownloadPaper(ps[k], dir, RunAll(ps[..k], dir, fs, net).fs, net);
    if Target(dir, ps[k]) in st.fs {
      GrowsKeeps(st.fs, RunAll(ps, dir, fs, net).fs, Target(dir, ps[k]));
    }
  }

  /**
   * A paper comes back changed only when it is eligible and its target was
   * on disk when its task ran (the initial files plus what earlier tasks
   * wrote) or its download succeeded.
   */
  lemma {:induction false} RunAllOutChanged(ps: seq<Paper>, dir: string, fs: map<string, nat>, net: Network, k: nat)
    requires k < |ps|
    ensures RunAll(ps, dir, fs, net).out[k] != ps[k] ==>
      Eligible(ps[k]) && (Target(dir, ps[k]) in RunAll(ps[..k], dir, fs, net).fs || Succeeds(net, ps[k]))
  {
    RunAllAt(ps, dir, fs, net, k);
    DownloadPaperQuiet(ps[k], dir, RunAll(ps[..k], dir, fs, net).fs, net);
  }

  /**
   * The `k`-th task of a run sees the initial files plus what earlier tasks
   * wrote, so it links its paper whenever it would have on the initial files.
   */
  lemma {:induction false} RunAllStepAt(ps: seq<Paper>, dir: string, fs: map<string, nat>, net: Network, k: nat)
    requires k < |ps| && Eligible(ps[k])
    requires Target(dir, ps[k]) in fs || Succeeds(net, ps[k])
    ensures Target(dir, ps[k]) in RunAll(ps, dir, fs, net).fs
    ensures RunAll(ps, dir, fs, net).out[k] == Linked(ps[k], Target(dir, ps[k]))
  {
    RunAllAt(ps, dir, fs, net, k);
    var pre := RunAll(ps[..k], dir, fs, net);
    RunAllGrows(ps[..k], dir, fs, net);
    if Target(dir, ps[k]) in fs {
      GrowsKeeps(fs, pre.fs, Target(dir, ps[k]));
    }
    var st := DownloadPaper(ps[k], dir, pre.fs, net);
    GrowsKeeps(st.fs, RunAll(ps, dir, fs, net).fs, Target(dir, ps[k]));
  }

  /** A task whose target is on disk links its paper to it, with no request and no file change. */
  lemma DownloadPresent(paper: Paper, dir: string, fs: map<string, nat>, net: Network)
    requires Eligible(paper) && Target(dir, paper) in fs
    ensures DownloadPaper(paper, dir, fs, net) == Step(Linked(paper, Target(dir, paper)), fs, None)
  {
  }

  /** When every target is already on disk, a run makes no request, writes nothing and points every paper at its file. */
  lemma {:induction false} RunAllAllPresent(ps: seq<Paper>, dir: string, fs: map<string, nat>, net: Network)
    requires forall k | 0 <= k < |ps| :: Eligible(ps[k]) && Target(dir, ps[k]) in fs
    ensures RunAll(ps, dir, fs, net).requests == []
    ensures RunAll(ps, dir, fs, net).fs == fs
    ensures forall k | 0 <= k < |ps| :: RunAll(ps, dir, fs, net).out[k] == Linked(ps[k], Target(dir, ps[k]))
  {
    if ps != [] {
      var n := |ps| - 1;
      var front := ps[..n];
      assert forall k | 0 <= k < n :: front[k] == ps[k];
      RunAllAllPresent(front, dir, fs, net);
      var prev := RunAll(front, dir, fs, net);
      DownloadPresent(ps[n], dir, prev.fs, net);
      var last := Linked(ps[n], Target(dir, ps[n]));
      assert RunAll(ps, dir, fs, net) == Next(prev, ps[n], dir, net);
      NextQuiet(prev, ps[n], dir, net, Step(last, fs, None));
      LinkedSnoc(ps, prev.out, last, dir);
    }
  }

  /** A task that makes no request adds its paper and leaves the requests as they were. */
  lemma NextQuiet(prev: Run, paper: Paper, dir: string, net: Network, st: Step)
    requires DownloadPaper(paper, dir, prev.fs, net) == st && st.request.None?
    ensures Next(prev, paper, dir, net) == Run(prev.out + [st.paper], st.fs, prev.requests)
  {
  }

  /** Extending the linked papers of a prefix by the last one links them all. */
  lemma LinkedSnoc(ps: seq<Paper>, front: seq<Paper>, last: Paper, dir: string)
    requires ps != [] && |front| == |ps| - 1
    requires forall k | 0 <= k < |front| :: front[k] == Linked(ps[k], Target(dir, ps[k]))
    requires last == Linked(ps[|ps| - 1], Target(dir, ps[|ps| - 1]))
    ensures forall k | 0 <= k < |ps| :: (front + [last])[k] == Linked(ps[k], Target(dir, ps[k]))
  {
  }

  /**
   * Idempotence: when each download of a first run either found its file or
   * completed with a non-empty body, running the same papers again makes no
   * request, leaves the files as they are and returns the same records.
   */
  lemma RerunIsIdempotent(ps: seq<Paper>, dir: string, fs: map<string, nat>, net: Network, net2: Network)
    requires forall k | 0 <= k < |ps| :: Eligible(ps[k]) && (Target(dir, ps[k]) in fs || Succeeds(net, ps[k]))
    ensures var first := RunAll(ps, dir, fs, net);
      var second := RunAll(ps, dir, first.fs, net2);
      second.requests == [] && second.fs == first.fs && second.out == first.out
  {
    var first := RunAll(ps, dir, fs, net);
    forall k | 0 <= k < |ps|
      ensures Target(dir, ps[k]) in first.fs
      ensures first.out[k] == Linked(ps[k], Target(dir, ps[k]))
    {
      RunAllStepAt(ps, dir, fs, net, k);
    }
    RunAllAllPresent(ps, dir, first.fs, net2);
  }

  /**
   * `download`: pick the day's directory under `storage` (`date`, or
   * `today` when no date is given), submit every paper that has a
   * `pdf_url`, run the tasks in completion order, and return the papers
   * those tasks give back. Papers without a `pdf_url` are not in the result.
   */
  method Download(papers: seq<Paper>, storage: string, date: Option<string>, today: string, fs: map<string, nat>, order: seq<nat>, net: Network)
    returns (out: seq<Paper>, fs': map<string, nat>, requests: seq<string>)
    requires IsCompletionOrder(order, papers)
    ensures |out| == |order| == |Submitted(papers)|
    ensures forall k | 0 <= k < |order| :: order[k] < |papers|
    ensures Run(out, fs', requests) == RunAll(Picked(papers, order), DayDir(storage, date, today), fs, net)
  {
    CompletionOrderBounds(order, papers);
    if papers == [] {
      return papers, fs, [];
    }
    out, fs', requests := RunTasks(Picked(papers, order), DayDir(storage, date, today), fs, net);
  }

  /** The worker loop: the tasks run one after another, each on the files the earlier ones left. */
  method RunTasks(ps: seq<Paper>, dir: string, fs: map<string, nat>, net: Network)
    returns (out: seq<Paper>, fs': map<string, nat>, requests: seq<string>)
    ensures Run(out, fs', requests) == RunAll(ps, dir, fs, net)
  {
    out, fs', requests := [], fs, [];
    var k := 0;
    while k < |ps|
      invariant 0 <= k <= |ps|
      invariant RunAll(ps[..k], dir, fs, net) == Run(out, fs', requests)
    {
      RunAllPrefixStep(ps, dir, fs, net, k);
      var st := DownloadPaper(ps[k], dir, fs', net);
      out, fs', requests := out + [st.paper], st.fs, requests + (if st.request.Some? then [st.request.value] else []);
      k := k + 1;
    }
    assert ps[..k] == ps;
  }

  /** One more task extends the run of a prefix by that task. */
  lemma RunAllPrefixStep(ps: seq<Paper>, dir: string, fs: map<string, nat>, net: Network, k: nat)
    requires k < |ps|
    ensures RunAll(ps[..k + 1], dir, fs, net) == Next(RunAll(ps[..k], dir, fs, net), ps[k], dir, net)
  {
    assert ps[..k + 1][..k] == ps[..k];
  }

  /** Every paper `download` returns has a `pdf_url`, and it is one of the submitted papers, possibly linked. */
  lemma DownloadOutputs(papers: seq<Paper>, dir: string, fs: map<string, nat>, order: seq<nat>, net: Network, k: nat)
    requires IsCompletionOrder(order, papers) && k < |order|
    ensures order[k] < |papers|
    ensures var r := RunAll(Picked(papers, order), dir, fs, net);
      && Truthy(Url(r.out[k]))
      && (r.out[k] == papers[order[k]] || r.out[k] == Linked(papers[order[k]], Target(dir, papers[order[k]])))
  {
    CompletionOrderBounds(order, papers);
    RunAllOut(Picked(papers, order), dir, fs, net, k);
  }
}

=== FILE: extractor.dfy ===
/**
 * Heuristic metadata extraction from downloaded PDFs (extractor.py).
 *
 * Each regular expression of the source is a `Pattern`; the regex engine is
 * the `Search` oracle, which returns capture group 1 of the first match.
 * What is modelled exactly is everything around it: which patterns are
 * tried in which order, the length checks a capture must pass, the abstract
 * fallback, the author-list splitting, the page window read from the PDF and
 * the non-destructive update of each record.
 */
module Extractor {
  import opened Values
  import opened Text
  import Downloader

  /** The regular expressions of the extractor. */
  datatype Pattern =
    | TitleLabel          // `Title:` up to `Authors`
    | TitleBeforeName     // a 10..200 character block followed by a blank line and a capitalised name
    | LeadingBlock        // the first 10..200 characters before a blank line
    | TitleFromAbstract   // `Abstract:` up to `1.`
    | AuthorsLabel        // `Authors:` up to `Abstract`
    | AuthorLabel         // `Author:` up to `Abstract`
    | ByLabel             // `by` up to `Abstract`
    | AbstractLabel       // `Abstract:` up to `1.`, `Introduction`, `References` or the end
    | AbstractUpper       // the same with upper-case section names

  const TitlePatterns: seq<Pattern> := [TitleLabel, TitleBeforeName, LeadingBlock, TitleFromAbstract]
  const AuthorPatterns: seq<Pattern> := [AuthorsLabel, AuthorLabel, ByLabel]
  const AbstractPatterns: seq<Pattern> := [AbstractLabel, AbstractUpper]

  /** `re.search(pattern, text)` followed by `.group(1)`: None when nothing matches. */
  type Search = (Pattern, string) -> Option<string>

  /** The position of the first present candidate, or `|xs|` when there is none. */
  function FirstSomeIndex<T>(xs: seq<Option<T>>): (i: nat)
    ensures i <= |xs|
    ensures forall j | 0 <= j < i :: xs[j].None?
    ensures i < |xs| ==> xs[i].Some?
    decreases |xs|
  {
    if xs == [] || xs[0].Some? then 0
    else
      var i := FirstSomeIndex(xs[1..]);
      assert forall j | 1 <= j < |xs| :: xs[j] == xs[1..][j - 1];
      1 + i
  }

  /** The first present candidate: the search loops of the extractor return at the first pattern that passes. */
  function FirstSome<T>(xs: seq<Option<T>>): (r: Option<T>)
    ensures r.None? <==> forall i | 0 <= i < |xs| :: xs[i].None?
    ensures forall i | 0 <= i < |xs| && xs[i].Some? && (forall j | 0 <= j < i :: xs[j].None?) :: r == xs[i]
    ensures r.Some? ==> r in xs
  {
    var i := FirstSomeIndex(xs);
    if i < |xs| then xs[i] else None
  }

  // ---------------------------------------------------------------- authors

  /** The separators `_parse_authors` tries, in order. */
  const Separators: seq<string> := [",", "and", ";"]

  /** The stripped piece, when it is longer than two characters. */
  function KeepPiece(piece: string): (r: seq<string>)
    ensures r == [] || (|r| == 1 && |r[0]| > 2 && Trimmed(r[0]))
  {
    if |Strip(piece)| > 2 then [Strip(piece)] else []
  }

  /** The stripped pieces longer than two characters, in order. */
  function Kept(pieces: seq<string>): (r: seq<string>)
    ensures forall k | 0 <= k < |r| :: |r[k]| > 2 && Trimmed(r[k])
    ensures |r| <= |pieces|
  {
    if pieces == [] then []
    else Kept(pieces[..|pieces| - 1]) + KeepPiece(pieces[|pieces| - 1])
  }

  /** Keeping one more piece extends the kept list by that piece's contribution. */
  lemma KeptSnoc(pieces: seq<string>, k: nat)
    requires k < |pieces|
    ensures Kept(pieces[..k + 1]) == Kept(pieces[..k]) + KeepPiece(pieces[k])
  {
    assert pieces[..k + 1][..k] == pieces[..k];
  }

  /** Index of the first separator, from `from` on, that splits `text` into more than one piece. */
  function ChosenFrom(text: string, from: nat): (r: Option<nat>)
    requires from <= |Separators|
    ensures r.Some? ==> from <= r.value < |Separators| && |Split(text, Separators[r.value])| > 1
    ensures r.Some? ==> forall j | from <= j < r.value :: |Split(text, Separators[j])| <= 1
    ensures r.None? ==> forall j | from <= j < |Separators| :: |Split(text, Separators[j])| <= 1
    decreases |Separators| - from
  {
    if from == |Separators| then None
    else if |Split(text, Separators[from])| > 1 then Some(from)
    else ChosenFrom(text, from + 1)
  }

  /**
   * What `_parse_authors` returns for `text`. Every author is trimmed and
   * longer than two characters, unless the whole stripped text is the single
   * fallback author; only an empty text gives no author.
   */
  function AuthorsOf(text: string): (r: seq<string>)
    ensures r == [] <==> text == []
    ensures r == [Strip(text)] || forall k | 0 <= k < |r| :: |r[k]| > 2 && Trimmed(r[k])
  {
    var kept := Committed(text);
    if kept == [] && text != [] then [Strip(text)] else kept
  }

  /** The kept pieces of the first separator that splits `text`, or none when no separator does. */
  function Committed(text: string): (r: seq<string>)
    ensures forall k | 0 <= k < |r| :: |r[k]| > 2 && Trimmed(r[k])
  {
    match ChosenFrom(text, 0)
    case Some(i) => Kept(Split(text, Separators[i]))
    case None => []
  }

  /**
   * `_parse_authors`: try the separators in order, commit to the first one
   * that splits the text, keep the stripped pieces longer than two
   * characters, and fall back to the whole stripped text.
   */
  method ParseAuthors(text: string) returns (authors: seq<string>)
    ensures authors == AuthorsOf(text)
  {
    authors := [];
    var i := 0;
    while i < |Separators|
      invariant 0 <= i <= |Separators|
      invariant authors == []
      invariant ChosenFrom(text, i) == ChosenFrom(text, 0)
    {
      var parts := Split(text, Separators[i]);
      if |parts| > 1 {
        var k := 0;
        while k < |parts|
          invariant 0 <= k <= |parts|
          invariant authors == Kept(parts[..k])
        {
          var part := Strip(parts[k]);
          if |part| > 2 {
            authors := authors + [part];
          }
          KeptSnoc(parts, k);
          k := k + 1;
        }
        assert parts[..k] == parts;
        assert ChosenFrom(text, i) == Some(i);
        break;
      }
      i := i + 1;
    }
    assert authors == Committed(text);
    if authors == [] && text != [] {
      authors := [Strip(text)];
    }
  }

  /**
   * The parser commits to the first separator that occurs in the text: the
   * authors are the kept pieces of that one split alone, or the stripped
   * text when no piece is kept.
   */
  lemma AuthorsCommitToFirstSeparator(text: string, i: nat)
    requires i < |Separators| && Occurs(Separators[i], text)
    requires forall j | 0 <= j < i :: !Occurs(Separators[j], text)
    ensures var kept := Kept(Split(text, Separators[i]));
      AuthorsOf(text) == if kept == [] then [Strip(text)] else kept
  {
    SplitMany(text, Separators[i]);
    forall j | 0 <= j < i
      ensures |Split(text, Separators[j])| <= 1
    {
      SplitMany(text, Separators[j]);
    }
    assert ChosenFrom(text, 0) == Some(i);
  }

  /** Without any separator the whole stripped text is the one author. */
  lemma AuthorsWithoutSeparator(text: string)
    requires text != []
    requires forall j | 0 <= j < |Separators| :: !Occurs(Separators[j], text)
    ensures AuthorsOf(text) == [Strip(text)]
  {
    forall j | 0 <= j < |Separators|
      ensures |Split(text, Separators[j])| <= 1
    {
      SplitMany(text, Separators[j]);
    }
    assert ChosenFrom(text, 0).None?;
  }

  // ----------------------------------------------------------- the searches

  /** A title capture passes when its stripped length is strictly between 10 and 200. */
  function TitleCandidate(search: Search, text: string, p: Pattern): (c: Option<string>)
    ensures c.Some? ==> 10 < |c.value| < 200 && Trimmed(c.value)
    ensures c.Some? <==> search(p, text).Some? && 10 < |Strip(search(p, text).value)| < 200
    ensures c.Some? ==> c.value == Strip(search(p, text).value)
  {
    match search(p, text)
    case None => None
    case Some(c) => if 10 < |Strip(c)| < 200 then Some(Strip(c)) else None
  }

  function TitleCandidates(search: Search, text: string): (cs: seq<Option<string>>)
    ensures |cs| == |TitlePatterns|
    ensures forall i | 0 <= i < |cs| :: cs[i] == TitleCandidate(search, text, TitlePatterns[i])
  {
    [ TitleCandidate(search, text, TitleLabel), TitleCandidate(search, text, TitleBeforeName),
      TitleCandidate(search, text, LeadingBlock), TitleCandidate(search, text, TitleFromAbstract) ]
  }

  /**
   * `_extract_title`: the capture of the first pattern, in list order, that
   * passes the length check; None when no pattern passes.
   */
  function ExtractTitle(text: string, search: Search): (r: Option<string>)
    ensures r.Some? ==> 10 < |r.value| < 200 && Trimmed(r.value)
    ensures r.None? <==> forall i | 0 <= i < |TitlePatterns| :: TitleCandidate(search, text, TitlePatterns[i]).None?
    ensures forall i | 0 <= i < |TitlePatterns| && TitleCandidate(search, text, TitlePatterns[i]).Some?
      && (forall j | 0 <= j < i :: TitleCandidate(search, text, TitlePatterns[j]).None?) :: r == TitleCandidate(search, text, TitlePatterns[i])
  {
    FirstSome(TitleCandidates(search, text))
  }

  /** An author capture passes when parsing its stripped text gives at least one author. */
  function AuthorsCandidate(search: Search, text: string, p: Pattern): (c: Option<seq<string>>)
    ensures c.Some? ==> c.value != []
    ensures c.None? <==> search(p, text).None? || Strip(search(p, text).value) == []
    ensures c.Some? ==> c.value == AuthorsOf(Strip(search(p, text).value))
  {
    match search(p, text)
    case None => None
    case Some(c) => var a := AuthorsOf(Strip(c)); if a != [] then Some(a) else None
  }

  function AuthorsCandidates(search: Search, text: string): (cs: seq<Option<seq<string>>>)
    ensures |cs| == |AuthorPatterns|
    ensures forall i | 0 <= i < |cs| :: cs[i] == AuthorsCandidate(search, text, AuthorPatterns[i])
  {
    [ AuthorsCandidate(search, text, AuthorsLabel), AuthorsCandidate(search, text, AuthorLabel),
      AuthorsCandidate(search, text, ByLabel) ]
  }

  /**
   * `_extract_authors`: the parsed authors of the first capture that yields
   * any; the empty list exactly when every pattern misses or captures blank text.
   */
  function ExtractAuthors(text: string, search: Search): (r: seq<string>)
    ensures r == [] <==> forall i | 0 <= i < |AuthorPatterns| :: AuthorsCandidate(search, text, AuthorPatterns[i]).None?
    ensures forall i | 0 <= i < |AuthorPatterns| && AuthorsCandidate(search, text, AuthorPatterns[i]).Some?
      && (forall j | 0 <= j < i :: AuthorsCandidate(search, text, AuthorPatterns[j]).None?) :: r == AuthorsCandidate(search, text, AuthorPatterns[i]).value
  {
    var cs := AuthorsCandidates(search, text);
    var i := FirstSomeIndex(cs);
    if i < |cs| then cs[i].value else []
  }

  /** An abstract capture passes when its stripped text is longer than 50 characters. */
  function AbstractCandidate(search: Search, text: string, p: Pattern): (c: Option<string>)
    ensures c.Some? ==> |c.value| > 50 && Trimmed(c.value)
    ensures c.Some? <==> search(p, text).Some? && |Strip(search(p, text).value)| > 50
    ensures c.Some? ==> c.value == Strip(search(p, text).value)
  {
    match search(p, text)
    case None => None
    case Some(c) => if |Strip(c)| > 50 then Some(Strip(c)) else None
  }

  function AbstractCandidates(search: Search, text: string): (cs: seq<Option<string>>)
    ensures |cs| == |AbstractPatterns|
    ensures forall i | 0 <= i < |cs| :: cs[i] == AbstractCandidate(search, text, AbstractPatterns[i])
  {
    [ AbstractCandidate(search, text, AbstractLabel), AbstractCandidate(search, text, AbstractUpper) ]
  }

  /** The number of leading characters used as an abstract when no pattern passes. */
  const FallbackLength: nat := 1000

  /**
   * `_extract_abstract`: the capture of the first pattern that passes the
   * length check; when none passes, the stripped first 1000 characters of a
   * text longer than 1000; otherwise None.
   */
  function ExtractAbstract(text: string, search: Search): (r: Option<string>)
    ensures r.Some? ==> Trimmed(r.value) && (|r.value| > 50 || |r.value| <= FallbackLength)
    ensures forall i | 0 <= i < |AbstractPatterns| && AbstractCandidate(search, text, AbstractPatterns[i]).Some?
      && (forall j | 0 <= j < i :: AbstractCandidate(search, text, AbstractPatterns[j]).None?) :: r == AbstractCandidate(search, text, AbstractPatterns[i])
    ensures (forall i | 0 <= i < |AbstractPatterns| :: AbstractCandidate(search, text, AbstractPatterns[i]).None?) ==>
      (r.Some? <==> |text| > FallbackLength) && (r.Some? ==> r.value == Strip(text[..FallbackLength]))
  {
    match FirstSome(AbstractCandidates(search, text))
    case Some(a) => Some(a)
    case None => if |text| > FallbackLength then Some(Strip(text[..FallbackLength])) else None
  }

  // ------------------------------------------------------- the record update

  /** The fields the extractor may overwrite. */
  const ExtractedFields: set<string> := {"title", "authors", "abstract"}

  /** An optional string as Python holds it: the string, or None. */
  function OptStr(v: Option<string>): (j: Json)
    ensures Truthy(j) <==> v.Some? && v.value != ""
  {
    if v.Some? then JStr(v.value) else JNull
  }

  /** `if value: paper[key] = value`. */
  function SetIfTruthy(paper: Paper, key: string, v: Json): (p: Paper)
    ensures p.Keys == paper.Keys + (if Truthy(v) then {key} else {})
    ensures forall k | k in paper && k != key :: p[k] == paper[k]
    ensures key in p ==> p[key] == (if Truthy(v) then v else paper[key])
  {
    if Truthy(v) then paper[key := v] else paper
  }

  /**
   * The record after extraction: title, authors and abstract, in that order,
   * each overwritten only by a non-empty extracted value.
   */
  function Enrich(paper: Paper, title: Option<string>, authors: seq<string>, summary: Option<string>): Paper
  {
    var p1 := SetIfTruthy(paper, "title", OptStr(title));
    var p2 := SetIfTruthy(p1, "authors", StrList(authors));
    SetIfTruthy(p2, "abstract", OptStr(summary))
  }

  /** The values extracted from `text`, applied to `paper`. */
  function EnrichFrom(paper: Paper, text: string, search: Search): Paper
  {
    Enrich(paper, ExtractTitle(text, search), ExtractAuthors(text, search), ExtractAbstract(text, search))
  }

  /**
   * Extraction never destroys data: no field is removed, fields other than
   * title, authors and abstract keep their values, and those three either
   * keep their value or receive a non-empty one.
   */
  ghost predicate NonDestructive(before: Paper, after: Paper)
  {
    && before.Keys <= after.Keys
    && after.Keys <= before.Keys + ExtractedFields
    && (forall k | k in before && k !in ExtractedFields :: after[k] == before[k])
    && (forall k | k in after && k in ExtractedFields :: (k in before && after[k] == before[k]) || Truthy(after[k]))
  }

  lemma SetIfTruthyNonDestructive(paper: Paper, key: string, v: Json)
    requires key in ExtractedFields
    ensures NonDestructive(paper, SetIfTruthy(paper, key, v))
  {
  }

  lemma NonDestructiveTrans(a: Paper, b: Paper, c: Paper)
    requires NonDestructive(a, b) && NonDestructive(b, c)
    ensures NonDestructive(a, c)
  {
    forall k | k in c && k in ExtractedFields
      ensures (k in a && c[k] == a[k]) || Truthy(c[k])
    {
      if !Truthy(c[k]) {
        assert k in b && c[k] == b[k];
      }
    }
  }

  /** Enriching a record with any extracted values is non-destructive. */
  lemma EnrichNonDestructive(paper: Paper, title: Option<string>, authors: seq<string>, summary: Option<string>)
    ensures NonDestructive(paper, Enrich(paper, title, authors, summary))
  {
    var p1 := SetIfTruthy(paper, "title", OptStr(title));
    var p2 := SetIfTruthy(p1, "authors", StrList(authors));
    var p3 := SetIfTruthy(p2, "abstract", OptStr(summary));
    SetIfTruthyNonDestructive(paper, "title", OptStr(title));
    SetIfTruthyNonDestructive(p1, "authors", StrList(authors));
    SetIfTruthyNonDestructive(p2, "abstract", OptStr(summary));
    NonDestructiveTrans(paper, p1, p2);
    NonDestructiveTrans(paper, p2, p3);
  }

  /** Each of the three fields ends up holding its extracted value when that is non-empty, and its old value otherwise. */
  lemma EnrichSetsExtracted(paper: Paper, title: Option<string>, authors: seq<string>, summary: Option<string>)
    ensures var after := Enrich(paper, title, authors, summary);
      && Get(after, "title", JNull) == (if title.Some? && title.value != "" then JStr(title.value) else Get(paper, "title", JNull))
      && Get(after, "authors", JNull) == (if authors != [] then StrList(authors) else Get(paper, "authors", JNull))
      && Get(after, "abstract", JNull) == (if summary.Some? && summary.value != "" then JStr(summary.value) else Get(paper, "abstract", JNull))
  {
    var p1 := SetIfTruthy(paper, "title", OptStr(title));
    var p2 := SetIfTruthy(p1, "authors", StrList(authors));
    assert Get(p2, "title", JNull) == Get(p1, "title", JNull);
  }

  // ------------------------------------------------------------ the PDF side

  /** What the PDF library yields for a file: the text of each page (None when a page has none), or a failure. */
  datatype PdfRead = Unreadable | Pages(pages: seq<Option<string>>)

  /** The number of leading pages read from each PDF. */
  const PageWindow: nat := 5

  /** The concatenated text of the pages that have one. */
  function PagesText(pages: seq<Option<string>>): string
  {
    if pages == [] then []
    else
      var last := pages[|pages| - 1];
      PagesText(pages[..|pages| - 1]) + (if last.Some? then last.value else [])
  }

  /** The page window: the first five pages, or all of a shorter document. */
  function Window(pages: seq<Option<string>>): (w: seq<Option<string>>)
    ensures |w| <= PageWindow && |w| <= |pages| && w == pages[..|w|]
    ensures |pages| <= PageWindow ==> w == pages
  {
    if |pages| <= PageWindow then pages else pages[..PageWindow]
  }

  /** The text is empty exactly when no page of the window has any. */
  lemma {:induction false} PagesTextEmpty(pages: seq<Option<string>>)
    ensures PagesText(pages) == [] <==> forall k | 0 <= k < |pages| :: pages[k].None? || pages[k].value == []
  {
    if pages != [] {
      var init := pages[..|pages| - 1];
      PagesTextEmpty(init);
      assert forall k | 0 <= k < |init| :: init[k] == pages[k];
    }
  }

  /** The page loop of `extract_from_pdfs`: concatenate the text of the first five pages. */
  method ReadText(pages: seq<Option<string>>) returns (text: string)
    ensures text == PagesText(Window(pages))
  {
    text := "";
    var n := if |pages| < PageWindow then |pages| else PageWindow;
    var k := 0;
    while k < n
      invariant 0 <= k <= n
      invariant text == PagesText(pages[..k])
    {
      var page := pages[k];
      if page.Some? && page.value != "" {
        text := text + page.value;
      }
      assert pages[..k + 1][..k] == pages[..k];
      k := k + 1;
    }
    assert pages[..n] == Window(pages);
  }

  /**
   * The text read from a record's PDF: None when the record has no id, its
   * file is absent, the PDF cannot be read, or its first pages hold no text.
   */
  function PdfText(paper: Paper, dir: string, fs: map<string, nat>, read: string -> PdfRead): (t: Option<string>)
    ensures t.Some? ==> t.value != [] && Truthy(Get(paper, "arxiv_id", JNull)) && Downloader.TargetPath(dir, Get(paper, "arxiv_id", JNull)) in fs
  {
    var id := Get(paper, "arxiv_id", JNull);
    if !Truthy(id) || Downloader.TargetPath(dir, id) !in fs then None
    else
      match read(Downloader.TargetPath(dir, id))
      case Unreadable => None
      case Pages(pages) => if PagesText(Window(pages)) == [] then None else Some(PagesText(Window(pages)))
  }

  /** One record after the extraction loop: enriched from its PDF text, or unchanged when there is none. */
  function Extracted(paper: Paper, dir: string, fs: map<string, nat>, read: string -> PdfRead, search: Search): Paper
  {
    match PdfText(paper, dir, fs, read)
    case None => paper
    case Some(text) => EnrichFrom(paper, text, search)
  }

  /** Extracting from any record is non-destructive. */
  lemma ExtractedNonDestructive(paper: Paper, dir: string, fs: map<string, nat>, read: string -> PdfRead, search: Search)
    ensures NonDestructive(paper, Extracted(paper, dir, fs, read, search))
  {
    match PdfText(paper, dir, fs, read)
    case None =>
    case Some(text) =>
      EnrichNonDestructive(paper, ExtractTitle(text, search), ExtractAuthors(text, search), ExtractAbstract(text, search));
  }

  /** The body of the extraction loop for one record, with its early `continue`s. */
  method ExtractRecord(paper: Paper, dir: string, fs: map<string, nat>, read: string -> PdfRead, search: Search)
    returns (result: Paper)
    ensures result == Extracted(paper, dir, fs, read, search)
  {
    result := paper;
    var id := Get(paper, "arxiv_id", JNull);
    if !Truthy(id) {
      return;
    }
    var path := Downloader.TargetPath(dir, id);
    if path !in fs {
      return;
    }
    match read(path)
    case Unreadable =>
    case Pages(pages) =>
      var text := ReadText(pages);
      if text == "" {
        return;
      }
      assert PdfText(paper, dir, fs, read) == Some(text);
      var title := ExtractTitle(text, search);
      var authors := ExtractAuthors(text, search);
      var summary := ExtractAbstract(text, search);
      result := Enrich(paper, title, authors, summary);
  }

  /**
   * `extract_from_pdfs`: for each record with an id whose PDF exists in the
   * date directory and yields text, enrich the record from that text; every
   * other record is left as it is. The list keeps its length and order, and
   * no record loses data.
   */
  method ExtractFromPdfs(papers: seq<Paper>, storage: string, date: Option<string>, today: string,
                         fs: map<string, nat>, read: string -> PdfRead, search: Search)
    returns (out: seq<Paper>)
    ensures |out| == |papers|
    ensures forall i | 0 <= i < |papers| :: out[i] == Extracted(papers[i], Downloader.DayDir(storage, date, today), fs, read, search)
    ensures forall i | 0 <= i < |papers| :: NonDestructive(papers[i], out[i])
  {
    var dir := Downloader.DayDir(storage, date, today);
    if papers == [] {
      return papers;
    }
    out := [];
    var i := 0;
    while i < |papers|
      invariant 0 <= i <= |papers| && |out| == i
      invariant forall j | 0 <= j < i :: out[j] == Extracted(papers[j], dir, fs, read, search)
    {
      var result := ExtractRecord(papers[i], dir, fs, read, search);
      out := out + [result];
      i := i + 1;
    }
    forall j | 0 <= j < |papers|
      ensures NonDestructive(papers[j], out[j])
    {
      ExtractedNonDestructive(papers[j], dir, fs, read, search);
    }
  }

  /** Both pieces of a two-piece split are kept when both strip to more than two characters. */
  lemma KeptPair(a: string, b: string)
    requires |Strip(a)| > 2 && |Strip(b)| > 2
    ensures Kept([a, b]) == [Strip(a), Strip(b)]
  {
    assert [a, b][..1] == [a];
    assert [a][..0] == [];
  }

  /**
   * Two names joined by ", " give exactly those two authors, whatever the
   * second one holds: once the comma splits the text, "and" and ";" are
   * not applied to the pieces (so "A. Smith, B. Jones and C. Lee" yields
   * two authors, the second still holding "and").
   */
  lemma OnlyOneSeparatorApplied(first: string, second: string)
    requires ',' !in first && ',' !in second
    requires Trimmed(first) && Trimmed(second)
    requires |first| > 2 && |second| > 2
    ensures AuthorsOf(first + ", " + second) == [first, second]
  {
    var rest := " " + second;
    var text := first + ", " + second;
    assert text == first + [','] + rest;
    assert ',' !in rest;
    SplitCharAbsent(rest, ',');
    SplitCharAt(first, ',', rest);
    assert Split(text, ",") == [first, rest];
    assert ChosenFrom(text, 0) == Some(0);
    StripTrimmed(first);
    StripTrimmed(second);
    StripLeadingSpace(' ', second);
    KeptPair(first, rest);
    assert Committed(text) == [first, second];
    AuthorsOfCommitted(text);
  }

  /** When some separator keeps a piece, the fallback is not taken. */
  lemma AuthorsOfCommitted(text: string)
    requires Committed(text) != []
    ensures AuthorsOf(text) == Committed(text)
  {
  }
}

=== FILE: state_manager.dfy ===
/**
 * Run-state tracking (utils/state_manager.py).
 *
 * The state is a dict held in memory and mirrored into a JSON file after
 * every change. The file is modelled as the dict it would parse back to,
 * or `None` when it is missing or cannot be parsed. A save either writes
 * the whole state, fails before the file is opened (the file is left as it
 * was), or fails while the JSON is being written (the file was truncated on
 * open and no longer parses). Every failure is swallowed: the in-memory
 * state keeps the change either way.
 */
module RunState {
  import opened Values

  /** The five keys of a fresh state. */
  const StateKeys: set<string> := {"last_run", "completed_steps", "current_step", "papers", "statistics"}

  /** The state of a tracker that has never run: no steps done, nothing current, no papers, no statistics. */
  function DefaultState(): (s: map<string, Json>)
    ensures s.Keys == StateKeys
    ensures s["last_run"] == JNull && s["current_step"] == JNull
    ensures s["completed_steps"] == JArr([]) && s["papers"] == JArr([])
    ensures s["statistics"] == JObj(map[])
  {
    map["last_run" := JNull, "completed_steps" := JArr([]), "current_step" := JNull, "papers" := JArr([]), "statistics" := JObj(map[])]
  }

  /** `_load_state`: the file's dict, or the default state when there is no readable file. */
  function Loaded(file: Option<map<string, Json>>): map<string, Json>
  {
    if file.Some? then file.value else DefaultState()
  }

  /** The file after a save of `state` that ends with `outcome`. */
  function Persisted(outcome: SaveOutcome, state: map<string, Json>, file: Option<map<string, Json>>): Option<map<string, Json>>
  {
    match outcome
    case Written => Some(state)
    case OpenFailed => file
    case DumpFailed => None
  }

  /**
   * Reloading after a save: a written state comes back as it was, a failed
   * open leaves the earlier file in force, and a failed dump loses
   * everything, so the next run starts from the default state.
   */
  lemma ReloadAfterSave(outcome: SaveOutcome, state: map<string, Json>, file: Option<map<string, Json>>)
    ensures outcome.Written? ==> Loaded(Persisted(outcome, state, file)) == state
    ensures outcome.OpenFailed? ==> Loaded(Persisted(outcome, state, file)) == Loaded(file)
    ensures outcome.DumpFailed? ==> Loaded(Persisted(outcome, state, file)) == DefaultState()
  {
  }

  /**
   * The shape the methods rely on: `completed_steps`, when present, is a
   * list and `statistics`, when present, is a dict. A file that breaks
   * this makes the list and dict operations raise.
   */
  predicate WellShaped(s: map<string, Json>)
  {
    && ("completed_steps" in s ==> s["completed_steps"].JArr?)
    && ("statistics" in s ==> s["statistics"].JObj?)
  }

  lemma DefaultWellShaped()
    ensures WellShaped(DefaultState())
  {
  }

  /** `state.get('completed_steps', [])`. */
  function Steps(s: map<string, Json>): seq<Json>
  {
    if "completed_steps" in s && s["completed_steps"].JArr? then s["completed_steps"].items else []
  }

  /** `step in state.get('completed_steps', [])`. */
  predicate Completed(s: map<string, Json>, step: string)
  {
    JStr(step) in Steps(s)
  }

  /** No step is listed twice. */
  predicate Distinct(xs: seq<Json>)
  {
    forall a, b | 0 <= a < b < |xs| :: xs[a] != xs[b]
  }

  /**
   * `mark_step_completed`: a new step is appended, the current step is
   * cleared and the run is stamped with `now`; a step already listed leaves
   * the state exactly as it was.
   */
  function Marked(s: map<string, Json>, step: string, now: string): map<string, Json>
  {
    if Completed(s, step) then s
    else s["completed_steps" := JArr(Steps(s) + [JStr(step)])]["current_step" := JNull]["last_run" := JStr(now)]
  }

  /** After marking, the step is completed and every other step is as completed as before. */
  lemma MarkedCompletes(s: map<string, Json>, step: string, now: string)
    requires WellShaped(s)
    ensures WellShaped(Marked(s, step, now))
    ensures Completed(Marked(s, step, now), step)
    ensures forall other :: other != step ==> (Completed(Marked(s, step, now), other) <==> Completed(s, other))
  {
    if !Completed(s, step) {
      var m := Marked(s, step, now);
      assert Steps(m) == Steps(s) + [JStr(step)];
      assert Steps(m)[|Steps(s)|] == JStr(step);
    }
  }

  /** A new step also clears the current step and stamps the run; nothing else changes. */
  lemma MarkedNewStep(s: map<string, Json>, step: string, now: string)
    requires !Completed(s, step)
    ensures Marked(s, step, now)["current_step"] == JNull
    ensures Marked(s, step, now)["last_run"] == JStr(now)
    ensures Marked(s, step, now).Keys == s.Keys + {"completed_steps", "current_step", "last_run"}
    ensures forall k | k in s && k !in {"completed_steps", "current_step", "last_run"} :: Marked(s, step, now)[k] == s[k]
  {
  }

  /** Marking never lists a step twice. */
  lemma MarkedKeepsDistinct(s: map<string, Json>, step: string, now: string)
    requires WellShaped(s) && Distinct(Steps(s))
    ensures Distinct(Steps(Marked(s, step, now)))
  {
    if !Completed(s, step) {
      var xs := Steps(s);
      var ys := Steps(Marked(s, step, now));
      assert ys == xs + [JStr(step)];
      forall a, b | 0 <= a < b < |ys|
        ensures ys[a] != ys[b]
      {
        if b == |xs| {
          assert ys[a] == xs[a];
        }
      }
    }
  }

  /** Marking a step a second time changes nothing, whatever the time. */
  lemma MarkAgainIsNoOp(s: map<string, Json>, step: string, now: string, later: string)
    requires WellShaped(s)
    ensures Marked(Marked(s, step, now), step, later) == Marked(s, step, now)
  {
    MarkedCompletes(s, step, now);
  }

  /** `list.remove(x)`: drop the first occurrence of `x`. */
  function RemoveFirst(xs: seq<Json>, x: Json): seq<Json>
  {
    if xs == [] then []
    else if xs[0] == x then xs[1..]
    else [xs[0]] + RemoveFirst(xs[1..], x)
  }

  /** Removal takes away exactly one copy of a present element. */
  lemma {:induction false} RemoveFirstCount(xs: seq<Json>, x: Json)
    requires x in xs
    ensures multiset(RemoveFirst(xs, x)) == multiset(xs) - multiset{x}
    ensures |RemoveFirst(xs, x)| == |xs| - 1
  {
    var rest := xs[1..];
    assert xs == [xs[0]] + rest;
    assert multiset(xs) == multiset{xs[0]} + multiset(rest);
    if xs[0] != x {
      assert x in rest;
      RemoveFirstCount(rest, x);
      assert RemoveFirst(xs, x) == [xs[0]] + RemoveFirst(rest, x);
      assert multiset(RemoveFirst(xs, x)) == multiset{xs[0]} + multiset(RemoveFirst(rest, x));
    }
  }

  /** In a list without repeats, removal leaves no copy behind and keeps the rest distinct. */
  lemma {:induction false} RemoveFirstDistinct(xs: seq<Json>, x: Json)
    requires Distinct(xs)
    ensures x !in RemoveFirst(xs, x)
    ensures Distinct(RemoveFirst(xs, x))
    ensures forall y :: y != x ==> (y in RemoveFirst(xs, x) <==> y in xs)
  {
    if xs != [] {
      assert Distinct(xs[1..]) by {
        forall a, b | 0 <= a < b < |xs[1..]|
          ensures xs[1..][a] != xs[1..][b]
        {
          assert xs[1..][a] == xs[a + 1] && xs[1..][b] == xs[b + 1];
        }
      }
      if xs[0] == x {
        assert forall k | 0 <= k < |xs[1..]| :: xs[1..][k] == xs[k + 1];
      } else {
        RemoveFirstDistinct(xs[1..], x);
        var r := RemoveFirst(xs[1..], x);
        assert xs[0] !in r by {
          forall k | 0 <= k < |xs[1..]|
            ensures xs[1..][k] != xs[0]
          {
            assert xs[1..][k] == xs[k + 1];
          }
        }
        var ys := [xs[0]] + r;
        forall a, b | 0 <= a < b < |ys|
          ensures ys[a] != ys[b]
        {
          if a == 0 {
            assert ys[b] == r[b - 1];
          } else {
            assert ys[a] == r[a - 1] && ys[b] == r[b - 1];
          }
        }
        assert xs == [xs[0]] + xs[1..];
      }
    }
  }

  /** Removing the last element, when it occurs nowhere else, gives back the list before it. */
  lemma {:induction false} RemoveFirstAppended(xs: seq<Json>, x: Json)
    requires x !in xs
    ensures RemoveFirst(xs + [x], x) == xs
  {
    if xs != [] {
      assert (xs + [x])[1..] == xs[1..] + [x];
      RemoveFirstAppended(xs[1..], x);
      assert xs == [xs[0]] + xs[1..];
    }
  }

  /**
   * `reset_step`: a completed step is removed from the list (its first
   * copy); a step that is not listed leaves the state as it was.
   */
  function Unmarked(s: map<string, Json>, step: string): map<string, Json>
  {
    if Completed(s, step) then s["completed_steps" := JArr(RemoveFirst(Steps(s), JStr(step)))] else s
  }

  /** Without repeats, a reset step is no longer completed and every other step keeps its status. */
  lemma UnmarkedRemoves(s: map<string, Json>, step: string)
    requires WellShaped(s) && Distinct(Steps(s))
    ensures WellShaped(Unmarked(s, step)) && Distinct(Steps(Unmarked(s, step)))
    ensures !Completed(Unmarked(s, step), step)
    ensures forall other :: other != step ==> (Completed(Unmarked(s, step), other) <==> Completed(s, other))
  {
    RemoveFirstDistinct(Steps(s), JStr(step));
  }

  /** Resetting a step that was just marked new restores the list of completed steps. */
  lemma UnmarkUndoesMark(s: map<string, Json>, step: string, now: string)
    requires WellShaped(s) && !Completed(s, step)
    ensures Steps(Unmarked(Marked(s, step, now), step)) == Steps(s)
  {
    MarkedCompletes(s, step, now);
    RemoveFirstAppended(Steps(s), JStr(step));
  }

  /** `state.get('statistics', {})`, as a dict. */
  function Statistics(s: map<string, Json>): map<string, Json>
  {
    if "statistics" in s && s["statistics"].JObj? then s["statistics"].fields else map[]
  }

  /** `update_statistics`: the given entries overwrite, every other entry stays. */
  function StatisticsUpdated(s: map<string, Json>, stats: map<string, Json>): (r: map<string, Json>)
    ensures Statistics(r).Keys == Statistics(s).Keys + stats.Keys
    ensures forall k | k in stats :: Statistics(r)[k] == stats[k]
    ensures forall k | k in Statistics(s) && k !in stats :: Statistics(r)[k] == Statistics(s)[k]
    ensures forall k | k in s && k != "statistics" :: k in r && r[k] == s[k]
  {
    s["statistics" := JObj(Statistics(s) + stats)]
  }

  /** The tracker: the state in memory and the file it is saved to. */
  class StateManager {
    var state: map<string, Json>
    var file: Option<map<string, Json>>

    predicate Valid()
      reads this
    {
      WellShaped(state)
    }

    /** Load the state from the file, or start from the default state. */
    constructor(file: Option<map<string, Json>>)
      ensures this.state == Loaded(file) && this.file == file
      ensures file.None? ==> state == DefaultState() && Valid()
    {
      this.state := Loaded(file);
      this.file := file;
    }

    /** `save`: write the whole state; a failure is swallowed and the state in memory is kept. */
    method Save(outcome: SaveOutcome)
      modifies this
      ensures state == old(state)
      ensures file == Persisted(outcome, state, old(file))
    {
      file := Persisted(outcome, state, file);
    }

    /** `get`: the value under `key`, or `default`. */
    function Lookup(key: string, default: Json): (v: Json)
      reads this
      ensures key in state ==> v == state[key]
      ensures key !in state ==> v == default
    {
      Get(state, key, default)
    }

    /** `set`: store `value` under `key` and save. */
    method Set(key: string, value: Json, outcome: SaveOutcome)
      modifies this
      ensures state == old(state)[key := value]
      ensures forall default :: Lookup(key, default) == value
      ensures file == Persisted(outcome, state, old(file))
    {
      state := state[key := value];
      Save(outcome);
    }

    /** `mark_step_completed`: see `Marked`; only a new step is saved. */
    method MarkStepCompleted(step: string, now: string, outcome: SaveOutcome)
      requires Valid()
      modifies this
      ensures Valid()
      ensures state == Marked(old(state), step, now)
      ensures IsStepCompleted(step)
      ensures Distinct(Steps(old(state))) ==> Distinct(Steps(state))
      ensures file == if Completed(old(state), step) then old(file) else Persisted(outcome, state, old(file))
    {
      MarkedCompletes(state, step, now);
      if Distinct(Steps(state)) {
        MarkedKeepsDistinct(state, step, now);
      }
      if !(JStr(step) in Steps(state)) {
        var steps := Steps(state);
        state := state["completed_steps" := JArr(steps + [JStr(step)])];
        state := state["current_step" := JNull];
        state := state["last_run" := JStr(now)];
        Save(outcome);
      }
    }

    /** `set_current_step`: only `current_step` changes. */
    method SetCurrentStep(step: Json, outcome: SaveOutcome)
      modifies this
      ensures state == old(state)["current_step" := step]
      ensures file == Persisted(outcome, state, old(file))
    {
      state := state["current_step" := step];
      Save(outcome);
    }

    /** `reset`: back to the default state, then save. */
    method Reset(outcome: SaveOutcome)
      modifies this
      ensures state == DefaultState() && Valid()
      ensures file == Persisted(outcome, state, old(file))
    {
      state := map["last_run" := JNull, "completed_steps" := JArr([]), "current_step" := JNull, "papers" := JArr([]), "statistics" := JObj(map[])];
      Save(outcome);
    }

    /** `reset_step`: see `Unmarked`; a step that is not listed triggers no save. */
    method ResetStep(step: string, outcome: SaveOutcome)
      requires Valid()
      modifies this
      ensures Valid()
      ensures state == Unmarked(old(state), step)
      ensures Distinct(Steps(old(state))) ==> !IsStepCompleted(step)
      ensures file == if Completed(old(state), step) then Persisted(outcome, state, old(file)) else old(file)
    {
      if Distinct(Steps(state)) {
        UnmarkedRemoves(state, step);
      }
      if JStr(step) in Steps(state) {
        state := state["completed_steps" := JArr(RemoveFirst(state["completed_steps"].items, JStr(step)))];
        Save(outcome);
      }
    }

    /** `is_step_completed`: the step is listed under `completed_steps`; never so without that key. */
    predicate IsStepCompleted(step: string)
      reads this
      ensures Valid() && "completed_steps" in state ==> (IsStepCompleted(step) <==> JStr(step) in state["completed_steps"].items)
      ensures "completed_steps" !in state ==> !IsStepCompleted(step)
    {
      Completed(state, step)
    }

    /** `get_statistics`: the statistics value, or an empty dict. */
    function GetStatistics(): (v: Json)
      reads this
      ensures Valid() ==> v == JObj(Statistics(state))
    {
      Get(state, "statistics", JObj(map[]))
    }

    /** `update_statistics`: merge `stats` into the statistics dict and save. */
    method UpdateStatistics(stats: map<string, Json>, outcome: SaveOutcome)
      requires Valid()
      modifies this
      ensures Valid()
      ensures state == StatisticsUpdated(old(state), stats)
      ensures file == Persisted(outcome, state, old(file))
    {
      var current := if "statistics" in state then state["statistics"].fields else map[];
      state := state["statistics" := JObj(current + stats)];
      Save(outcome);
    }
  }
}

=== FILE: text.dfy ===
/**
 * The Python string operations the pipeline relies on: `strip`, `split`
 * on a literal separator, `join`, `replace(p, "")`, `startswith`, slicing
 * with clamped and negative bounds, and `os.path.join`.
 */
module Text {

  /** The characters Python's `str.strip()` and the regex class `\s` treat as whitespace (ASCII and Latin-1 part). */
  predicate IsSpace(c: char)
  {
    c == ' ' || c == '\t' || c == '\n' || c == '\r' || c == '\U{000B}' || c == '\U{000C}'
    || c == '\U{001C}' || c == '\U{001D}' || c == '\U{001E}' || c == '\U{001F}' || c == '\U{0085}' || c == '\U{00A0}'
  }

  /** `s.lstrip()`: the suffix of `s` left after dropping leading whitespace. */
  function LStrip(s: string): (r: string)
    ensures |r| <= |s| && r == s[|s| - |r|..]
    ensures forall k :: 0 <= k < |s| - |r| ==> IsSpace(s[k])
    ensures r == [] || !IsSpace(r[0])
  {
    if s != [] && IsSpace(s[0]) then LStrip(s[1..]) else s
  }

  /** `s.rstrip()`: the prefix of `s` left after dropping trailing whitespace. */
  function RStrip(s: string): (r: string)
    ensures |r| <= |s| && r == s[..|r|]
    ensures forall k :: |r| <= k < |s| ==> IsSpace(s[k])
    ensures r == [] || !IsSpace(r[|r| - 1])
  {
    if s != [] && IsSpace(s[|s| - 1]) then RStrip(s[..|s| - 1]) else s
  }

  /** No whitespace at either end. */
  predicate Trimmed(s: string)
  {
    s == [] || (!IsSpace(s[0]) && !IsSpace(s[|s| - 1]))
  }

  /** `s.strip()`. */
  function Strip(s: string): (r: string)
    ensures |r| <= |s|
    ensures Trimmed(r)
  {
    RStrip(LStrip(s))
  }

  /** A string with no whitespace at either end is its own strip. */
  lemma StripTrimmed(s: string)
    requires Trimmed(s)
    ensures Strip(s) == s
  {
  }

  /** Leading whitespace does not survive a strip. */
  lemma StripLeadingSpace(c: char, s: string)
    requires IsSpace(c)
    ensures Strip([c] + s) == Strip(s)
  {
    assert ([c] + s)[1..] == s;
  }

  /** Stripping only removes characters: one absent before is absent after. */
  lemma StripKeepsOut(s: string, c: char)
    ensures c !in s ==> c !in Strip(s)
  {
    var l := LStrip(s);
    var r := RStrip(l);
    if c in r {
      var k :| 0 <= k < |r| && r[k] == c;
      assert l[k] == c;
      assert s[|s| - |l| + k] == c;
    }
  }

  /** Stripping twice is stripping once. */
  lemma StripIdempotent(s: string)
    ensures Strip(Strip(s)) == Strip(s)
  {
    StripTrimmed(Strip(s));
  }

  /** `pat` occurs in `s` starting at position `i`. */
  predicate OccursAt(s: string, pat: string, i: int)
  {
    0 <= i && i + |pat| <= |s| && s[i..i + |pat|] == pat
  }

  /** `pat in s`. */
  predicate Occurs(pat: string, s: string)
  {
    exists i | 0 <= i <= |s| :: OccursAt(s, pat, i)
  }

  /**
   * `s.split(sep)`: the pieces between the leftmost non-overlapping
   * occurrences of the non-empty literal `sep`.
   */
  function Split(s: string, sep: string): (parts: seq<string>)
    requires sep != []
    ensures |parts| >= 1
    decreases |s|
  {
    if |s| < |sep| then [s]
    else if s[..|sep|] == sep then [[]] + Split(s[|sep|..], sep)
    else
      var rest := Split(s[1..], sep);
      [[s[0]] + rest[0]] + rest[1..]
  }

  /** `sep.join(parts)`. */
  function JoinWith(parts: seq<string>, sep: string): string
  {
    if parts == [] then []
    else if |parts| == 1 then parts[0]
    else parts[0] + sep + JoinWith(parts[1..], sep)
  }

  /** A piece free of the separator's first character splits off intact. */
  lemma {:induction false} SplitAfterPiece(a: string, sep: string, rest: string)
    requires sep != [] && sep[0] !in a
    ensures Split(a + sep + rest, sep) == [a] + Split(rest, sep)
    decreases |a|
  {
    var s := a + sep + rest;
    if a == [] {
      assert s == sep + rest;
      assert s[..|sep|] == sep && s[|sep|..] == rest;
    } else {
      assert s[..|sep|][0] == a[0] != sep[0];
      assert s[1..] == a[1..] + sep + rest;
      SplitAfterPiece(a[1..], sep, rest);
      assert [s[0]] + a[1..] == a;
    }
  }

  /** A string without the separator's first character is one piece. */
  lemma SplitWithoutFirstChar(p: string, sep: string)
    requires sep != [] && sep[0] !in p
    ensures Split(p, sep) == [p]
  {
    SplitMany(p, sep);
    SplitSingle(p, sep);
  }

  /** Splitting a join gives the parts back when no part holds the separator's first character. */
  lemma {:induction false} JoinThenSplit(parts: seq<string>, sep: string)
    requires sep != [] && parts != []
    requires forall k | 0 <= k < |parts| :: sep[0] !in parts[k]
    ensures Split(JoinWith(parts, sep), sep) == parts
    decreases |parts|
  {
    if |parts| == 1 {
      SplitWithoutFirstChar(parts[0], sep);
    } else {
      JoinThenSplit(parts[1..], sep);
      SplitAfterPiece(parts[0], sep, JoinWith(parts[1..], sep));
      assert [parts[0]] + parts[1..] == parts;
    }
  }

  /** A split into a single piece returns the whole string. */
  lemma {:induction false} SplitSingle(s: string, sep: string)
    requires sep != []
    ensures |Split(s, sep)| == 1 ==> Split(s, sep) == [s]
    decreases |s|
  {
    if |s| >= |sep| && s[..|sep|] != sep {
      SplitSingle(s[1..], sep);
      assert [s[0]] + s[1..] == s;
    }
  }

  /** A split yields more than one piece exactly when the separator occurs. */
  lemma {:induction false} SplitMany(s: string, sep: string)
    requires sep != []
    ensures |Split(s, sep)| > 1 <==> Occurs(sep, s)
    decreases |s|
  {
    if |s| < |sep| {
    } else if s[..|sep|] == sep {
      assert OccursAt(s, sep, 0);
    } else {
      SplitMany(s[1..], sep);
      assert |s| >= |sep| > 0;
      if Occurs(sep, s[1..]) {
        var i :| 0 <= i <= |s[1..]| && OccursAt(s[1..], sep, i);
        OccursAtShift(s, sep, i);
        assert OccursAt(s, sep, i + 1);
      }
      if Occurs(sep, s) {
        var i :| 0 <= i <= |s| && OccursAt(s, sep, i);
        assert i != 0;
        OccursAtShift(s, sep, i - 1);
        assert OccursAt(s[1..], sep, i - 1);
      }
    }
  }

  /** An occurrence in the tail is an occurrence one place later in the whole. */
  lemma OccursAtShift(s: string, pat: string, i: int)
    requires s != [] && 0 <= i
    ensures OccursAt(s[1..], pat, i) <==> OccursAt(s, pat, i + 1)
  {
    if i + |pat| <= |s| - 1 {
      assert s[1..][i..i + |pat|] == s[i + 1..i + 1 + |pat|];
    }
  }

  /** No piece of a split contains the separator. */
  lemma {:induction false} SplitPiecesFree(s: string, sep: string)
    requires sep != []
    ensures forall k :: 0 <= k < |Split(s, sep)| ==> !Occurs(sep, Split(s, sep)[k])
    decreases |s|
  {
    var parts := Split(s, sep);
    if |s| < |sep| {
    } else if s[..|sep|] == sep {
      var rest := Split(s[|sep|..], sep);
      SplitPiecesFree(s[|sep|..], sep);
      forall k | 0 <= k < |parts|
        ensures !Occurs(sep, parts[k])
      {
        if k > 0 {
          assert parts[k] == rest[k - 1];
        }
      }
    } else {
      var rest := Split(s[1..], sep);
      SplitPiecesFree(s[1..], sep);
      SplitPrefixFirst(s[1..], sep);
      HeadPieceFree(s, rest[0], sep);
      forall k | 0 <= k < |parts|
        ensures !Occurs(sep, parts[k])
      {
        if k > 0 {
          assert parts[k] == rest[k];
        }
      }
    }
  }

  /** When `s` does not start with `sep`, growing a separator-free prefix of `s[1..]` by `s[0]` does not create an occurrence. */
  lemma HeadPieceFree(s: string, first: string, sep: string)
    requires sep != [] && |s| >= |sep| && s[..|sep|] != sep
    requires |first| <= |s| - 1 && first == s[1..][..|first|]
    requires !Occurs(sep, first)
    ensures !Occurs(sep, [s[0]] + first)
  {
    var head := [s[0]] + first;
    if Occurs(sep, head) {
      var i :| OccursAt(head, sep, i);
      assert OccursAt(head, sep, i);
      if i == 0 {
        assert |s| >= 1;
        HeadNotAtStart(s, first, sep);
      } else {
        HeadNotInside(s[0], first, sep, i);
      }
    }
  }

  lemma HeadNotAtStart(s: string, first: string, sep: string)
    requires |s| >= 1 && |first| <= |s| - 1 && first == s[1..][..|first|]
    requires |sep| > |s| || s[..|sep|] != sep
    ensures !OccursAt([s[0]] + first, sep, 0)
  {
    var head := [s[0]] + first;
    assert head == s[..|head|];
  }

  lemma HeadNotInside(c: char, first: string, sep: string, i: int)
    requires i >= 1 && !Occurs(sep, first)
    ensures !OccursAt([c] + first, sep, i)
  {
    if OccursAt([c] + first, sep, i) {
      assert ([c] + first)[i..i + |sep|] == first[i - 1..i - 1 + |sep|];
      assert OccursAt(first, sep, i - 1);
    }
  }

  /** The first piece of a split is a prefix of the string. */
  lemma {:induction false} SplitPrefixFirst(s: string, sep: string)
    requires sep != []
    ensures |Split(s, sep)[0]| <= |s| && Split(s, sep)[0] == s[..|Split(s, sep)[0]|]
    decreases |s|
  {
    if |s| < |sep| {
      assert Split(s, sep) == [s];
    } else if s[..|sep|] == sep {
      assert Split(s, sep)[0] == [];
    } else {
      SplitPrefixFirst(s[1..], sep);
      SplitFirstStep(s, sep);
      var first := Split(s[1..], sep)[0];
      assert s[..1 + |first|] == [s[0]] + s[1..][..|first|];
    }
  }

  /** Where no separator starts, the first piece begins with the first character. */
  lemma SplitFirstStep(s: string, sep: string)
    requires sep != [] && |s| >= |sep| && s[..|sep|] != sep
    ensures Split(s, sep)[0] == [s[0]] + Split(s[1..], sep)[0]
  {
  }

  /**
   * `s.split(c)[-1]`: the text after the last `c`, or all of `s` when `c`
   * does not occur. Written directly as the longest `c`-free suffix.
   */
  function AfterLast(s: string, c: char): (r: string)
    ensures c !in r
    ensures |r| <= |s| && r == s[|s| - |r|..]
    ensures c !in s ==> r == s
    ensures |r| < |s| ==> s[|s| - |r| - 1] == c
  {
    if s == [] then []
    else if s[|s| - 1] == c then []
    else
      var r := AfterLast(s[..|s| - 1], c);
      assert s[..|s| - 1] + [s[|s| - 1]] == s;
      r + [s[|s| - 1]]
  }

  /** Splitting on a character that does not occur gives the whole string. */
  lemma {:induction false} SplitCharAbsent(s: string, c: char)
    requires c !in s
    ensures Split(s, [c]) == [s]
    decreases |s|
  {
    if |s| >= 1 {
      assert s[0] != c && s[..1] == [s[0]];
      SplitCharAbsent(s[1..], c);
      assert [s[0]] + s[1..] == s;
    }
  }

  /** Splitting `a + [c] + b` on `c`, where `a` holds no `c`, cuts right after `a`. */
  lemma {:induction false} SplitCharAt(a: string, c: char, b: string)
    requires c !in a
    ensures Split(a + [c] + b, [c]) == [a] + Split(b, [c])
    decreases |a|
  {
    var s := a + [c] + b;
    if a == [] {
      assert s[..1] == [c];
      assert s[1..] == b;
    } else {
      assert s[0] == a[0] && a[0] != c && s[..1] == [s[0]];
      assert s[1..] == a[1..] + [c] + b;
      SplitCharAt(a[1..], c, b);
      assert [s[0]] + a[1..] == a;
    }
  }

  /** `s.replace(pat, "")`: every leftmost non-overlapping occurrence removed, in one pass. */
  function RemoveAll(s: string, pat: string): (r: string)
    requires pat != []
    ensures |r| <= |s|
    decreases |s|
  {
    if |s| < |pat| then s
    else if s[..|pat|] == pat then RemoveAll(s[|pat|..], pat)
    else [s[0]] + RemoveAll(s[1..], pat)
  }

  /** Removing a pattern that does not occur changes nothing. */
  lemma {:induction false} RemoveAllAbsent(s: string, pat: string)
    requires pat != [] && !Occurs(pat, s)
    ensures RemoveAll(s, pat) == s
    decreases |s|
  {
    if |s| >= |pat| {
      assert !OccursAt(s, pat, 0);
      assert !Occurs(pat, s[1..]) by {
        if Occurs(pat, s[1..]) {
          var i :| 0 <= i <= |s[1..]| && OccursAt(s[1..], pat, i);
          assert s[1..][i..i + |pat|] == s[i + 1..i + 1 + |pat|];
          assert OccursAt(s, pat, i + 1);
        }
      }
      RemoveAllAbsent(s[1..], pat);
      assert [s[0]] + s[1..] == s;
    }
  }

  /** A leading occurrence is removed and scanning resumes right after it. */
  lemma RemoveAllLeading(pat: string, x: string)
    requires pat != []
    ensures RemoveAll(pat + x, pat) == RemoveAll(x, pat)
  {
    var s := pat + x;
    assert s[..|pat|] == pat && s[|pat|..] == x;
  }

  /** When the pattern occurs, at least one whole occurrence is removed. */
  lemma {:induction false} RemoveAllRemoves(s: string, pat: string)
    requires pat != [] && Occurs(pat, s)
    ensures |RemoveAll(s, pat)| + |pat| <= |s|
    decreases |s|
  {
    var i :| 0 <= i <= |s| && OccursAt(s, pat, i);
    if s[..|pat|] != pat {
      assert i != 0;
      OccursAtShift(s, pat, i - 1);
      RemoveAllRemoves(s[1..], pat);
    }
  }

  /** `s.startswith(p)`. */
  predicate StartsWith(s: string, p: string)
  {
    |p| <= |s| && s[..|p|] == p
  }

  /** `s.endswith(suffix)`. */
  predicate EndsWith(s: string, suffix: string)
  {
    |suffix| <= |s| && s[|s| - |suffix|..] == suffix
  }

  /** Python slice `s[i:j]` for non-negative bounds, which clamps instead of failing. */
  function Slice(s: string, i: nat, j: nat): (r: string)
    ensures |r| <= |s| && (|r| <= j - i || (j < i && r == []))
    ensures i + |r| <= |s| ==> r == s[i..i + |r|]
    ensures i <= j <= |s| ==> r == s[i..j]
    ensures i <= |s| <= j ==> r == s[i..]
  {
    var hi := if j <= |s| then j else |s|;
    if i >= hi then [] else s[i..hi]
  }

  /** Python slice `xs[:n]`, where a negative `n` counts from the end. */
  function Prefix<T>(xs: seq<T>, n: int): (r: seq<T>)
    ensures |r| <= |xs| && r == xs[..|r|]
    ensures 0 <= n <= |xs| ==> |r| == n
    ensures n >= |xs| ==> r == xs
    ensures n < 0 ==> |r| == if |xs| + n < 0 then 0 else |xs| + n
  {
    if n >= 0 then (if n <= |xs| then xs[..n] else xs)
    else if |xs| + n < 0 then [] else xs[..|xs| + n]
  }

  /** `os.path.join(a, b)` on POSIX paths. */
  function PathJoin(a: string, b: string): (r: string)
    ensures StartsWith(b, "/") ==> r == b
    ensures !StartsWith(b, "/") ==> StartsWith(r, a) && |b| <= |r| && r[|r| - |b|..] == b
  {
    if StartsWith(b, "/") then b
    else if a == [] || a[|a| - 1] == '/' then a + b
    else a + "/" + b
  }

  /** Joining one directory with relative names keeps the names apart. */
  lemma PathJoinRelativeInjective(a: string, b1: string, b2: string)
    requires !StartsWith(b1, "/") && !StartsWith(b2, "/")
    ensures PathJoin(a, b1) == PathJoin(a, b2) <==> b1 == b2
  {
    var front := if a == [] || a[|a| - 1] == '/' then a else a + "/";
    assert PathJoin(a, b1) == front + b1 && PathJoin(a, b2) == front + b2;
    if PathJoin(a, b1) == PathJoin(a, b2) {
      assert b1 == (front + b1)[|front|..] == (front + b2)[|front|..] == b2;
    }
  }

  /** Two strings with the same suffix appended are equal exactly when they were. */
  lemma SameSuffixSameStem(x: string, y: string, suffix: string)
    ensures x + suffix == y + suffix <==> x == y
  {
    if x + suffix == y + suffix {
      assert x == (x + suffix)[..|x|] && y == (y + suffix)[..|y|];
    }
  }

  /** Joining keeps the last `k` characters of the joined name. */
  lemma PathJoinKeepsSuffix(a: string, b: string, k: nat)
    requires k <= |b|
    ensures k <= |PathJoin(a, b)| && PathJoin(a, b)[|PathJoin(a, b)| - k..] == b[|b| - k..]
  {
    var r := PathJoin(a, b);
    assert r[|r| - k..] == r[|r| - |b|..][|b| - k..];
  }
}

=== FILE: values.dfy ===
/**
 * Values shared by every stage of the pipeline: optional and fallible
 * results, the JSON-like values held in Python dicts, and the paper record
 * itself, which is such a dict.
 */
module Values {

  datatype Option<+T> = None | Some(value: T)

  datatype Result<+T, +E> = Ok(value: T) | Err(error: E)

  /** A value that can sit in a JSON document or a Python dict loaded from one. */
  datatype Json =
    | JNull
    | JBool(b: bool)
    | JInt(i: int)
    | JReal(r: real)
    | JStr(s: string)
    | JArr(items: seq<Json>)
    | JObj(fields: map<string, Json>)

  /** A paper record: the dict that flows through crawl, download, extract and analyze. */
  type Paper = map<string, Json>

  /** Python truthiness of a value (`if x:`). */
  predicate Truthy(j: Json)
  {
    match j
    case JNull => false
    case JBool(b) => b
    case JInt(i) => i != 0
    case JReal(r) => r != 0.0
    case JStr(s) => s != ""
    case JArr(items) => items != []
    case JObj(fields) => fields != map[]
  }

  /** `d.get(key, default)`. */
  function Get(d: map<string, Json>, key: string, default: Json): (v: Json)
    ensures key in d ==> v == d[key]
    ensures key !in d ==> v == default
  {
    if key in d then d[key] else default
  }

  function DigitChar(d: nat): char
    requires d < 10
  {
    "0123456789"[d]
  }

  /** Decimal digits of a natural number, most significant first. */
  function NatDigits(n: nat): (s: string)
    ensures |s| >= 1
    ensures forall k :: 0 <= k < |s| ==> '0' <= s[k] <= '9'
    decreases n
  {
    if n < 10 then [DigitChar(n)] else NatDigits(n / 10) + [DigitChar(n % 10)]
  }

  /**
   * Python's `str(x)`, as used when an f-string formats a value. Null,
   * booleans, integers and strings are rendered as Python renders them; the
   * other kinds get a fixed placeholder (see README, "Left out").
   */
  function Str(j: Json): (r: string)
    ensures r == [] <==> j == JStr([])
  {
    match j
    case JNull => "None"
    case JBool(b) => if b then "True" else "False"
    case JInt(i) => if i < 0 then "-" + NatDigits(-i) else NatDigits(i)
    case JReal(_) => "<float>"
    case JStr(s) => s
    case JArr(_) => "<list>"
    case JObj(_) => "<dict>"
  }

  /** How one write of a JSON file ends; every failure is logged and swallowed by the caller. */
  datatype SaveOutcome =
    | Written       // the whole document reached the file
    | OpenFailed    // the file could not be opened for writing; it is untouched
    | DumpFailed    // serialising failed after the file was truncated, so it no longer parses

  /** Every element of a list is a string. */
  predicate AllStrings(items: seq<Json>)
  {
    forall k :: 0 <= k < |items| ==> items[k].JStr?
  }

  /** A list of strings as a JSON list. */
  function StrList(xs: seq<string>): (j: Json)
    ensures j.JArr? && |j.items| == |xs| && AllStrings(j.items)
    ensures forall k :: 0 <= k < |xs| ==> j.items[k] == JStr(xs[k])
  {
    JArr(seq(|xs|, k requires 0 <= k < |xs| => JStr(xs[k])))
  }
}
